=== FILE: README.md ===
# datetimeedit, modelled in Dafny

The repository is a Qt widget library for entering dates. It has four parts:

- **CalendarTable**: a six-by-seven grid of days for one month. It holds the
  shown month and the bounds (min/max date). It supports four selection
  modes (none, single, multi, range) and special dates. It also has the
  year and month button pages.
- **CalendarWidget**: the table plus its header buttons, pre/next arrows and
  month/year views.
- **Pickers**:
  - **DateTimePicker**: one calendar plus a time edit. **DatePicker** is the
    same picker with the time edit hidden.
  - **DateTimeRangePicker**: a start calendar and an end calendar, each with
    a time edit. It keeps an ordered pair of dates and checks that a
    single-day range does not end before it starts.
  - **DateRangePicker**: the range picker without the times.
- **DateTimeEdit**: the text field. It shows one date-time or a range
  `start ~ end` in its format, and opens the matching picker in a popup.

The model follows the program's structure, one module per part:

- `Dates`: the calendar arithmetic of `QDate` that the code relies on:
  validity, order, `addDays`, `dayOfWeek`, and the null date of an invalid
  `QDate(y, m, d)`.
- `CalendarSpec`: the pure logic of the table, written as functions, with
  lemmas. This covers:
  - the month carry and clamp of `setYearMonth`;
  - the grid and its header;
  - appending, removing and clicking in the selection;
  - the shading rules;
  - the year pages;
  - the midnight timer.
- `Calendar`: class `CalendarTable` (the items are a 6×7 `array2`) and class
  `ButtonGroup`. Their methods update fields in place and are proved against
  the functions of `CalendarSpec`.
- `CalendarView`: class `CalendarWidget`, which owns a table and two button
  groups.
- `Pickers`: classes `DateTimePicker` and `DateTimeRangePicker`.
  - The range picker's state (pair, times, flagged edits, queued one-second
    corrections) is read as a value `RangeState`.
  - Every method is proved to move that value by a pure transition
    function: `Selected`, `Checked`, `TimeSet`, `Corrected`,
    `DoubleClicked`, `Request`.
- `TextFormat`: `QDateTime::toString`/`fromString` for the formats
  `yyyy-MM-dd hh:mm:ss` and `yyyy-MM-dd`, and `QString::split` on ` ~ `.
  It proves that parsing what was written gives the value back.
- `Edit`: class `DateTimeEdit`. Its `real_text_` is a string that the slots
  rewrite. Requests the edit passes to its pickers are logged rather than
  carried out.

Signals are append-only event logs. A slot connected to a signal is run by
the emitting method right after the call that emits it. Times of day are
whole seconds. Dates are proleptic Gregorian, as `QDate` has them.

## Model

| member | source | states |
|---|---|---|
| `Dates.DaysInMonth` | src/core/calendartable.cc:366-396 | 28 to 31 days; only February has fewer than 30 |
| `Dates.MakeDate` | src/core/calendartable.cc:249 | `QDate(y, m, d)` is a date exactly when the triple is valid, and then that date |
| `Dates.DayOfWeek` | src/core/calendartable.cc:371 | `dayOfWeek` lies in 1..7 (Monday is 1) |
| `Dates.NextDay` | src/core/calendartable.cc:395 | the day after a valid date is valid |
| `Dates.PrevDay` | src/core/calendartable.cc:373-375 | the day before a valid date is valid |
| `Dates.AddDays` | src/core/calendartable.cc:373-395 | `addDays` of a valid date is valid |
| `Dates.NextPrevCancel` | src/core/calendartable.cc:373-395 | one day forward and one back are inverse |
| `Dates.NextDayIsLater` | src/core/calendartable.cc:395 | the next day comes strictly later |
| `Dates.AddDaysStep` | src/core/calendartable.cc:395 | adding n + 1 days is adding n days and stepping once more, for negative n too |
| `Dates.AddDaysAdd` | src/core/calendartable.cc:373-395 | adding a days, then b ≥ 0 days, is adding a + b days |
| `Dates.AddDaysNumber` | src/core/calendartable.cc:373-395 | `addDays(n)` moves the day number by exactly n |
| `Dates.DayOfWeekAddDays` | src/core/calendartable.cc:371-395 | the weekday advances cyclically by n when n days are added |
| `Dates.KnownMonday` | src/core/calendartable.cc:371 | the weekday numbering is calibrated: 2024-01-01 is a Monday |
| `Dates.PrevMonth` | src/core/calendartable.cc:183-184 | the month before: a month in 1..12 whose count y·12 + m is one less |
| `Dates.NextMonth` | src/core/calendartable.cc:183-184 | the month after: a month in 1..12 whose count y·12 + m is one more |
| `Dates.AddDaysBeforeMonth` | src/core/calendartable.cc:373-376 | counting back j days from the 1st lands on the previous month's day DaysInMonth − j + 1 |
| `Dates.AddDaysIntoNextMonth` | src/core/calendartable.cc:380-396 | counting past the month's last day lands in the next month |
| `Dates.AddDaysWithinMonth` | src/core/calendartable.cc:380-396 | counting j days from the 1st stays in the month on day j + 1 |
| `CalendarSpec.CRem` | src/core/calendartable.cc:183-184 | C++ `%` satisfies a = b·(a/b) + r with the remainder strictly between −b and b |
| `CalendarSpec.Carry` | src/core/calendartable.cc:183-184 | the intended carry: a month in 1..12 and the same absolute month count y·12 + m |
| `CalendarSpec.CarryIdentity` | src/core/calendartable.cc:183-184 | a month already in 1..12 is left alone |
| `CalendarSpec.CarryAsWrittenAgrees` | src/core/calendartable.cc:183-184 | the written carry equals the intended one for every month from −11 upwards |
| `CalendarSpec.Clamp` | src/core/calendartable.cc:186-192 | a year outside the bounds' years is refused; otherwise the year is kept, the month stays in 1..12, and a month already within the bounds is kept |
| `CalendarSpec.Target` | src/core/calendartable.cc:181-192 | the month `setYearMonth` moves to is a month in 1..12 |
| `CalendarSpec.TargetAsWrittenAgrees` | src/core/calendartable.cc:181-192 | for months from −11 upwards the written and corrected `setYearMonth` agree |
| `CalendarSpec.TargetAsWrittenMissesDecember` | src/core/calendartable.cc:183-184 | `setYearMonth(2024, -12)` as written moves to 2023-01 instead of 2022-12 |
| `CalendarSpec.ClampWithinBounds` | src/core/calendartable.cc:186-192 | a clamped month lies between the minimum's month and the maximum's month |
| `CalendarSpec.ClampIdempotent` | src/core/calendartable.cc:186-192 | clamping a clamped month changes nothing |
| `CalendarSpec.TargetOfDateWithinBounds` | src/core/calendartable.cc:181-195 | a date within the bounds asks `setYearMonth` for its own month, and that month is accepted unchanged |
| `CalendarSpec.TargetIdempotent` | src/core/calendartable.cc:181-195 | asking again for the month `setYearMonth` moved to gives that month, so the call reports no change |
| `CalendarSpec.BoundTestsAgree` | src/core/calendartable.cc:249-263 | when the bound's day exists in the shown month, the written tests of `setMaxDate`/`setMinDate` are "shown month after the max month" / "before the min month", both ways |
| `CalendarSpec.PastMaxAsWrittenMisses` | src/core/calendartable.cc:249 | with max 2025-03-31 and February 2030 shown, `QDate(2030, 2, 31)` is null and the move back to the maximum is skipped |
| `CalendarSpec.BeforeMinAsWrittenMisfires` | src/core/calendartable.cc:263 | with min 2020-01-31 and February 2024 shown, the null date tests below the minimum and the table jumps back to January 2020 |
| `CalendarSpec.NextEnabledIffMoves` | src/core/calendarwidget.cc:217-224 | within the bounds, the next arrow is enabled exactly when `setYearMonth(y, m + 1)` moves the table |
| `CalendarSpec.PreEnabledIffMoves` | src/core/calendarwidget.cc:226-233 | within the bounds, the corrected pre arrow is enabled exactly when `setYearMonth(y, m - 1)` moves the table |
| `CalendarSpec.PreEnabledAgrees` | src/core/calendarwidget.cc:226-233 | the written comparison agrees with the intended one when the minimum's day exists in the shown month, except on the minimum's own month |
| `CalendarSpec.PreEnabledAsWrittenMisjudges` | src/core/calendarwidget.cc:226-233 | the written comparison enables the arrow on the minimum's own month, where pre does nothing, and disables it on a month where pre would move |
| `CalendarSpec.LeadDays` | src/core/calendartable.cc:369-376 | 1 to 7 days of the previous month precede the 1st, never 0 |
| `CalendarSpec.Grid` | src/core/calendartable.cc:379-396 | 42 cells, cell i being `GridCell(i)` |
| `CalendarSpec.GridConsecutive` | src/core/calendartable.cc:395 | each cell holds the day after the previous cell, strictly later |
| `CalendarSpec.GridColumnWeekday` | src/core/calendartable.cc:369-396 | every cell in column c falls on weekday (c + first_day_on_week − 1) mod 7 + 1 |
| `CalendarSpec.GridCoversMonth` | src/core/calendartable.cc:379-396 | day k of the month sits undimmed in cell LeadDays + k − 1 |
| `CalendarSpec.GridFromFirst` | src/core/calendartable.cc:369-396 | cell i holds the 1st plus i − LeadDays days |
| `CalendarSpec.GridLeadCells` | src/core/calendartable.cc:372-392 | cells before the 1st hold the previous month's last days, dimmed |
| `CalendarSpec.GridTrailCells` | src/core/calendartable.cc:379-396 | cells after the last day hold the next month's first days, dimmed |
| `CalendarSpec.GridDimmedIff` | src/core/calendartable.cc:390-392 | a cell is dimmed exactly when it is outside the run of the month's own days |
| `CalendarSpec.HeaderLabels` | src/core/calendartable.cc:403-415 | seven labels, column c reading name (c + first_day_on_week − 1) mod 7 |
| `CalendarSpec.HeaderNamesWeekday` | src/core/calendartable.cc:403-415 | the label over every cell names that cell's weekday |
| `CalendarSpec.Append` | src/core/calendartable.cc:494-522 | refused exactly for no-selection mode, a selected date outside range mode, or a date out of bounds; otherwise the date is selected |
| `CalendarSpec.AppendShape` | src/core/calendartable.cc:502-514 | single and range modes hold exactly the new date; multi mode appends it |
| `CalendarSpec.AppendKeepsInvariant` | src/core/calendartable.cc:494-522 | appending keeps the selection within bounds and free of duplicates |
| `CalendarSpec.RemoveAll` | src/core/calendartable.cc:230 | `removeAll` drops every copy of x and keeps the multiset of the rest |
| `CalendarSpec.Remove` | src/core/calendartable.cc:524-538 | refused exactly for an unselected date or the last date of a single selection; otherwise all copies are dropped |
| `CalendarSpec.RemoveKeepsSingleNonEmpty` | src/core/calendartable.cc:529-532 | a single selection is never emptied by removal |
| `CalendarSpec.RemoveKeepsInvariant` | src/core/calendartable.cc:524-538 | removal keeps the selection within bounds and free of duplicates |
| `CalendarSpec.NoDuplicatesCount` | src/core/calendartable.cc:534 | with no duplicates each date occurs at most once |
| `CalendarSpec.ClickSelection` | src/core/calendartable.cc:334-360 | outside range mode a selected date is removed, any other appended; range mode only appends |
| `CalendarSpec.ClickTogglesMulti` | src/core/calendartable.cc:337-344 | in multi mode a click within bounds toggles the date |
| `CalendarSpec.ClickSingle` | src/core/calendartable.cc:336-344 | in single mode a click selects exactly an unselected in-bounds date and never unselects the only one |
| `CalendarSpec.SelectionShade` | src/core/calendartable.cc:424-438 | selected dates are shaded as selected; special dates as special, except in range mode |
| `CalendarSpec.SpecialDateShade` | src/core/calendartable.cc:467-473 | only the first selected date is shaded as selected, then special dates |
| `CalendarSpec.ShadesAgree` | src/core/calendartable.cc:417-473 | the two shadings agree whenever at most one date is selected outside range mode |
| `CalendarSpec.Page` | src/core/calendartable.cc:564-572 | twelve consecutive years from the start |
| `CalendarSpec.PageStart` | src/core/calendartable.cc:552-562 | the intended page contains the year and is a whole number of pages from the anchor |
| `CalendarSpec.PageStartAsWrittenAgrees` | src/core/calendartable.cc:556-562 | the written page start is right unless the year is a whole number of pages before the anchor |
| `CalendarSpec.PageStartAsWrittenMisses` | src/core/calendartable.cc:559-562 | in that case the written page is the one before and does not contain the year |
| `CalendarSpec.MidnightDelay` | src/core/calendartable.cc:486-492 | the timer ends at 00:00:03 of the next day, more than 3 and at most 86403 seconds away |
| `Calendar.CalendarTable.constructor` | src/core/calendartable.cc:134-179 | opens on (y, m): Sunday first, single mode, bounds y−100-01-01 to y+99-12-31, empty selection, grid and header filled, one refresh signal |
| `Calendar.CalendarTable.StartRefreshTimer` | src/core/calendartable.cc:486-492 | the midnight timer is set to `MidnightDelay(now)` |
| `Calendar.CalendarTable.RefreshCalendar` | src/core/calendartable.cc:366-401 | the items show the grid of the shown month for the current first day; `refresh(year, month)` is sent |
| `Calendar.CalendarTable.FillItems` | src/core/calendartable.cc:379-396 | item (r, c) holds cell 7r + c of the grid |
| `Calendar.CalendarTable.RefreshCalendarHeader` | src/core/calendartable.cc:403-415 | with seven names the header becomes `HeaderLabels`; otherwise it is unchanged |
| `Calendar.CalendarTable.SetYearMonth` | src/core/calendartable.cc:181-202 | corrected: moves to `Target` and reports true exactly when that differs from the shown month, refreshing then; otherwise nothing changes |
| `Calendar.CalendarTable.SetFirstDayOnWeekAsWritten` | src/core/calendartable.cc:204-208 | as written: the header is relabelled but the items are not refilled |
| `Calendar.CalendarTable.SetFirstDayOnWeek` | src/core/calendartable.cc:204-208 | corrected: the header and the grid agree on the new first day |
| `Calendar.HeaderMislabelsAfterFirstDayChange` | src/core/calendartable.cc:204-208 | after the written change from Sunday to Monday, every column's label names the wrong weekday |
| `Calendar.CalendarTable.SetSelMode` | src/core/calendartable.cc:210-214 | the new mode starts with an empty selection and one `selectionChanged` |
| `Calendar.CalendarTable.SetSpecialDate` | src/core/calendartable.cc:216-220 | the special dates become the given list |
| `Calendar.CalendarTable.AppendSelection` | src/core/calendartable.cc:494-522 | the selection becomes `Append(...)` when accepted, with `selectionAdded` then `selectionChanged`; otherwise nothing changes |
| `Calendar.CalendarTable.RemoveSelection` | src/core/calendartable.cc:524-538 | the selection becomes `Remove(...)` when accepted, with `selectionDeleted`; otherwise nothing changes |
| `Calendar.CalendarTable.AddSelectedDate` | src/core/calendartable.cc:222-226 | as `AppendSelection` |
| `Calendar.CalendarTable.DeleteSelectedDate` | src/core/calendartable.cc:228-233 | every copy of the date is dropped, even the last of a single selection; `selectionChanged` is sent |
| `Calendar.CalendarTable.ClearSelectedDate` | src/core/calendartable.cc:235-240 | the selection is emptied and `selectionChanged` sent |
| `Calendar.CalendarTable.SetDateRange` | src/core/calendartable.cc:270-275 | the selection becomes [start, end] with no signal |
| `Calendar.CalendarTable.SetMaxDate` | src/core/calendartable.cc:242-254 | corrected: an equal bound is a no-op; otherwise the new bound is stored, the move happens exactly when the shown month is past the new maximum's month, and `maxDateChanged` is sent |
| `Calendar.CalendarTable.SetMinDate` | src/core/calendartable.cc:256-268 | corrected: the mirror of `SetMaxDate` for the minimum |
| `Calendar.CalendarTable.Wheel` | src/core/calendartable.cc:277-296 | when enabled, a wheel turn away from the user goes to `Target(y, m − 1)` and towards the user to `Target(y, m + 1)`, and is consumed |
| `Calendar.CalendarTable.ItemClicked` | src/core/calendartable.cc:298-311 | the first click remembers the date and starts the 120 ms timer; the click ending a double click only clears the flag |
| `Calendar.CalendarTable.ItemDoubleClicked` | src/core/calendartable.cc:313-325 | marks the double click and sends `dateDoubleClicked` exactly for an in-bounds date |
| `Calendar.CalendarTable.ClickTimerFired` | src/core/calendartable.cc:327-364 | nothing during a double click or with no clicked date; otherwise the selection becomes `ClickSelection`, and outside range mode the table moves to the clicked date's month |
| `Calendar.CalendarTable.Clicked` | src/core/calendartable.cc:327-364 | selection, outcome, month and signals as `ClickedAt` describes |
| `Calendar.CalendarTable.ToggleSelection` | src/core/calendartable.cc:334-360 | the selection becomes `ClickSelection`; the outcome and signals say which way |
| `Calendar.CalendarTable.MidnightTimerFired` | src/core/calendartable.cc:480-484 | the timer restarts and the grid is refilled for the same month |
| `Calendar.ButtonGroup.YearGroup` | src/core/calendartable.cc:576-601 | the years year−6 .. year+5, none checked |
| `Calendar.ButtonGroup.MonthGroup` | src/core/calendartable.cc:638-668 | the months 1 .. 12, none checked |
| `Calendar.ButtonGroup.CheckOnly` | src/core/calendartable.cc:547 | exactly that button is checked |
| `Calendar.ButtonGroup.SetSelection` | src/core/calendartable.cc:540-574 | corrected: the button for id is checked alone; the page is kept when it holds id, otherwise it becomes the anchored page holding id |
| `Calendar.ButtonGroup.ToPreYearPage` | src/core/calendartable.cc:603-609 | the page moves back twelve years and checks only the current year |
| `Calendar.ButtonGroup.ToNextYearPage` | src/core/calendartable.cc:611-617 | the page moves forward twelve years and checks only the current year |
| `Calendar.ButtonGroup.RefreshYearPage` | src/core/calendartable.cc:619-636 | the page becomes the twelve years from show, with only the current year checked |
| `Calendar.ButtonGroup.Click` | src/core/calendartable.cc:593-598 | clicking button i reports its id and checks it alone |
| `CalendarView.CalendarWidget.constructor` | src/core/calendarwidget.cc:11-100 | a table on (y, m), the year page around y, date view, arrows computed from the bounds |
| `CalendarView.CalendarWidget.Refresh` | src/core/calendarwidget.cc:109-117 | the header names the month and year; outside the month view the arrows reflect the bounds |
| `CalendarView.CalendarWidget.DispatchRefresh` | src/core/calendarwidget.cc:44-45 | the doubly connected refresh slot leaves the same state as one run |
| `CalendarView.CalendarWidget.RefreshNextEnable` | src/core/calendarwidget.cc:217-224 | outside the month view, next is enabled exactly when the shown month is before the maximum's month |
| `CalendarView.CalendarWidget.RefreshPreEnable` | src/core/calendarwidget.cc:226-233 | corrected: outside the month view, pre is enabled exactly when the shown month is after the minimum's month |
| `CalendarView.CalendarWidget.SetYearMonth` | include/calendarwidget.h:31 | the table moves to `Target`, the selection and bounds are untouched, the arrows follow |
| `CalendarView.CalendarWidget.ViewChanged` | src/core/calendarwidget.cc:129-160 | each header button toggles its view. Opening the month view checks the shown month on the unchanged month page and disables both arrows. Opening the year view keeps a page that holds the shown year, otherwise turns to the anchored page holding it (`PageStart`), checks it and enables both arrows. Closing a view returns to the date view with both arrows enabled |
| `CalendarView.CalendarWidget.Pre` | src/core/calendarwidget.cc:162-169 | a disabled arrow does nothing; in the year view the page moves back; otherwise the table goes to `Target(y, m − 1)` of the bounds before the call; the table's selection, mode, bounds and click state are kept; after a move outside the month view both arrows follow the bounds (refresh, calendarwidget.cc:109-117), otherwise they are kept |
| `CalendarView.CalendarWidget.Next` | src/core/calendarwidget.cc:171-178 | the mirror of `Pre`: `Target(y, m + 1)`, the table's selection, mode, bounds and click state kept, the arrows recomputed after a move |
| `CalendarView.CalendarWidget.MonthClicked` | src/core/calendarwidget.cc:180-186 | goes to that month of the shown year, back to the date view, both arrows enabled; the table's selection, mode, bounds and click state are kept |
| `CalendarView.CalendarWidget.YearClicked` | src/core/calendarwidget.cc:188-194 | goes to the shown month of that year, back to the date view, both arrows enabled; the table's selection, mode, bounds and click state are kept |
| `CalendarView.CalendarWidget.SetSelMode` | include/calendarwidget.h:32 | the table's mode changes and its selection is emptied |
| `CalendarView.CalendarWidget.AddSelectedDate` | include/calendarwidget.h:26 | the table's selection becomes `Append(...)` when accepted; reports whether `selectionAdded` was sent |
| `CalendarView.CalendarWidget.ClearSelectedDate` | include/calendarwidget.h:29 | the table's selection is emptied |
| `CalendarView.CalendarWidget.DeleteSelectedDate` | include/calendarwidget.h:28 | the table drops every copy of the date |
| `CalendarView.CalendarWidget.SetSpecialDate` | include/calendarwidget.h:27 | the table's special dates become the list |
| `CalendarView.CalendarWidget.SetDateRange` | include/calendarwidget.h:35 | the table's selection becomes [start, end] |
| `CalendarView.CalendarWidget.SetMaxDate` | include/calendarwidget.h:33 | the bound is stored; the month is kept unless the shown month is past the new maximum's month; the next arrow then follows the new bound (calendarwidget.cc:119-122) |
| `CalendarView.CalendarWidget.SetMinDate` | include/calendarwidget.h:34 | the bound is stored; the month is kept unless the shown month is before the new minimum's month; the pre arrow then follows the new bound (calendarwidget.cc:124-127) |
| `CalendarView.CalendarWidget.Wheel` | src/core/calendartable.cc:277-296 | the table's wheel handling: when enabled, the month moves to `Target(y, m ∓ 1)` of the bounds before the call; the table's selection, mode, bounds and click state and the view are kept; after a move outside the month view both arrows follow the bounds |
| `CalendarView.CalendarWidget.ItemClicked` | src/core/calendartable.cc:298-311 | the table's click bookkeeping |
| `CalendarView.CalendarWidget.ItemDoubleClicked` | src/core/calendartable.cc:313-325 | `dateDoubleClicked` is forwarded exactly for an in-bounds date |
| `CalendarView.CalendarWidget.ClickTimerFired` | src/core/calendartable.cc:327-364 | the table's click outcome; an added date lies within the bounds; the bounds, mode and click flag are kept; outside range mode a selection change moves to `Target` of the clicked date's month when that differs from the shown month, otherwise the month is kept; the arrows follow a move |
| `CalendarView.CalendarWidget.MidnightTimerFired` | src/core/calendartable.cc:480-484 | the month, view and the table's selection, mode, bounds and click state are kept; the timer restarts; outside the month view the refresh recomputes both arrows from the bounds |
| `Pickers.Other` | src/core/datetimepicker.cc:177-178 | the side that did not fire |
| `Pickers.ResetTime` | src/core/datetimepicker.cc:191 | the start edit is reset to 00:00:00 and the end edit to 23:59:59 |
| `Pickers.DateRangeSignals` | src/core/datetimepicker.cc:106-107 | n `dateRangeChanged` signals |
| `Pickers.ClampPair` | src/core/datetimepicker.cc:177-188 | the firing side takes the date and the pair ends ordered |
| `Pickers.ClampPairOther` | src/core/datetimepicker.cc:182-188 | the other side keeps its date exactly when that keeps the order, and otherwise takes the same date |
| `Pickers.Checked` | src/core/datetimepicker.cc:190-194 | dates and times are kept; a reversed single-day range flags the side and queues its reset; soundness is kept |
| `Pickers.Selected` | src/core/datetimepicker.cc:173-194 | the pair becomes `ClampPair`; the times are kept; soundness is kept |
| `Pickers.SelectedQueuesIffReversed` | src/core/datetimepicker.cc:190-194 | a reset is queued exactly when the new pair is one day and the start time is after the end time |
| `Pickers.TimeSet` | src/core/datetimepicker.cc:242-250 | the side's time is set, the other side's time and the pair are kept, soundness is kept |
| `Pickers.Corrected` | src/core/datetimepicker.cc:263-266 | the oldest queued reset applies: that side gets its reset time, the range is ordered again, the queue shrinks by one |
| `Pickers.DoubleClicked` | src/core/datetimepicker.cc:223-240 | both sides become the date; the times are reset only when reversed; the queue is kept |
| `Pickers.RequestAsWritten` | src/core/datetimepicker.cc:139-149 | as written: an unordered request changes nothing; otherwise the times become the requested ones |
| `Pickers.AddsAsWritten` | src/core/datetimepicker.cc:144-145 | the two adds keep the times, and with both in bounds the end date is requested and the start either requested or pulled to the end |
| `Pickers.RequestAsWrittenQueuesSpuriousReset` | src/core/datetimepicker.cc:139-149 | an ordered request (10:00 to 12:00 on a single day, end time 01:00 before) queues a reset of the start time to 00:00 |
| `Pickers.Request` | src/core/datetimepicker.cc:139-149 | corrected: an unordered request changes nothing; otherwise the times become the requested ones and soundness is kept |
| `Pickers.RequestHonoured` | src/core/datetimepicker.cc:139-149 | an ordered in-bounds request is honoured exactly, with nothing flagged or queued |
| `Pickers.RequestAgreesOnRange` | src/core/datetimepicker.cc:139-149 | as written and corrected leave the same pair and times; only the queued resets differ |
| `Pickers.BuildCalendar` | src/core/datetimepicker.cc:67 | a new valid calendar widget in the date view on today's month, with bounds a century around today's year |
| `Pickers.DateTimeRangePicker.constructor` | src/core/datetimepicker.cc:62-125 | today's day of (y, m) on both sides, 00:00:00 to 23:59:59, each calendar showing its date, no signal |
| `Pickers.DateTimeRangePicker.DateRange` | src/core/datetimepicker.cc:310-324 | the pair becomes the 1st of (y, m) to today's day, from 00:00:00 to 23:59:59, with one `dateRangeChanged` per clear and per shown date |
| `Pickers.DateTimeRangePicker.OpenAsDateRange` | src/core/datetimepicker.cc:313-323 | replaces the pair after the base constructor, with the handler disconnected |
| `Pickers.DateTimeRangePicker.Open` | src/core/datetimepicker.cc:67-111 | the set-up leaves both calendars in range mode on (y, m) showing the pair |
| `Pickers.DateTimeRangePicker.SetUpCalendars` | src/core/datetimepicker.cc:67-79 | both calendars in range mode on (y, m) |
| `Pickers.DateTimeRangePicker.SetUpCalendar` | src/core/datetimepicker.cc:70-72 | one calendar in range mode on (y, m), bounds kept |
| `Pickers.DateTimeRangePicker.ReplacePair` | src/core/datetimepicker.cc:313-323 | the pair becomes (a, b), the calendars show it, and the bounds are kept |
| `Pickers.DateTimeRangePicker.OnSelectionAdded` | src/core/datetimepicker.cc:297-308 | while connected, a selection runs the handler; while disconnected nothing happens |
| `Pickers.DateTimeRangePicker.CalendarSelectionAdded` | src/core/datetimepicker.cc:173-202 | the state becomes `Selected`; each calendar moves to and shows its date; the bounds are kept |
| `Pickers.DateTimeRangePicker.UpdatePair` | src/core/datetimepicker.cc:177-194 | the pair update and the check, as `Selected` |
| `Pickers.DateTimeRangePicker.MoveCalendars` | src/core/datetimepicker.cc:196-197 | each calendar moves to its date's month, selection and bounds kept |
| `Pickers.DateTimeRangePicker.MoveCalendar` | src/core/datetimepicker.cc:196 | one calendar moves to the date's month |
| `Pickers.DateTimeRangePicker.RefreshCalendarSelection` | src/core/datetimepicker.cc:282-295 | both selections are cleared, then each date is re-added when in bounds; the state is kept |
| `Pickers.DateTimeRangePicker.ClearSelections` | src/core/datetimepicker.cc:284-285 | both selections are emptied with two `dateRangeChanged`; months, bounds and modes are kept |
| `Pickers.DateTimeRangePicker.ClearSelection` | src/core/datetimepicker.cc:284-285 | the calendar's selection is emptied, one `dateRangeChanged` |
| `Pickers.DateTimeRangePicker.ShowSide` | src/core/datetimepicker.cc:287-294 | the date is shown on its calendar exactly when in bounds; the other calendar is untouched |
| `Pickers.DateTimeRangePicker.AddShown` | src/core/datetimepicker.cc:287-291 | the date becomes the calendar's selection, and the disconnected handler leaves the pair, the times and the other calendar as they were |
| `Pickers.DateTimeRangePicker.ShowError` | src/core/datetimepicker.cc:252-267 | the edit is flagged and its reset queued for the one-second timer |
| `Pickers.DateTimeRangePicker.TimeChanged` | src/core/datetimepicker.cc:242-250 | the state becomes `Checked`; `timeRangeChanged` is sent |
| `Pickers.DateTimeRangePicker.SetTime` | src/core/datetimepicker.cc:110-111 | the state becomes `TimeSet`; the slot runs only when the time changes |
| `Pickers.DateTimeRangePicker.CorrectionTimerFired` | src/core/datetimepicker.cc:263-266 | the state becomes `Corrected`; the slot runs when the reset changes the time |
| `Pickers.DateTimeRangePicker.DateDoubleClicked` | src/core/datetimepicker.cc:223-240 | the state becomes `DoubleClicked`; both calendars go to the date's month and show it |
| `Pickers.DateTimeRangePicker.SelectDay` | src/core/datetimepicker.cc:227-235 | pair, months and time reset of the double click |
| `Pickers.DateTimeRangePicker.ResetTimes` | src/core/datetimepicker.cc:232-235 | the times become 00:00:00 and 23:59:59, with two `timeRangeChanged` |
| `Pickers.DateTimeRangePicker.AddSelectedDate` | src/core/datetimepicker.cc:127-149 | added exactly when the date is within that calendar's bounds; the state then becomes `Selected` and both calendars follow the new pair's months (datetimepicker.cc:196-197); otherwise nothing changes; the bounds are kept |
| `Pickers.DateTimeRangePicker.DeliverAdded` | src/core/datetimepicker.cc:173-202 | the handler after an accepted add: the state becomes `Selected`, both calendars follow the pair's months, and their bounds are kept |
| `Pickers.DateTimeRangePicker.AddOnCalendar` | include/calendarwidget.h:26 | the calendar's selection becomes [d] exactly when d is in bounds |
| `Pickers.DateTimeRangePicker.ItemClicked` | src/core/calendartable.cc:298-311 | the clicked calendar remembers the date and starts its timer |
| `Pickers.DateTimeRangePicker.ClickTimerFired` | src/core/calendartable.cc:354-359 | a click in range mode adds a date within the bounds before the call, and the handler moves the state to `Selected` with both calendars following the pair; any other click leaves state, calendars and log; the bounds are kept |
| `Pickers.DateTimeRangePicker.ItemDoubleClicked` | src/core/datetimepicker.cc:108-109 | emitted exactly for an in-bounds date, and then the state becomes `DoubleClicked` with both calendars following the date's month; otherwise nothing changes; the bounds are kept |
| `Pickers.DateTimeRangePicker.SetStartDateTime` | src/core/datetimepicker.cc:127-131 | the state becomes `TimeSet(Start, ...)` of the add's state; an accepted add moves both calendars to the pair's months, otherwise they are kept; the bounds are kept; the log gains the add's `3 + ShownCount()` `dateRangeChanged` signals when accepted, then `timeRangeChanged` when the start time changes |
| `Pickers.DateTimeRangePicker.SetEndDateTime` | src/core/datetimepicker.cc:133-137 | the mirror of `SetStartDateTime` on the end calendar and the end time, with the same exact log |
| `Pickers.DateTimeRangePicker.SetDateTimeRangeAsWritten` | src/core/datetimepicker.cc:139-149 | as written: the state becomes `RequestAsWritten`; when a date is accepted both calendars show the pair's target months, otherwise they are kept; the bounds are kept |
| `Pickers.DateTimeRangePicker.SetTimes` | src/core/datetimepicker.cc:147-148 | the state becomes `TimeSet(End, b, TimeSet(Start, a, ...))`: two time edits, each running the range check and sending `timeRangeChanged` exactly when it changes its time |
| `Pickers.DateTimeRangePicker.AddDates` | src/core/datetimepicker.cc:144-145 | the state becomes `AddsAsWritten`; when a date is accepted both calendars show the pair's target months, otherwise they are kept; the bounds are kept |
| `Pickers.DateTimeRangePicker.SetDateTimeRange` | src/core/datetimepicker.cc:139-149 | corrected: the state becomes `Request`; when a date is accepted both calendars follow the pair's months, otherwise they are kept; the bounds are kept; an ordered request logs the redraw's `2 + ShownCount()` `dateRangeChanged` signals and one `timeRangeChanged`, an unordered one nothing |
| `Pickers.DateTimeRangePicker.WriteRequest` | src/core/datetimepicker.cc:139-149 | the pair and times are written with the handler off; one check then gives `Request` |
| `Pickers.DateTimeRangePicker.Redraw` | src/core/datetimepicker.cc:196-201 | both calendars show the pair, the handler is reconnected, and the state is kept; with `move` both calendars follow the pair's months, otherwise they are kept; the bounds are kept; the log gains exactly `2 + ShownCount()` `dateRangeChanged` signals |
| `Pickers.DateTimeRangePicker.RedrawAndCheck` | src/core/datetimepicker.cc:139-149 | the tail of the corrected request: the redraw, then one range check (`Checked(End, ...)`), with `2 + ShownCount()` `dateRangeChanged` signals and one `timeRangeChanged` |
| `Pickers.DateTimePicker.constructor` | src/core/datetimepicker.cc:8-32 | a calendar on (y, m) in single mode with today selected when in bounds, time 00:00:00, no signal |
| `Pickers.DateTimePicker.CurrentDateTime` | src/core/datetimepicker.cc:40-43 | a selected date with the edit's time |
| `Pickers.DateTimePicker.SetDateTime` | src/core/datetimepicker.cc:34-54 | an in-bounds date-time is read back by `dateTime`; an out-of-bounds date leaves the selection; exactly one `dateChanged` for a newly selected in-bounds date, which moves the calendar to that date's month (via `Target`), otherwise the month is kept; then one `timeChanged` exactly when the time changes |
| `Pickers.DateTimePicker.SetTime` | src/core/datetimepicker.cc:24 | `time_edit_->setTime`: the time is stored, and `timeChanged` reaches the picker exactly when the time changes |
| `Pickers.DateTimePicker.CalendarSelectionChanged` | src/core/datetimepicker.cc:45-54 | with a selection, the calendar moves to its month and `dateChanged` is sent; the selection and bounds are kept |
| `Pickers.DateTimePicker.UserTimeChanged` | src/core/datetimepicker.cc:24 | a change of the edit's time: the time is stored and `timeChanged` sent |
| `Pickers.DateTimePicker.ItemClicked` | src/core/calendartable.cc:298-311 | the calendar remembers the date and starts its timer |
| `Pickers.DateTimePicker.ClickTimerFired` | src/core/calendartable.cc:327-364 | a click selects an unselected in-bounds date, sends `dateChanged` and shows that date's month (datetimepicker.cc:45-54); otherwise selection, month and log are kept; the bounds and the time are kept |
| `TextFormat.YearText` | src/core/datetimeedit.cc:412-413 | `yyyy` is at least four characters, with no `~` or space |
| `TextFormat.DateText` | src/core/datetimeedit.cc:423-424 | `yyyy-MM-dd` is at least ten characters, with no `~` or space |
| `TextFormat.TimeText` | src/core/datetimeedit.cc:412-413 | `hh:mm:ss` is eight characters |
| `TextFormat.Format` | src/core/datetimeedit.cc:406-450 | the written text contains no `~` |
| `TextFormat.Shown` | src/core/datetimeedit.cc:423-424 | the date-time layout keeps the value; the date layout keeps the date at 00:00:00 |
| `TextFormat.Parse` | src/core/datetimeedit.cc:208-216 | a text parses only to a valid date-time that writes back to the same text |
| `TextFormat.ReadDateText` | src/core/datetimeedit.cc:208-216 | reading a written date gives the date |
| `TextFormat.ReadTimeText` | src/core/datetimeedit.cc:208-216 | reading a written time gives the time |
| `TextFormat.ParseFormat` | src/core/datetimeedit.cc:208-216 | parsing what was written gives the value as the layout shows it |
| `TextFormat.ParseDateOnly` | src/core/datetimeedit.cc:423-424 | the date layout reads back the date at 00:00:00 |
| `TextFormat.ParseDateAndTime` | src/core/datetimeedit.cc:412-413 | the date-time layout reads back the value itself |
| `TextFormat.FormatInjective` | src/core/datetimeedit.cc:406-450 | two values write the same text exactly when the layout shows them alike |
| `TextFormat.Split` | src/core/datetimeedit.cc:299-303 | `split` gives at least one part, and joining the parts gives the text back |
| `TextFormat.SplitRange` | src/core/datetimeedit.cc:208-216 | a text `a ~ b` with no `~` in a or b splits into exactly [a, b] |
| `Edit.LayoutOf` | src/core/datetimeedit.cc:410-450 | the date-time layout exactly for the DateTime and DateTimeRange kinds |
| `Edit.RangeText` | src/core/datetimeedit.cc:433-434 | the range text splits back into its two written halves |
| `Edit.ReadRange` | src/core/datetimeedit.cc:208-216 | a text reads as a range only when it is two written halves joined by ` ~ ` |
| `Edit.ReadRangeText` | src/core/datetimeedit.cc:208-216 | a written range reads back as its two ends as the layout shows them |
| `Edit.RangeOrderedText` | src/core/datetimeedit.cc:218-222 | a range text is valid exactly when its start is not after its end; the date layout compares dates only |
| `Edit.RangeSpansMonthsText` | src/core/datetimeedit.cc:224-231 | a range text spans months exactly when its ends lie in different months |
| `Edit.EditedText` | src/core/datetimeedit.cc:287-309 | a single kind's text reads back the new value; a range kind's text replaces the field's half and keeps the other half verbatim |
| `Edit.RewriteKeepsRange` | src/core/datetimeedit.cc:377-378 | writing a field's own value into its half leaves the range text unchanged |
| `Edit.EditedTextIdempotent` | src/core/datetimeedit.cc:287-309 | rewriting a field twice with one value is rewriting it once |
| `Edit.ForwardOf` | src/core/datetimeedit.cc:293-308 | a single kind forwards to its picker; a range kind forwards to the field's side |
| `Edit.SecondBefore` | src/core/datetimeedit.cc:431 | the second before a date-time is valid and earlier |
| `Edit.EndOfDay` | src/core/datetimeedit.cc:431 | the start of the next day less one millisecond is 23:59:59 of the same day |
| `Edit.InitialText` | src/core/datetimeedit.cc:406-465 | reads back as today's day of (y, m) at 00:00; for the ranges, to 23:59:59 or from the 1st |
| `Edit.DateTimeEdit.Value` | src/core/datetimeedit.cc:336 | the value the text holds, which writes back to the text |
| `Edit.DateTimeEdit.StartDateTime` | src/core/datetimeedit.cc:208-211 | the half before ` ~ `, read back |
| `Edit.DateTimeEdit.EndDateTime` | src/core/datetimeedit.cc:213-216 | the half after ` ~ `, read back |
| `Edit.DateTimeEdit.IsValidDateTimeRange` | src/core/datetimeedit.cc:218-222 | true exactly when the end is not before the start |
| `Edit.DateTimeEdit.IsDifferentYearOrMonth` | src/core/datetimeedit.cc:224-231 | true exactly when the two ends lie in different months |
| `Edit.DateTimeEdit.constructor` | src/core/datetimeedit.cc:9-129 | text and fields as `initDateFormat` leaves them, nothing forwarded |
| `Edit.DateTimeEdit.DateTimeChanged` | src/core/datetimeedit.cc:287-309 | the text becomes `EditedText`, and the value is forwarded |
| `Edit.DateTimeEdit.SetEditDateTime` | src/core/datetimeedit.cc:117-118 | the field takes the value; the slot runs only when the value changed |
| `Edit.DateTimeEdit.TimeChanged` | src/core/datetimeedit.cc:332-345 | the value takes the new time and keeps its date; the field shows it |
| `Edit.DateTimeEdit.DateChanged` | src/core/datetimeedit.cc:347-360 | the value takes the new date and keeps its time; the field shows it |
| `Edit.DateTimeEdit.TimeRangeChanged` | src/core/datetimeedit.cc:362-382 | both ends take the picker's times and keep their dates; start, then end, is signalled |
| `Edit.DateTimeEdit.DateRangeChanged` | src/core/datetimeedit.cc:383-404 | both ends take the picker's dates and keep their times; start, then end, is signalled |
| `Edit.DateTimeEdit.ShowRange` | src/core/datetimeedit.cc:373-378 | the text becomes the range and both fields show its halves; a field that changed forwards its value |
| `Edit.DateTimeEdit.ShowHalf` | src/core/datetimeedit.cc:377-378 | one field is set to its half; the text is unchanged |
| `Edit.DateTimeEdit.SetDate` | src/core/datetimeedit.cc:131-137 | a single kind forwards the date at 00:00:00 |
| `Edit.DateTimeEdit.SetDateTime` | src/core/datetimeedit.cc:139-145 | a single kind forwards the value |
| `Edit.DateTimeEdit.SetStartDateTime` | src/core/datetimeedit.cc:147-153 | a range kind forwards the start |
| `Edit.DateTimeEdit.SetEndDateTime` | src/core/datetimeedit.cc:155-161 | a range kind forwards the end |
| `Edit.DateTimeEdit.SetDateTimeRange` | src/core/datetimeedit.cc:163-169 | a range kind forwards both ends |
| `Edit.DateTimeEdit.ResetDateTime` | src/core/datetimeedit.cc:171-180 | a range kind asks for today 00:00:00 to 23:59:59 |
| `Edit.DateTimeEdit.PickerShown` | src/core/datetimeedit.cc:238-257 | the shown picker is given the value the text holds |

## Left out

- Painting, layout, styles, animations and the tooltip are left out: colours, sizes, `paintEvent`, `setToolTip`, `initAnimation`, the delegates and the red border of `showError` (only its timer is modelled).
- Item shading is stated as the functions `SelectionShade` and `SpecialDateShade`. No item field is kept for it. The "today" point colour is left out.
- The cursor handling of `DateTimeEdit` is left out (`cursorPositionChanged`, `cursorJump`, `setCursorPosInVisivle`, `SimpleDateTimeEdit::keyPressEvent`), as are the popup placement of `editBtnClicked` and `resizeEvent`. All of these are geometry and focus.
- `CalendarWidget::setTitle`, `addWidgetBottom` and `addLayoutBottom` only place widgets.
- Hiding the time edits in `DatePicker` and `DateRangePicker` is not modelled. It has no effect on the values.
- `DateTimeRangePicker::calendarRefresh` is not modelled. Its body only disconnects and reconnects itself: the two calls it guards are commented out, and it is never connected.
- The getters `timeRange` and `dateRange` of the range picker are its fields. The getters `date`, `selected_date` and `time` of the edit ask its pickers, which the edit model does not hold (see the next item).
- The edit does not contain its four pickers. What it asks of them is appended to the `forwarded` log, and what they signal arrives as slot arguments. The loop where a forwarded value comes back as a picker signal is therefore not followed.
- The `sender()`/`qobject_cast` guards of the slots are not modelled. Each slot is entered with the sender that the connections allow.
- The `APP_PLATFORM` branches of `initDateFormat` use formats defined outside the repository and are left out.
- Qt's `QDateTimeEdit` range (1752 to 9999) is not modelled, nor its clamping. The years are unbounded integers.
- Dates are proleptic Gregorian with a year 0, whereas `QDate` has no year 0. The difference only matters across 1 BC/AD 1, a hundred years from any current date.
- Milliseconds are left out. Times are whole seconds, so `addMSecs(-1)` followed by writing with `ss` becomes the second before (`Edit.SecondBefore`).
- `TextFormat.Parse` accepts exactly the texts that `Format` writes. This holds for years of any digit count and with a minus sign. Qt's `fromString` also accepts a few other spellings that the edit never writes.
- An invalid or null `QDate` is modelled only where the code builds one from a triple (`MakeDate`, `QAfter`, `QBefore`). Public methods take valid dates.
- Pickers.DateTimeRangePicker.AddDates: its events are stated only as growing (`old(events) <= events`), because the number of `dateRangeChanged` signals of the first add depends on the calendars shown in between the two adds.
- Pickers.DateTimeRangePicker.SetDateTimeRangeAsWritten: events only as growing, as for `AddDates`.
- Edit.DateTimeEdit.TimeRangeChanged: the forwarded log is stated only as growing. `ShowRange` states it exactly.
- Edit.DateTimeEdit.DateRangeChanged: the forwarded log is stated only as growing, as for `TimeRangeChanged`.
- Edit.DateTimeEdit.constructor: the edit needs today's day to exist in month (y, m). For the single kinds it also needs today to lie within the picker's bounds (y − 100 to y + 99). Outside these, the source builds a null date or reads `selected_date().at(0)` of an empty list.
- Edit.DateTimeEdit.constructor: for the single kinds the start field shows the picker's date (today) at 00:00:00, while the text holds day `today.day` of (y, m). With the default arguments these coincide.
- Pickers.DateTimeRangePicker.constructor: it needs today's day to exist in month (y, m). Otherwise the source builds a null date.
- Calendar.CalendarTable.SetYearMonth, Calendar.CalendarTable.SetMaxDate, Calendar.CalendarTable.SetMinDate, Calendar.CalendarTable.Wheel, Calendar.CalendarTable.ClickTimerFired, Calendar.CalendarTable.Clicked, Calendar.ButtonGroup.SetSelection and the CalendarView.CalendarWidget members built on them (constructor, Refresh, DispatchRefresh, RefreshPreEnable, SetYearMonth, ViewChanged, Pre, Next, MonthClicked, YearClicked, SetMaxDate, SetMinDate, Wheel, ClickTimerFired): these follow the corrected program of Findings rows 1-4 (month carry, year page, bound tests, pre arrow), not the code as written; the as-written behaviour is modelled only by the as-written members named in those rows.
- Pickers.DateTimeRangePicker.AddDates: when a date is accepted, the months are stated through `OnMonthOf` (the target month of each pair date, whenever setYearMonth accepts it); a month left shown because the target was refused is not traced through the two handler runs.
- Pickers.DateTimeRangePicker.SetDateTimeRangeAsWritten: the months as for `AddDates`.
- CalendarView.CalendarWidget.SetMaxDate: the month after a move is not restated. `Calendar.CalendarTable.SetMaxDate` states it.
- CalendarView.CalendarWidget.SetMinDate: the month after a move is not restated. `Calendar.CalendarTable.SetMinDate` states it.
- Signal order: a handler run between `selectionAdded` and `selectionChanged` appends its own events after both, not between them. The states are the same.
- Timers are events the caller delivers (`ClickTimerFired`, `CorrectionTimerFired`, `MidnightTimerFired`). The current time of day and today's date are parameters.

## Findings

| source | as written | input that shows it | evidently intended | confidence | as-written member | corrected member |
|---|---|---|---|---|---|---|
| src/core/calendartable.cc:183-184 | the carry `(month - 1 + 12) / 12 - 1` with C++ truncating division is off by a year once month − 1 + 12 is negative | `setYearMonth(2024, -12)` moves to 2023-01 | month −12 of 2024 is 2022-12 | not executed | `CalendarSpec.TargetAsWritten`, `CalendarSpec.TargetAsWrittenMissesDecember` | `CalendarSpec.Target`, `CalendarSpec.Carry`, `CalendarSpec.TargetIdempotent` |
| src/core/calendartable.cc:556-562 | the page count `(first - id) / 12 + 1` goes one page too far back when first − id is a multiple of 12 | current year 2024 (page from 2018), `setSelection(2006)` builds the page 1994..2005, which lacks 2006; the group is auto-exclusive (calendartable.cc:589-590), so the button checked before keeps its check and now shows a year of that page | the page 2006..2017 holding 2006 | not executed | `CalendarSpec.PageStartAsWritten`, `CalendarSpec.PageStartAsWrittenMisses` | `CalendarSpec.PageStart`, `Calendar.ButtonGroup.SetSelection` |
| src/core/calendartable.cc:249, 263 | the bound tests build `QDate(year_, month_, bound.day())`, which is null when that day does not exist in the shown month | max 2025-03-31 with February 2030 shown: no move back; min 2020-01-31 with February 2024 shown: a jump to January 2020 | move exactly when the shown month is past the max month or before the min month | not executed | `CalendarSpec.PastMaxAsWrittenMisses`, `CalendarSpec.BeforeMinAsWrittenMisfires` | `CalendarSpec.BoundTestsAgree`, `Calendar.CalendarTable.SetMaxDate`, `Calendar.CalendarTable.SetMinDate` |
| src/core/calendarwidget.cc:231-232 | the pre arrow compares `QDate(year, month, min.day())` with the minimum's month start | min 2020-01-15 on January 2020: enabled but pre does nothing; min 2020-01-31 on February 2024: null date, disabled though pre would move | enabled exactly when the shown month is after the minimum's month, as for next | not executed | `CalendarSpec.PreEnabledAsWrittenMisjudges` | `CalendarSpec.PreEnabledIffMoves`, `CalendarView.CalendarWidget.RefreshPreEnable` |
| src/core/calendartable.cc:204-208 | `setFristDayOnWeek` relabels the header but does not refill the items | first day changed from 7 to 1: every column's label names the wrong weekday | header and grid start on the same weekday | not executed | `Calendar.CalendarTable.SetFirstDayOnWeekAsWritten`, `Calendar.HeaderMislabelsAfterFirstDayChange` | `Calendar.CalendarTable.SetFirstDayOnWeek`, `CalendarSpec.HeaderNamesWeekday` |
| src/core/datetimepicker.cc:139-149 | `setDateTimeRange` adds the dates and sets the times one by one with the handlers connected, so each step checks an intermediate state | pair 2024-05-10 twice, times 00:00 to 01:00; request 10:00 to 12:00 that day: setting 10:00 queues a reset of the start to 00:00 | an ordered request is honoured as given | not executed | `Pickers.RequestAsWritten`, `Pickers.RequestAsWrittenQueuesSpuriousReset`, `Pickers.DateTimeRangePicker.SetDateTimeRangeAsWritten` | `Pickers.Request`, `Pickers.RequestHonoured`, `Pickers.DateTimeRangePicker.SetDateTimeRange` |

=== FILE: calendar_spec.dfy ===
/**
 * The pure rules behind CalendarTable and its year/month button pages:
 * the month carry and clamping of setYearMonth, the 6 x 7 day grid, the
 * weekday header, the selection rules of appendSelection/removeSelection,
 * the year-page arithmetic and the midnight refresh delay.
 */
module CalendarSpec {
  import opened Dates

  /** CalendarTable::CalendarSelectionMode. */
  datatype SelectionMode = NoSelection | SingleSelection | MultiSelection | RangeSelection

  datatype YearMonth = YearMonth(year: int, month: int)

  const DaysInWeek := 7
  const CalendarRows := 6
  const CellCount := 42

  function FirstOf(ym: YearMonth): Date {
    Date(ym.year, ym.month, 1)
  }

  predicate InBounds(d: Date, min: Date, max: Date) {
    NotAfter(min, d) && NotAfter(d, max)
  }

  // ---------------------------------------------------------------------------
  // setYearMonth: carrying the month into the year, then clamping

  /** C++ integer division, truncating toward zero. */
  function CDiv(a: int, b: int): (q: int)
    requires b > 0
    ensures a >= 0 ==> q == a / b
  {
    if a >= 0 then a / b else -((-a) / b)
  }

  /** C++ remainder: takes the sign of the dividend. */
  function CRem(a: int, b: int): (r: int)
    requires b > 0
    ensures a == b * CDiv(a, b) + r
    ensures -b < r < b
  {
    a - b * CDiv(a, b)
  }

  /** The carry of setYearMonth (calendartable.cc:183-184) with C++'s truncating `/` and `%`. */
  function CarryAsWritten(y: int, m: int): YearMonth {
    YearMonth(y + CDiv(m - 1 + 12, 12) - 1, CRem(m - 1 + 12, 12) + 1)
  }

  /** Month m counted from January of year y, for any m. */
  function Carry(y: int, m: int): (r: YearMonth)
    ensures 1 <= r.month <= 12
    ensures r.year * 12 + r.month == y * 12 + m
  {
    YearMonth(y + (m - 1) / 12, (m - 1) % 12 + 1)
  }

  /** The carry is exact: a month already in 1..12 is left alone. */
  lemma CarryIdentity(y: int, m: int)
    requires 1 <= m <= 12
    ensures Carry(y, m) == YearMonth(y, m)
  {
  }

  /** The written carry is right for every month from -11 upwards. */
  lemma CarryAsWrittenAgrees(y: int, m: int)
    requires m >= -11
    ensures CarryAsWritten(y, m) == Carry(y, m)
  {
    var a := m - 1 + 12;
    assert a >= 0;
    var q := a / 12;
    assert a == 12 * q + a % 12;
    assert m - 1 == 12 * (q - 1) + a % 12;
  }

  /**
   * The clamp of setYearMonth (calendartable.cc:186-192) on a carried month:
   * None (the call is refused) when the year lies outside the years of the
   * bounds; otherwise the month, replaced by the maximum's month when it lies
   * after the maximum's month and by the minimum's month when it lies before
   * the minimum's month.
   */
  function Clamp(ym: YearMonth, min: Date, max: Date): (r: Option<YearMonth>)
    requires 1 <= ym.month <= 12 && 1 <= min.month <= 12 && 1 <= max.month <= 12
    ensures r.Some? <==> min.year <= ym.year <= max.year
    ensures r.Some? ==> r.value.year == ym.year && 1 <= r.value.month <= 12
    ensures r.Some? && NotAfter(MonthStart(min), FirstOf(ym)) && NotAfter(FirstOf(ym), MonthStart(max)) ==> r.value == ym
  {
    if ym.year > max.year || ym.year < min.year then None
    else if Before(MonthStart(max), FirstOf(ym)) then Some(YearMonth(ym.year, max.month))
    else if Before(FirstOf(ym), MonthStart(min)) then Some(YearMonth(ym.year, min.month))
    else Some(ym)
  }

  /** The clamp as written, where the carried month may be out of range and QDate(y, m, 1) then null. */
  function ClampAsWritten(ym: YearMonth, min: Date, max: Date): Option<YearMonth> {
    if ym.year > max.year || ym.year < min.year then None
    else if QAfter(MakeDate(ym.year, ym.month, 1), MonthStart(max)) then Some(YearMonth(ym.year, max.month))
    else if QBefore(MakeDate(ym.year, ym.month, 1), MonthStart(min)) then Some(YearMonth(ym.year, min.month))
    else Some(ym)
  }

  /** The month setYearMonth(y, m) moves to, as written. */
  function TargetAsWritten(y: int, m: int, min: Date, max: Date): Option<YearMonth> {
    ClampAsWritten(CarryAsWritten(y, m), min, max)
  }

  /** The month setYearMonth(y, m) moves to, with the carry corrected. */
  function Target(y: int, m: int, min: Date, max: Date): (r: Option<YearMonth>)
    requires 1 <= min.month <= 12 && 1 <= max.month <= 12
    ensures r.Some? ==> 1 <= r.value.month <= 12
  {
    Clamp(Carry(y, m), min, max)
  }

  /** For months from -11 upwards the written setYearMonth and the corrected one agree. */
  lemma TargetAsWrittenAgrees(y: int, m: int, min: Date, max: Date)
    requires ValidDate(min) && ValidDate(max) && m >= -11
    ensures TargetAsWritten(y, m, min, max) == Target(y, m, min, max)
  {
    CarryAsWrittenAgrees(y, m);
  }

  /**
   * setYearMonth(2024, -12) should show December 2022; the written carry
   * produces month 0 of 2023, whose null QDate compares below the minimum,
   * so the calendar shows the minimum's month of 2023 instead.
   */
  lemma TargetAsWrittenMissesDecember()
    ensures TargetAsWritten(2024, -12, Date(1924, 1, 1), Date(2123, 12, 31)) == Some(YearMonth(2023, 1))
    ensures Target(2024, -12, Date(1924, 1, 1), Date(2123, 12, 31)) == Some(YearMonth(2022, 12))
  {
  }

  /**
   * When the bounds are ordered month-wise, an accepted month lies between
   * the minimum's month and the maximum's month.
   */
  lemma ClampWithinBounds(ym: YearMonth, min: Date, max: Date)
    requires 1 <= ym.month <= 12 && ValidDate(min) && ValidDate(max)
    requires NotAfter(MonthStart(min), MonthStart(max))
    requires Clamp(ym, min, max).Some?
    ensures NotAfter(MonthStart(min), FirstOf(Clamp(ym, min, max).value))
    ensures NotAfter(FirstOf(Clamp(ym, min, max).value), MonthStart(max))
  {
  }

  /** Clamping a clamped month changes nothing. */
  lemma ClampIdempotent(ym: YearMonth, min: Date, max: Date)
    requires 1 <= ym.month <= 12 && ValidDate(min) && ValidDate(max)
    requires NotAfter(MonthStart(min), MonthStart(max))
    requires Clamp(ym, min, max).Some?
    ensures Clamp(Clamp(ym, min, max).value, min, max) == Clamp(ym, min, max)
  {
    ClampWithinBounds(ym, min, max);
  }

  /** A date within the bounds asks for its own month, which the clamp leaves alone. */
  lemma TargetOfDateWithinBounds(d: Date, min: Date, max: Date)
    requires ValidDate(d) && ValidDate(min) && ValidDate(max) && InBounds(d, min, max)
    ensures Target(d.year, d.month, min, max) == Some(YearMonth(d.year, d.month))
  {
    CarryIdentity(d.year, d.month);
  }

  /** Asking again for the month setYearMonth moved to is refused as no change. */
  lemma TargetIdempotent(y: int, m: int, min: Date, max: Date)
    requires ValidDate(min) && ValidDate(max) && NotAfter(MonthStart(min), MonthStart(max))
    requires Target(y, m, min, max).Some?
    ensures Target(Target(y, m, min, max).value.year, Target(y, m, min, max).value.month, min, max) == Target(y, m, min, max)
  {
    ClampIdempotent(Carry(y, m), min, max);
  }

  // ---------------------------------------------------------------------------
  // setMaxDate / setMinDate: does the shown month lie beyond the new bound?

  /** The test of setMaxDate (calendartable.cc:249): QDate(year, month, max.day) > max. */
  predicate PastMaxAsWritten(y: int, m: int, max: Date) {
    QAfter(MakeDate(y, m, max.day), max)
  }

  /** The shown month lies after the maximum's month. */
  predicate PastMax(y: int, m: int, max: Date) {
    Before(MonthStart(max), Date(y, m, 1))
  }

  /** The test of setMinDate (calendartable.cc:263): QDate(year, month, min.day) < min. */
  predicate BeforeMinAsWritten(y: int, m: int, min: Date) {
    QBefore(MakeDate(y, m, min.day), min)
  }

  /** The shown month lies before the minimum's month. */
  predicate BeforeMin(y: int, m: int, min: Date) {
    Before(Date(y, m, 1), MonthStart(min))
  }

  /** When the bound's day exists in the shown month, the written tests are the intended ones. */
  lemma BoundTestsAgree(y: int, m: int, bound: Date)
    requires 1 <= m <= 12 && ValidDate(bound) && bound.day <= DaysInMonth(y, m)
    ensures PastMaxAsWritten(y, m, bound) <==> PastMax(y, m, bound)
    ensures BeforeMinAsWritten(y, m, bound) <==> BeforeMin(y, m, bound)
  {
  }

  /**
   * A maximum of 2025-03-31 set while February 2030 is shown: the shown month
   * is past the maximum, but QDate(2030, 2, 31) is null and the written test
   * leaves the calendar where it is.
   */
  lemma PastMaxAsWrittenMisses()
    ensures PastMax(2030, 2, Date(2025, 3, 31))
    ensures !PastMaxAsWritten(2030, 2, Date(2025, 3, 31))
  {
  }

  /**
   * A minimum of 2020-01-31 set while February 2024 is shown: the shown month
   * is after the minimum, but QDate(2024, 2, 31) is null, compares below the
   * minimum, and the written test jumps back to January 2020.
   */
  lemma BeforeMinAsWrittenMisfires()
    ensures !BeforeMin(2024, 2, Date(2020, 1, 31))
    ensures BeforeMinAsWritten(2024, 2, Date(2020, 1, 31))
  {
  }

  // ---------------------------------------------------------------------------
  // The arrows of CalendarWidget: refreshNextEnable / refreshPreEnable

  /** refreshNextEnable (calendarwidget.cc:217-224): the shown month lies before the maximum's month. */
  predicate NextEnabled(y: int, m: int, max: Date) {
    Before(Date(y, m, 1), MonthStart(max))
  }

  /** refreshPreEnable as written (calendarwidget.cc:226-233): QDate(year, month, min.day) > the minimum's month start. */
  predicate PreEnabledAsWritten(y: int, m: int, min: Date) {
    QAfter(MakeDate(y, m, min.day), MonthStart(min))
  }

  /** The shown month lies after the minimum's month. */
  predicate PreEnabled(y: int, m: int, min: Date) {
    Before(MonthStart(min), Date(y, m, 1))
  }

  /** A month lies between the minimum's month and the maximum's month. */
  predicate MonthWithin(y: int, m: int, min: Date, max: Date) {
    NotAfter(MonthStart(min), Date(y, m, 1)) && NotAfter(Date(y, m, 1), MonthStart(max))
  }

  /** While the shown month lies within the bounds, the next arrow is enabled exactly when clicking it moves the calendar. */
  lemma NextEnabledIffMoves(y: int, m: int, min: Date, max: Date)
    requires 1 <= m <= 12 && ValidDate(min) && ValidDate(max) && MonthWithin(y, m, min, max)
    ensures var t := Target(y, m + 1, min, max);
      NextEnabled(y, m, max) <==> t.Some? && t.value != YearMonth(y, m)
    ensures var t := Target(y, m + 1, min, max);
      NextEnabled(y, m, max) ==> t == Some(Carry(y, m + 1))
  {
    var c := Carry(y, m + 1);
    assert c == (if m == 12 then YearMonth(y + 1, 1) else YearMonth(y, m + 1));
  }

  /** While the shown month lies within the bounds, the pre arrow is enabled exactly when clicking it moves the calendar. */
  lemma PreEnabledIffMoves(y: int, m: int, min: Date, max: Date)
    requires 1 <= m <= 12 && ValidDate(min) && ValidDate(max) && MonthWithin(y, m, min, max)
    ensures var t := Target(y, m - 1, min, max);
      PreEnabled(y, m, min) <==> t.Some? && t.value != YearMonth(y, m)
    ensures var t := Target(y, m - 1, min, max);
      PreEnabled(y, m, min) ==> t == Some(Carry(y, m - 1))
  {
    var c := Carry(y, m - 1);
    assert c == (if m == 1 then YearMonth(y - 1, 12) else YearMonth(y, m - 1));
  }

  /**
   * The written pre test is the intended one when the minimum's day exists in
   * the shown month and the shown month is not the minimum's own month (or the
   * minimum is the 1st).
   */
  lemma PreEnabledAgrees(y: int, m: int, min: Date)
    requires 1 <= m <= 12 && ValidDate(min) && min.day <= DaysInMonth(y, m)
    requires min.day == 1 || y != min.year || m != min.month
    ensures PreEnabledAsWritten(y, m, min) <==> PreEnabled(y, m, min)
  {
  }

  /**
   * The written pre test on two shown months: with a minimum of 2020-01-15,
   * January 2020 gets an enabled arrow whose click is refused; with a minimum
   * of 2020-01-31, February 2024 gets a disabled arrow although January 2024
   * is allowed.
   */
  lemma PreEnabledAsWrittenMisjudges()
    ensures PreEnabledAsWritten(2020, 1, Date(2020, 1, 15)) && !PreEnabled(2020, 1, Date(2020, 1, 15))
    ensures Target(2020, 0, Date(2020, 1, 15), Date(2119, 12, 31)).None?
    ensures !PreEnabledAsWritten(2024, 2, Date(2020, 1, 31)) && PreEnabled(2024, 2, Date(2020, 1, 31))
    ensures Target(2024, 1, Date(2020, 1, 31), Date(2119, 12, 31)) == Some(YearMonth(2024, 1))
  {
  }

  // ---------------------------------------------------------------------------
  // refreshCalendar: the 42 cells

  /** One table item: its date, and whether it is drawn faded (another month). */
  datatype Cell = Cell(date: Date, dimmed: bool)

  /** Days of the previous month shown before the 1st: 1..7, never 0 (calendartable.cc:372-377). */
  function LeadDays(y: int, m: int, fdw: int): (k: int)
    requires 1 <= m <= 12 && 1 <= fdw <= 7
    ensures 1 <= k <= 7
  {
    var fill := DayOfWeek(Date(y, m, 1)) - fdw;
    if fill > 0 then fill else fill + 7
  }

  /** The date in cell (0, 0). */
  function GridStart(y: int, m: int, fdw: int): Date
    requires 1 <= m <= 12 && 1 <= fdw <= 7
  {
    AddDays(Date(y, m, 1), -LeadDays(y, m, fdw))
  }

  function GridCell(y: int, m: int, fdw: int, i: int): Cell
    requires 1 <= m <= 12 && 1 <= fdw <= 7
  {
    var d := AddDays(GridStart(y, m, fdw), i);
    Cell(d, d.month != m)
  }

  /** The cells of month m of year y, row by row. */
  function Grid(y: int, m: int, fdw: int): (g: seq<Cell>)
    requires 1 <= m <= 12 && 1 <= fdw <= 7
    ensures |g| == CellCount
    ensures forall i :: 0 <= i < CellCount ==> g[i] == GridCell(y, m, fdw, i)
  {
    seq(CellCount, i requires 0 <= i < CellCount => GridCell(y, m, fdw, i))
  }

  /** Each cell holds the day after the one before it. */
  lemma GridConsecutive(y: int, m: int, fdw: int, i: int)
    requires 1 <= m <= 12 && 1 <= fdw <= 7 && 0 <= i < CellCount - 1
    ensures Grid(y, m, fdw)[i + 1].date == NextDay(Grid(y, m, fdw)[i].date)
    ensures Before(Grid(y, m, fdw)[i].date, Grid(y, m, fdw)[i + 1].date)
  {
    AddDaysStep(GridStart(y, m, fdw), i);
    NextDayIsLater(Grid(y, m, fdw)[i].date);
  }

  /** Every cell in column c falls on weekday (c + fdw - 1) mod 7 + 1: the first column on the first day of the week. */
  lemma GridColumnWeekday(y: int, m: int, fdw: int, i: int)
    requires 1 <= m <= 12 && 1 <= fdw <= 7 && 0 <= i < CellCount
    ensures DayOfWeek(Grid(y, m, fdw)[i].date) == (i % DaysInWeek + fdw - 1) % 7 + 1
  {
    var first := Date(y, m, 1);
    var lead := LeadDays(y, m, fdw);
    var start := GridStart(y, m, fdw);
    DayOfWeekAddDays(first, -lead);
    var back := DayOfWeek(first) - 1 - lead;
    assert back == fdw - 1 || back == fdw - 8;
    assert DayOfWeek(start) - 1 == back % 7;
    assert back % 7 == fdw - 1;
    DayOfWeekAddDays(start, i);
    assert DayOfWeek(Grid(y, m, fdw)[i].date) - 1 == (fdw - 1 + i) % 7;
    ModSeven(i, fdw - 1);
  }

  /** The days 1..DaysInMonth of the month fill consecutive undimmed cells starting at LeadDays. */
  lemma GridCoversMonth(y: int, m: int, fdw: int, k: int)
    requires 1 <= m <= 12 && 1 <= fdw <= 7 && 1 <= k <= DaysInMonth(y, m)
    ensures LeadDays(y, m, fdw) + k - 1 < CellCount
    ensures Grid(y, m, fdw)[LeadDays(y, m, fdw) + k - 1] == Cell(Date(y, m, k), false)
  {
    var lead := LeadDays(y, m, fdw);
    AddDaysAdd(Date(y, m, 1), -lead, lead + k - 1);
    AddDaysWithinMonth(y, m, k - 1);
  }

  /** Cell i holds the date i - LeadDays days away from the 1st. */
  lemma GridFromFirst(y: int, m: int, fdw: int, i: int)
    requires 1 <= m <= 12 && 1 <= fdw <= 7 && 0 <= i < CellCount
    ensures Grid(y, m, fdw)[i].date == AddDays(Date(y, m, 1), i - LeadDays(y, m, fdw))
  {
    AddDaysAdd(Date(y, m, 1), -LeadDays(y, m, fdw), i);
  }

  /** Cells before the 1st hold the previous month's last days, dimmed. */
  lemma GridLeadCells(y: int, m: int, fdw: int, i: int)
    requires 1 <= m <= 12 && 1 <= fdw <= 7 && 0 <= i < LeadDays(y, m, fdw)
    ensures var (py, pm) := PrevMonth(y, m);
      Grid(y, m, fdw)[i] == Cell(Date(py, pm, DaysInMonth(py, pm) - LeadDays(y, m, fdw) + i + 1), true)
  {
    GridFromFirst(y, m, fdw, i);
    AddDaysBeforeMonth(y, m, LeadDays(y, m, fdw) - i);
  }

  /** Cells after the last day hold the next month's first days, dimmed. */
  lemma GridTrailCells(y: int, m: int, fdw: int, i: int)
    requires 1 <= m <= 12 && 1 <= fdw <= 7
    requires LeadDays(y, m, fdw) + DaysInMonth(y, m) <= i < CellCount
    ensures var (ny, nm) := NextMonth(y, m);
      Grid(y, m, fdw)[i] == Cell(Date(ny, nm, i - LeadDays(y, m, fdw) - DaysInMonth(y, m) + 1), true)
  {
    GridFromFirst(y, m, fdw, i);
    AddDaysIntoNextMonth(y, m, i - LeadDays(y, m, fdw));
  }

  /** A cell is dimmed exactly when it lies outside the run of the month's own days. */
  lemma GridDimmedIff(y: int, m: int, fdw: int, i: int)
    requires 1 <= m <= 12 && 1 <= fdw <= 7 && 0 <= i < CellCount
    ensures Grid(y, m, fdw)[i].dimmed <==>
      (i < LeadDays(y, m, fdw) || LeadDays(y, m, fdw) + DaysInMonth(y, m) <= i)
  {
    var lead := LeadDays(y, m, fdw);
    if i < lead {
      GridLeadCells(y, m, fdw, i);
    } else if i < lead + DaysInMonth(y, m) {
      GridCoversMonth(y, m, fdw, i - lead + 1);
    } else {
      GridTrailCells(y, m, fdw, i);
    }
  }

  // ---------------------------------------------------------------------------
  // refreshCalendarHeader

  /** The seven header labels, starting from the first day of the week; names lists Monday first. */
  function HeaderLabels(names: seq<string>, fdw: int): (r: seq<string>)
    requires |names| == DaysInWeek && 1 <= fdw <= 7
    ensures |r| == DaysInWeek
    ensures forall c :: 0 <= c < DaysInWeek ==> r[c] == names[(c + fdw - 1) % 7]
  {
    seq(DaysInWeek, c requires 0 <= c < DaysInWeek => names[(c + fdw - 1) % 7])
  }

  /** The label over each cell names that cell's weekday. */
  lemma HeaderNamesWeekday(names: seq<string>, y: int, m: int, fdw: int, i: int)
    requires |names| == DaysInWeek && 1 <= m <= 12 && 1 <= fdw <= 7 && 0 <= i < CellCount
    ensures HeaderLabels(names, fdw)[i % DaysInWeek] == names[DayOfWeek(Grid(y, m, fdw)[i].date) - 1]
  {
    GridColumnWeekday(y, m, fdw, i);
  }

  // ---------------------------------------------------------------------------
  // appendSelection / removeSelection

  predicate AllInBounds(s: seq<Date>, min: Date, max: Date) {
    forall k :: 0 <= k < |s| ==> InBounds(s[k], min, max)
  }

  predicate NoDuplicates(s: seq<Date>) {
    forall j, k :: 0 <= j < k < |s| ==> s[j] != s[k]
  }

  /**
   * appendSelection (calendartable.cc:494-522): None when it refuses, else the
   * new selection. A date already selected is refused except in range mode,
   * a date out of bounds is always refused, and so is every date when
   * selection is off.
   */
  function Append(mode: SelectionMode, sel: seq<Date>, d: Date, min: Date, max: Date): (r: Option<seq<Date>>)
    ensures r.Some? <==> mode != NoSelection && (d !in sel || mode == RangeSelection) && InBounds(d, min, max)
    ensures r.Some? ==> d in r.value
  {
    if d in sel && mode != RangeSelection then None
    else if Before(max, d) || Before(d, min) then None
    else match mode
      case SingleSelection => Some([d])
      case MultiSelection => Some(sel + [d])
      case RangeSelection => Some([d])
      case NoSelection => None
  }

  /** Single and range selections hold exactly the appended date; multi selections grow by it. */
  lemma AppendShape(mode: SelectionMode, sel: seq<Date>, d: Date, min: Date, max: Date)
    requires Append(mode, sel, d, min, max).Some?
    ensures mode == MultiSelection ==> Append(mode, sel, d, min, max).value == sel + [d]
    ensures mode != MultiSelection ==> Append(mode, sel, d, min, max).value == [d]
  {
  }

  /** Appending keeps every selected date within the bounds and free of duplicates. */
  lemma AppendKeepsInvariant(mode: SelectionMode, sel: seq<Date>, d: Date, min: Date, max: Date)
    requires AllInBounds(sel, min, max) && NoDuplicates(sel)
    requires Append(mode, sel, d, min, max).Some?
    ensures AllInBounds(Append(mode, sel, d, min, max).value, min, max)
    ensures NoDuplicates(Append(mode, sel, d, min, max).value)
  {
    var r := Append(mode, sel, d, min, max).value;
    if mode == MultiSelection {
      assert r == sel + [d];
      forall j, k | 0 <= j < k < |r| ensures r[j] != r[k] {
        if k == |sel| {
          assert r[j] == sel[j];
          assert d !in sel;
        }
      }
    }
  }

  /** QList::removeAll. */
  function RemoveAll(s: seq<Date>, x: Date): (r: seq<Date>)
    ensures x !in r
    ensures forall e :: e in r <==> e in s && e != x
    ensures multiset(r) == multiset(s)[x := 0]
    ensures |r| <= |s|
  {
    if s == [] then []
    else
      assert s == [s[0]] + s[1..];
      (if s[0] == x then [] else [s[0]]) + RemoveAll(s[1..], x)
  }

  /**
   * removeSelection (calendartable.cc:524-538): None when it refuses (the date
   * is not selected, or it is the last date of a single selection), else the
   * selection without every copy of the date.
   */
  function Remove(mode: SelectionMode, sel: seq<Date>, d: Date): (r: Option<seq<Date>>)
    ensures r.Some? <==> d in sel && !(mode == SingleSelection && |sel| <= 1)
    ensures r.Some? ==> d !in r.value && multiset(r.value) == multiset(sel)[d := 0]
  {
    if d !in sel then None
    else if mode == SingleSelection && |sel| <= 1 then None
    else Some(RemoveAll(sel, d))
  }

  /** A single selection is never emptied by removal. */
  lemma RemoveKeepsSingleNonEmpty(sel: seq<Date>, d: Date)
    requires NoDuplicates(sel)
    requires Remove(SingleSelection, sel, d).Some?
    ensures |Remove(SingleSelection, sel, d).value| >= 1
  {
    var r := Remove(SingleSelection, sel, d).value;
    assert |sel| >= 2;
    var e := if sel[0] == d then sel[1] else sel[0];
    assert e != d;
    assert e in sel;
    assert e in r;
  }

  /** Removal keeps every remaining date within the bounds and free of duplicates. */
  lemma RemoveKeepsInvariant(mode: SelectionMode, sel: seq<Date>, d: Date, min: Date, max: Date)
    requires AllInBounds(sel, min, max) && NoDuplicates(sel)
    requires Remove(mode, sel, d).Some?
    ensures AllInBounds(Remove(mode, sel, d).value, min, max)
    ensures NoDuplicates(Remove(mode, sel, d).value)
  {
    var r := Remove(mode, sel, d).value;
    forall k | 0 <= k < |r| ensures InBounds(r[k], min, max) {
      assert r[k] in sel;
    }
    forall j, k | 0 <= j < k < |r| ensures r[j] != r[k] {
      if r[j] == r[k] {
        assert multiset(r)[r[j]] >= 2 by {
          assert r == r[..j] + [r[j]] + r[j + 1..k] + [r[k]] + r[k + 1..];
        }
        NoDuplicatesCount(sel, r[j]);
      }
    }
  }

  /** In a sequence without duplicates each element occurs at most once. */
  lemma {:induction false} NoDuplicatesCount(s: seq<Date>, e: Date)
    requires NoDuplicates(s)
    ensures multiset(s)[e] <= 1
  {
    if s != [] {
      assert NoDuplicates(s[1..]);
      NoDuplicatesCount(s[1..], e);
      assert s == [s[0]] + s[1..];
      if s[0] == e {
        assert e !in s[1..];
      }
    }
  }

  /**
   * The selection a click leaves (CalendarTable::clicked, calendartable.cc:327-364):
   * a selected date is removed and an unselected one appended, except in
   * range mode, which only appends. None when the table refuses.
   */
  function ClickSelection(mode: SelectionMode, sel: seq<Date>, d: Date, min: Date, max: Date): (r: Option<seq<Date>>)
    ensures mode != RangeSelection && d in sel ==> r == Remove(mode, sel, d)
    ensures mode == RangeSelection || d !in sel ==> r == Append(mode, sel, d, min, max)
  {
    if mode != RangeSelection && d in sel then Remove(mode, sel, d) else Append(mode, sel, d, min, max)
  }

  /** In multi mode a click on a date within the bounds toggles it. */
  lemma ClickTogglesMulti(sel: seq<Date>, d: Date, min: Date, max: Date)
    requires InBounds(d, min, max)
    ensures ClickSelection(MultiSelection, sel, d, min, max).Some?
    ensures d in ClickSelection(MultiSelection, sel, d, min, max).value <==> d !in sel
  {
  }

  /** In single mode a click selects exactly an unselected date within bounds, and never unselects the only date. */
  lemma ClickSingle(sel: seq<Date>, d: Date, min: Date, max: Date)
    ensures d !in sel && InBounds(d, min, max) ==> ClickSelection(SingleSelection, sel, d, min, max) == Some([d])
    ensures sel == [d] ==> ClickSelection(SingleSelection, sel, d, min, max).None?
  {
  }

  // ---------------------------------------------------------------------------
  // refreshSelection / refreshSpecialDate: how a cell is shaded

  datatype Shade = SelectedShade | SpecialShade | PlainShade

  /** refreshSelection (calendartable.cc:424-437): selected dates, else special dates outside range mode. */
  function SelectionShade(d: Date, sel: seq<Date>, special: seq<Date>, mode: SelectionMode): (s: Shade)
    ensures s == SelectedShade <==> d in sel
    ensures s == SpecialShade <==> d !in sel && d in special && mode != RangeSelection
  {
    if d in sel then SelectedShade
    else if mode != RangeSelection && d in special then SpecialShade
    else PlainShade
  }

  /** refreshSpecialDate (calendartable.cc:466-472): only the first selected date, else special dates. */
  function SpecialDateShade(d: Date, sel: seq<Date>, special: seq<Date>): (s: Shade)
    ensures s == SelectedShade <==> |sel| > 0 && d == sel[0]
    ensures s == SpecialShade <==> !(|sel| > 0 && d == sel[0]) && d in special
  {
    if |sel| > 0 && d == sel[0] then SelectedShade
    else if d in special then SpecialShade
    else PlainShade
  }

  /** The two shadings agree whenever at most one date is selected and the mode is not range mode. */
  lemma ShadesAgree(d: Date, sel: seq<Date>, special: seq<Date>, mode: SelectionMode)
    requires |sel| <= 1 && mode != RangeSelection
    ensures SelectionShade(d, sel, special, mode) == SpecialDateShade(d, sel, special)
  {
  }

  // ---------------------------------------------------------------------------
  // Year pages of the year button group

  /** The twelve consecutive years of a page starting at s. */
  function Page(s: int): (p: seq<int>)
    ensures |p| == 12
    ensures forall k :: 0 <= k < 12 ==> p[k] == s + k
  {
    seq(12, k requires 0 <= k < 12 => s + k)
  }

  /** The first year of the page setSelection rebuilds (calendartable.cc:552-562), anchored at anchor. */
  function PageStartAsWritten(id: int, anchor: int): int {
    if id >= anchor then anchor + ((id - anchor) / 12) * 12
    else anchor - ((anchor - id) / 12 + 1) * 12
  }

  /** The first year of the page of the 12-year tiling anchored at anchor that contains id. */
  function PageStart(id: int, anchor: int): (s: int)
    ensures s <= id < s + 12
    ensures (s - anchor) % 12 == 0
  {
    anchor + ((id - anchor) / 12) * 12
  }

  /** The written page start is right except when id lies a whole number of pages before the anchor. */
  lemma PageStartAsWrittenAgrees(id: int, anchor: int)
    requires id >= anchor || (anchor - id) % 12 != 0
    ensures PageStartAsWritten(id, anchor) == PageStart(id, anchor)
  {
    if id < anchor {
      var q := (anchor - id) / 12;
      var r := (anchor - id) % 12;
      assert anchor - id == 12 * q + r && 0 < r < 12;
      assert id - anchor == 12 * (-q - 1) + (12 - r);
      assert (id - anchor) / 12 == -q - 1;
    }
  }

  /** When id lies a whole number of pages before the anchor, the written page is the one before it and misses id. */
  lemma PageStartAsWrittenMisses(id: int, anchor: int)
    requires id < anchor && (anchor - id) % 12 == 0
    ensures PageStartAsWritten(id, anchor) == id - 12
    ensures id !in Page(PageStartAsWritten(id, anchor))
  {
    var q := (anchor - id) / 12;
    assert anchor - id == 12 * q;
  }

  // ---------------------------------------------------------------------------
  // startRefreshTimer

  /** Seconds from the given time of day until 00:00:03 of the next day (calendartable.cc:486-492). */
  function MidnightDelay(now: int): (s: int)
    requires IsTime(now)
    ensures 3 < s <= 86403
    ensures (now + s) % 86400 == 3
  {
    24 * 3600 - now + 3
  }
}

=== FILE: calendar_table.dfy ===
/**
 * CalendarTable: the 6 x 7 month grid with its selection, its bounds and its
 * click handling, and the year/month button groups shown in its place.
 *
 * Signals are recorded in an append-only event log; a connected slot is run
 * by the owning object right after the call that emitted the signal. The
 * 120 ms click timer is a counter of pending shots fired by ClickTimerFired;
 * the midnight timer is the delay it was last started with, fired by
 * MidnightTimerFired.
 */
module Calendar {
  import opened Dates
  import opened CalendarSpec

  /** The signals of CalendarTable (calendartable.h:92-99). */
  datatype CalendarEvent =
    | Refresh(year: int, month: int)
    | SelectionChanged
    | SelectionAdded(date: Date)
    | SelectionDeleted(date: Date)
    | MaxDateChanged(date: Date)
    | MinDateChanged(date: Date)
    | DateDoubleClicked(date: Date)

  /** What a shot of the click timer did to the selection, and so which signal it sent. */
  datatype ClickOutcome = NoChange | Added(date: Date) | Removed(date: Date)

  /** What QTableWidget shows in the horizontal header before any label is set. */
  const DefaultHeader: seq<string> := ["1", "2", "3", "4", "5", "6", "7"]

  class CalendarTable {
    var year: int
    var month: int
    var firstDayOfWeek: int
    var maxDate: Date
    var minDate: Date
    var clickedDate: Option<Date>
    var isDoubleClicked: bool
    var selected: seq<Date>
    var special: seq<Date>
    var mode: SelectionMode
    /** The table items, row by row. */
    const items: array2<Cell>
    var header: seq<string>
    /** The translated weekday names, Monday first, as read from the text resources. */
    const weekNames: seq<string>
    /** Seconds the midnight refresh timer was last started with. */
    var refreshDelay: int
    /** Shots of the 120 ms click timer not yet fired. */
    var pendingClicks: nat
    var events: seq<CalendarEvent>
    /** The first day of the week the items were last filled with. */
    ghost var gridFirstDay: int

    /** The field ranges every method keeps. */
    ghost predicate Consistent()
      reads this
    {
      1 <= month <= 12 && 1 <= firstDayOfWeek <= 7 && 1 <= gridFirstDay <= 7 &&
      ValidDate(maxDate) && ValidDate(minDate) &&
      (clickedDate.Some? ==> ValidDate(clickedDate.value)) &&
      items.Length0 == CalendarRows && items.Length1 == DaysInWeek &&
      |header| == DaysInWeek
    }

    /** The items show the grid of the displayed month. */
    ghost predicate ShowsGrid()
      requires Consistent()
      reads this, items
    {
      forall r, c :: 0 <= r < CalendarRows && 0 <= c < DaysInWeek ==>
        items[r, c] == GridCell(year, month, gridFirstDay, DaysInWeek * r + c)
    }

    ghost predicate Valid()
      reads this, items
    {
      Consistent() && ShowsGrid()
    }

    /** The header labels the columns of the items as they were filled. */
    ghost predicate HeaderAligned()
      reads this
    {
      |weekNames| == DaysInWeek && 1 <= gridFirstDay <= 7 ==> header == HeaderLabels(weekNames, gridFirstDay)
    }

    /**
     * The table opens on the given month with bounds of a hundred years either
     * side, Sunday as the first day of the week and single selection
     * (calendartable.cc:134-179).
     */
    constructor(y: int, m: int, names: seq<string>, now: int)
      requires 1 <= m <= 12 && IsTime(now)
      ensures Valid() && HeaderAligned() && fresh(items)
      ensures year == y && month == m && firstDayOfWeek == 7 && mode == SingleSelection
      ensures maxDate == Date(y + 99, 12, 31) && minDate == Date(y - 100, 1, 1)
      ensures selected == [] && special == [] && clickedDate == None && !isDoubleClicked
      ensures pendingClicks == 0 && refreshDelay == MidnightDelay(now)
      ensures weekNames == names
      ensures |names| == DaysInWeek ==> header == HeaderLabels(names, 7)
      ensures |names| != DaysInWeek ==> header == DefaultHeader
      ensures events == [Refresh(y, m)]
    {
      year := y;
      month := m;
      firstDayOfWeek := 7;
      maxDate := PrevDay(Date(y + 100, 1, 1));
      minDate := Date(y - 100, 1, 1);
      clickedDate := None;
      isDoubleClicked := false;
      selected := [];
      special := [];
      mode := SingleSelection;
      items := new Cell[CalendarRows, DaysInWeek];
      header := DefaultHeader;
      weekNames := names;
      refreshDelay := 0;
      pendingClicks := 0;
      events := [];
      gridFirstDay := 7;
      new;
      StartRefreshTimer(now);
      RefreshCalendar();
      RefreshCalendarHeader();
    }

    /** startRefreshTimer: fire again three seconds after the coming midnight. */
    method StartRefreshTimer(now: int)
      requires IsTime(now)
      modifies this`refreshDelay
      ensures refreshDelay == MidnightDelay(now)
    {
      refreshDelay := 24 * 3600 - now + 3;
    }

    /** refreshCalendar (calendartable.cc:366-401): refill all 42 items and emit refresh. */
    method RefreshCalendar()
      requires Consistent()
      modifies this`gridFirstDay, this`events, items
      ensures Valid() && gridFirstDay == firstDayOfWeek
      ensures events == old(events) + [Refresh(year, month)]
    {
      FillItems();
      gridFirstDay := firstDayOfWeek;
      events := events + [Refresh(year, month)];
    }

    /** The filling loop of refreshCalendar: cell i goes to row i / 7, column i % 7. */
    method FillItems()
      requires Consistent()
      modifies items
      ensures forall r, c :: 0 <= r < CalendarRows && 0 <= c < DaysInWeek ==>
        items[r, c] == GridCell(year, month, firstDayOfWeek, DaysInWeek * r + c)
    {
      var first := Date(year, month, 1);
      var fill := DayOfWeek(first) - firstDayOfWeek;
      var cur := if fill > 0 then AddDays(first, -fill) else AddDays(first, -fill - 7);
      ghost var start := cur;
      assert start == GridStart(year, month, firstDayOfWeek);
      var i := 0;
      while i < CellCount
        invariant 0 <= i <= CellCount
        invariant cur == AddDays(start, i)
        invariant forall r, c :: 0 <= r < CalendarRows && 0 <= c < DaysInWeek && DaysInWeek * r + c < i ==>
          items[r, c] == GridCell(year, month, firstDayOfWeek, DaysInWeek * r + c)
      {
        assert Cell(cur, cur.month != month) == GridCell(year, month, firstDayOfWeek, i);
        var r, c := i / DaysInWeek, i % DaysInWeek;
        assert DaysInWeek * r + c == i;
        items[r, c] := Cell(cur, cur.month != month);
        cur := NextDay(cur);
        i := i + 1;
      }
    }

    /** refreshCalendarHeader (calendartable.cc:403-415): relabel the columns when there are seven names. */
    method RefreshCalendarHeader()
      requires 1 <= firstDayOfWeek <= 7
      modifies this`header
      ensures |weekNames| == DaysInWeek ==> header == HeaderLabels(weekNames, firstDayOfWeek)
      ensures |weekNames| != DaysInWeek ==> header == old(header)
    {
      if |weekNames| != DaysInWeek {
        return;
      }
      var labels: seq<string> := [];
      var i := 0;
      while i < DaysInWeek
        invariant 0 <= i <= DaysInWeek
        invariant labels == HeaderLabels(weekNames, firstDayOfWeek)[..i]
      {
        labels := labels + [weekNames[(i + firstDayOfWeek - 1) % 7]];
        i := i + 1;
      }
      header := labels;
    }

    /**
     * setYearMonth (calendartable.cc:181-202), with the month carry corrected:
     * move to Target(y, m) unless the year lies outside the bounds' years or
     * the target is the month already shown.
     */
    method SetYearMonth(y: int, m: int) returns (changed: bool)
      requires Valid()
      modifies this`year, this`month, this`gridFirstDay, this`events, items
      ensures Valid()
      ensures var t := Target(y, m, minDate, maxDate);
        changed <==> t.Some? && t.value != YearMonth(old(year), old(month))
      ensures changed ==> (YearMonth(year, month) == Target(y, m, minDate, maxDate).value &&
        gridFirstDay == firstDayOfWeek && events == old(events) + [Refresh(year, month)])
      ensures !changed ==> (year == old(year) && month == old(month) && gridFirstDay == old(gridFirstDay) &&
        events == old(events) && unchanged(items))
    {
      var ny := y + (m - 1) / 12;
      var nm := (m - 1) % 12 + 1;
      if ny > maxDate.year || ny < minDate.year {
        return false;
      } else if Before(Date(maxDate.year, maxDate.month, 1), Date(ny, nm, 1)) {
        nm := maxDate.month;
      } else if Before(Date(ny, nm, 1), Date(minDate.year, minDate.month, 1)) {
        nm := minDate.month;
      }
      if year == ny && month == nm {
        return false;
      }
      year := ny;
      month := nm;
      RefreshCalendar();
      return true;
    }

    /**
     * setFristDayOnWeek as written (calendartable.cc:204-208): only the header
     * is relabelled; the items keep the columns they were filled with.
     */
    method SetFirstDayOnWeekAsWritten(f: int)
      requires Valid() && 1 <= f <= 7
      modifies this`firstDayOfWeek, this`header
      ensures Valid() && firstDayOfWeek == f && unchanged(items)
      ensures |weekNames| == DaysInWeek ==> header == HeaderLabels(weekNames, f)
    {
      firstDayOfWeek := f;
      RefreshCalendarHeader();
    }

    /** setFristDayOnWeek with the items refilled, so that the header keeps naming its columns. */
    method SetFirstDayOnWeek(f: int)
      requires Valid() && 1 <= f <= 7
      modifies this`firstDayOfWeek, this`header, this`gridFirstDay, this`events, items
      ensures Valid() && HeaderAligned() && firstDayOfWeek == f && gridFirstDay == f
      ensures events == old(events) + [Refresh(year, month)]
    {
      firstDayOfWeek := f;
      RefreshCalendar();
      RefreshCalendarHeader();
    }

    /** setSelMode (calendartable.cc:210-214): a new mode starts with an empty selection. */
    method SetSelMode(m: SelectionMode)
      modifies this`mode, this`selected, this`events
      ensures mode == m && selected == []
      ensures events == old(events) + [SelectionChanged]
    {
      mode := m;
      ClearSelectedDate();
    }

    /** setSpecialDate (calendartable.cc:216-220); the shading is left to SelectionShade and SpecialDateShade. */
    method SetSpecialDate(dates: seq<Date>)
      modifies this`special
      ensures special == dates
    {
      special := dates;
    }

    /** appendSelection (calendartable.cc:494-522), specified by Append. */
    method AppendSelection(d: Date) returns (added: bool)
      modifies this`selected, this`events
      ensures var r := Append(mode, old(selected), d, minDate, maxDate);
        added == r.Some? &&
        selected == (if added then r.value else old(selected)) &&
        events == old(events) + (if added then [SelectionAdded(d), SelectionChanged] else [])
    {
      if d in selected && mode != RangeSelection {
        return false;
      }
      if Before(maxDate, d) || Before(d, minDate) {
        return false;
      }
      match mode {
        case SingleSelection =>
          selected := [d];
        case MultiSelection =>
          selected := selected + [d];
        case RangeSelection =>
          selected := [d];
        case NoSelection =>
          return false;
      }
      events := events + [SelectionAdded(d), SelectionChanged];
      return true;
    }

    /** removeSelection (calendartable.cc:524-538), specified by Remove. */
    method RemoveSelection(d: Date) returns (removed: bool)
      modifies this`selected, this`events
      ensures var r := Remove(mode, old(selected), d);
        removed == r.Some? &&
        selected == (if removed then r.value else old(selected)) &&
        events == old(events) + (if removed then [SelectionDeleted(d)] else [])
    {
      if d !in selected {
        return false;
      }
      if mode == SingleSelection && |selected| <= 1 {
        return false;
      }
      selected := RemoveAll(selected, d);
      events := events + [SelectionDeleted(d)];
      return true;
    }

    /** addSelectedDate (calendartable.cc:222-226). */
    method AddSelectedDate(d: Date)
      modifies this`selected, this`events
      ensures var r := Append(mode, old(selected), d, minDate, maxDate);
        selected == r.GetOr(old(selected)) &&
        events == old(events) + (if r.Some? then [SelectionAdded(d), SelectionChanged] else [])
    {
      var _ := AppendSelection(d);
    }

    /** deleteSelectedDate (calendartable.cc:228-233): unlike a click, it may empty a single selection. */
    method DeleteSelectedDate(d: Date)
      modifies this`selected, this`events
      ensures selected == RemoveAll(old(selected), d)
      ensures events == old(events) + [SelectionChanged]
    {
      selected := RemoveAll(selected, d);
      events := events + [SelectionChanged];
    }

    /** clearSelectedDate (calendartable.cc:235-240). */
    method ClearSelectedDate()
      modifies this`selected, this`events
      ensures selected == []
      ensures events == old(events) + [SelectionChanged]
    {
      selected := [];
      events := events + [SelectionChanged];
    }

    /** setDateRange (calendartable.cc:270-275): the selection becomes the two dates, with no signal. */
    method SetDateRange(s: Date, e: Date)
      modifies this`selected
      ensures selected == [s, e]
    {
      selected := [s, e];
    }

    /**
     * setMaxDate (calendartable.cc:242-254), with the test of line 249
     * corrected to PastMax: when the shown month lies after the new maximum's
     * month the table moves to the maximum's month. Returns whether it tried.
     */
    method SetMaxDate(d: Date) returns (navigated: bool)
      requires Valid() && ValidDate(d)
      modifies this`maxDate, this`year, this`month, this`gridFirstDay, this`events, items
      ensures Valid() && maxDate == d
      ensures old(maxDate) == d ==> !navigated && year == old(year) && month == old(month) && events == old(events)
      ensures old(maxDate) != d ==> navigated == PastMax(old(year), old(month), d)
      ensures var t := if navigated then Target(d.year, d.month, minDate, d) else None;
        var moved := t.Some? && t.value != YearMonth(old(year), old(month));
        YearMonth(year, month) == (if moved then t.value else YearMonth(old(year), old(month))) &&
        (old(maxDate) != d ==> events == old(events) + (if moved then [Refresh(year, month)] else []) + [MaxDateChanged(d)])
    {
      if maxDate == d {
        return false;
      }
      maxDate := d;
      navigated := Before(Date(maxDate.year, maxDate.month, 1), Date(year, month, 1));
      if navigated {
        var _ := SetYearMonth(maxDate.year, maxDate.month);
      }
      events := events + [MaxDateChanged(d)];
    }

    /**
     * setMinDate (calendartable.cc:256-268), with the test of line 263
     * corrected to BeforeMin: when the shown month lies before the new
     * minimum's month the table moves to the minimum's month.
     */
    method SetMinDate(d: Date) returns (navigated: bool)
      requires Valid() && ValidDate(d)
      modifies this`minDate, this`year, this`month, this`gridFirstDay, this`events, items
      ensures Valid() && minDate == d
      ensures old(minDate) == d ==> !navigated && year == old(year) && month == old(month) && events == old(events)
      ensures old(minDate) != d ==> navigated == BeforeMin(old(year), old(month), d)
      ensures var t := if navigated then Target(d.year, d.month, d, maxDate) else None;
        var moved := t.Some? && t.value != YearMonth(old(year), old(month));
        YearMonth(year, month) == (if moved then t.value else YearMonth(old(year), old(month))) &&
        (old(minDate) != d ==> events == old(events) + (if moved then [Refresh(year, month)] else []) + [MinDateChanged(d)])
    {
      if minDate == d {
        return false;
      }
      minDate := d;
      navigated := Before(Date(year, month, 1), Date(minDate.year, minDate.month, 1));
      if navigated {
        var _ := SetYearMonth(minDate.year, minDate.month);
      }
      events := events + [MinDateChanged(d)];
    }

    /**
     * The wheel branch of eventFilter (calendartable.cc:280-289): turning the
     * wheel away from the user shows the previous month, towards the user the
     * next. A disabled table lets the event through.
     */
    method Wheel(delta: int, enabled: bool) returns (handled: bool)
      requires Valid()
      modifies this`year, this`month, this`gridFirstDay, this`events, items
      ensures Valid() && handled == enabled
      ensures var t := Target(old(year), old(month) + (if delta > 0 then -1 else 1), minDate, maxDate);
        var moved := enabled && t.Some? && t.value != YearMonth(old(year), old(month));
        YearMonth(year, month) == (if moved then t.value else YearMonth(old(year), old(month))) &&
        events == old(events) + (if moved then [Refresh(year, month)] else [])
    {
      if !enabled {
        return false;
      }
      if delta > 0 {
        var _ := SetYearMonth(year, month - 1);
      } else {
        var _ := SetYearMonth(year, month + 1);
      }
      return true;
    }

    /**
     * itemClicked (calendartable.cc:298-311): remember the date and start the
     * 120 ms timer, unless this click closes a double click.
     */
    method ItemClicked(d: Date)
      requires Valid() && ValidDate(d)
      modifies this`clickedDate, this`isDoubleClicked, this`pendingClicks
      ensures Valid() && !isDoubleClicked
      ensures old(isDoubleClicked) ==> clickedDate == old(clickedDate) && pendingClicks == old(pendingClicks)
      ensures !old(isDoubleClicked) ==> clickedDate == Some(d) && pendingClicks == old(pendingClicks) + 1
    {
      if !isDoubleClicked {
        clickedDate := Some(d);
        pendingClicks := pendingClicks + 1;
      } else {
        isDoubleClicked := false;
      }
    }

    /**
     * itemDoubleClicked (calendartable.cc:313-325): mark the double click and
     * signal the date when it lies within the bounds.
     */
    method ItemDoubleClicked(d: Date) returns (emitted: bool)
      modifies this`isDoubleClicked, this`events
      ensures isDoubleClicked
      ensures emitted == InBounds(d, minDate, maxDate)
      ensures events == old(events) + (if emitted then [DateDoubleClicked(d)] else [])
    {
      isDoubleClicked := true;
      if Before(maxDate, d) || Before(d, minDate) {
        return false;
      }
      events := events + [DateDoubleClicked(d)];
      return true;
    }

    /**
     * One shot of the 120 ms timer: CalendarTable::clicked
     * (calendartable.cc:327-364). Nothing happens during a double click or
     * before any date was clicked. Otherwise the selection becomes
     * ClickSelection of the clicked date; outside range mode a changed
     * selection also moves the table to the clicked date's month when the
     * month differs.
     */
    method ClickTimerFired() returns (outcome: ClickOutcome)
      requires Valid() && pendingClicks > 0
      modifies this`pendingClicks, this`selected, this`events, this`year, this`month, this`gridFirstDay, items
      ensures Valid() && pendingClicks == old(pendingClicks) - 1
      ensures old(isDoubleClicked) || clickedDate.None? ==>
        outcome == NoChange && selected == old(selected) && events == old(events) &&
        year == old(year) && month == old(month)
      ensures !old(isDoubleClicked) && clickedDate.Some? ==> ClickedAt(clickedDate.value, outcome)
    {
      pendingClicks := pendingClicks - 1;
      if isDoubleClicked || clickedDate.None? {
        return NoChange;
      }
      outcome := Clicked(clickedDate.value);
    }

    /** The effect of CalendarTable::clicked on date d, from the state before the call. */
    twostate predicate ClickedAt(d: Date, outcome: ClickOutcome)
      reads this
    {
      1 <= minDate.month <= 12 && 1 <= maxDate.month <= 12 &&
      var r := ClickSelection(mode, old(selected), d, minDate, maxDate);
      var t := Target(d.year, d.month, minDate, maxDate);
      var moved := r.Some? && mode != RangeSelection && d.month != old(month) &&
        t.Some? && t.value != YearMonth(old(year), old(month));
      outcome == (if r.None? then NoChange else if mode != RangeSelection && d in old(selected) then Removed(d) else Added(d)) &&
      selected == r.GetOr(old(selected)) &&
      YearMonth(year, month) == (if moved then t.value else YearMonth(old(year), old(month))) &&
      events == old(events) +
        (match outcome
           case NoChange => []
           case Removed(_) => [SelectionDeleted(d)]
           case Added(_) => [SelectionAdded(d), SelectionChanged]) +
        (if moved then [Refresh(year, month)] else [])
    }

    /** CalendarTable::clicked (calendartable.cc:327-364) on the clicked date. */
    method Clicked(d: Date) returns (outcome: ClickOutcome)
      requires Valid()
      modifies this`selected, this`events, this`year, this`month, this`gridFirstDay, items
      ensures Valid() && ClickedAt(d, outcome)
    {
      outcome := ToggleSelection(d);
      if !outcome.NoChange? && mode != RangeSelection && d.month != month {
        var _ := SetYearMonth(d.year, d.month);
      }
    }

    /** The selection step of clicked: remove a selected date, append any other; range mode only appends. */
    method ToggleSelection(d: Date) returns (outcome: ClickOutcome)
      modifies this`selected, this`events
      ensures var r := ClickSelection(mode, old(selected), d, minDate, maxDate);
        selected == r.GetOr(old(selected)) &&
        outcome == (if r.None? then NoChange else if mode != RangeSelection && d in old(selected) then Removed(d) else Added(d))
      ensures events == old(events) +
        (match outcome
           case NoChange => []
           case Removed(_) => [SelectionDeleted(d)]
           case Added(_) => [SelectionAdded(d), SelectionChanged])
    {
      var changed;
      if mode != RangeSelection && d in selected {
        changed := RemoveSelection(d);
        outcome := if changed then Removed(d) else NoChange;
      } else {
        changed := AppendSelection(d);
        outcome := if changed then Added(d) else NoChange;
      }
    }

    /** refreshTodayDate (calendartable.cc:480-484): restart the timer and refill the items. */
    method MidnightTimerFired(now: int)
      requires Consistent() && IsTime(now)
      modifies this`refreshDelay, this`gridFirstDay, this`events, items
      ensures Valid() && gridFirstDay == firstDayOfWeek
      ensures refreshDelay == MidnightDelay(now)
      ensures events == old(events) + [Refresh(year, month)]
    {
      StartRefreshTimer(now);
      RefreshCalendar();
    }
  }

  /**
   * The state SetFirstDayOnWeekAsWritten leaves behind when a Sunday-first
   * table is switched to Monday-first: in every month, every column's label
   * names a weekday other than the one its cells fall on.
   */
  lemma HeaderMislabelsAfterFirstDayChange(names: seq<string>, y: int, m: int, i: int)
    requires |names| == DaysInWeek && forall j, k :: 0 <= j < k < DaysInWeek ==> names[j] != names[k]
    requires 1 <= m <= 12 && 0 <= i < CellCount
    ensures HeaderLabels(names, 1)[i % DaysInWeek] != names[DayOfWeek(Grid(y, m, 7)[i].date) - 1]
  {
    GridColumnWeekday(y, m, 7, i);
    var c := i % DaysInWeek;
    assert DayOfWeek(Grid(y, m, 7)[i].date) - 1 == (c + 6) % 7;
    assert HeaderLabels(names, 1)[c] == names[c];
  }

  // ---------------------------------------------------------------------------
  // The year and month button pages (CalendarButtonGruop and its subclasses)

  /**
   * A page of twelve checkable, auto-exclusive buttons. ids[k] is the year or
   * month button k stands for (its "id" property and its signal mapping);
   * checked[k] whether it is checked.
   */
  class ButtonGroup {
    var ids: seq<int>
    var checked: seq<bool>

    predicate Valid()
      reads this
    {
      |ids| == 12 && |checked| == 12 && ids == Page(ids[0]) &&
      forall j, k :: 0 <= j < k < 12 && checked[j] ==> !checked[k]
    }

    /** Exactly the button standing for id is checked (none when no button stands for id). */
    ghost predicate Checks(id: int)
      reads this
      requires Valid()
    {
      forall k :: 0 <= k < 12 ==> (checked[k] <==> ids[k] == id)
    }

    /** YearButtonGroup (calendartable.cc:576-601): the years year-6 .. year+5, none checked. */
    constructor YearGroup(year: int)
      ensures Valid() && ids == Page(year - 6) && checked == seq(12, k => false)
    {
      ids := Page(year - 6);
      checked := seq(12, k => false);
    }

    /** MonthButtonGroup (calendartable.cc:638-668): the months 1 .. 12, none checked. */
    constructor MonthGroup()
      ensures Valid() && ids == Page(1) && checked == seq(12, k => false)
    {
      ids := Page(1);
      checked := seq(12, k => false);
    }

    /** Check button i alone, as checking an auto-exclusive button does. */
    method CheckOnly(i: int)
      requires Valid() && 0 <= i < 12
      modifies this`checked
      ensures Valid() && Checks(ids[i])
    {
      checked := seq(12, k => k == i);
    }

    /**
     * setSelection (calendartable.cc:540-574) with the page start corrected:
     * check the button standing for id; when none does, move to the page of
     * the 12-year tiling anchored at currentYear - 6 that holds id and check
     * its button.
     */
    method SetSelection(id: int, currentYear: int)
      requires Valid()
      modifies this`ids, this`checked
      ensures Valid() && Checks(id) && id in ids
      ensures id in old(ids) ==> ids == old(ids)
      ensures id !in old(ids) ==> ids == Page(PageStart(id, currentYear - 6))
    {
      var found := false;
      var i := 0;
      while i < 12
        invariant 0 <= i <= 12 && Valid() && ids == old(ids)
        invariant found <==> exists k :: 0 <= k < i && ids[k] == id
        invariant found ==> Checks(id)
      {
        if ids[i] == id {
          CheckOnly(i);
          found := true;
        }
        i := i + 1;
      }
      if !found {
        var anchor := currentYear - 6;
        var show := anchor + ((id - anchor) / 12) * 12;
        var k := 0;
        var newIds: seq<int> := [];
        var target := -1;
        while k < 12
          invariant 0 <= k <= 12
          invariant newIds == Page(show)[..k]
          invariant target == -1 <==> id !in newIds
          invariant target != -1 ==> 0 <= target < k && newIds[target] == id
        {
          if show + k == id {
            target := k;
          }
          newIds := newIds + [show + k];
          k := k + 1;
        }
        assert show == PageStart(id, anchor);
        assert newIds == Page(show);
        assert newIds[id - show] == id;
        ids := newIds;
        CheckOnly(target);
      }
    }

    /** toPreYearPage (calendartable.cc:603-609). */
    method ToPreYearPage(currentYear: int)
      requires Valid()
      modifies this`ids, this`checked
      ensures Valid() && ids == Page(old(ids)[0] - 12) && Checks(currentYear)
    {
      RefreshYearPage(ids[0] - 12, currentYear);
    }

    /** toNextYearPage (calendartable.cc:611-617). */
    method ToNextYearPage(currentYear: int)
      requires Valid()
      modifies this`ids, this`checked
      ensures Valid() && ids == Page(old(ids)[0] + 12) && Checks(currentYear)
    {
      RefreshYearPage(ids[0] + 12, currentYear);
    }

    /** refreshYearPage (calendartable.cc:619-636): relabel from show and check exactly the current year. */
    method RefreshYearPage(show: int, currentYear: int)
      requires |ids| == 12 && |checked| == 12
      modifies this`ids, this`checked
      ensures Valid() && ids == Page(show)
      ensures Checks(currentYear)
    {
      var k := 0;
      while k < 12
        invariant 0 <= k <= 12 && |ids| == 12 && |checked| == 12
        invariant forall j :: 0 <= j < k ==> ids[j] == show + j && (checked[j] <==> show + j == currentYear)
        invariant forall j :: k <= j < 12 ==> ids[j] == old(ids)[j]
      {
        ids := ids[k := show + k];
        checked := checked[k := show + k == currentYear];
        k := k + 1;
      }
      assert ids == Page(show);
    }

    /** A click on button i checks it and signals the id it is mapped to. */
    method Click(i: int) returns (id: int)
      requires Valid() && 0 <= i < 12
      modifies this`checked
      ensures Valid() && ids == old(ids) && id == ids[i] && Checks(id)
    {
      CheckOnly(i);
      id := ids[i];
    }
  }
}

=== FILE: calendar_widget.dfy ===
/**
 * CalendarWidget: the calendar table with its month and year header buttons,
 * the pre/next arrows, and the month and year pages it can switch to.
 *
 * The table's refresh signal is connected twice to the widget's refresh slot,
 * and its maxDateChanged/minDateChanged signals to the arrow updates; every
 * method that calls into the table runs those slots after the call. The
 * widget's own selection and double-click signals forward the table's, so
 * they are the table's event log.
 */
module CalendarView {
  import opened Dates
  import opened CalendarSpec
  import opened Calendar

  /** The pages of the stacked widget (calendarwidget.h:63-68). */
  datatype View = DateView | MonthView | YearView

  /** The two header buttons that switch views. */
  datatype HeaderButton = MonthButton | YearButton

  class CalendarWidget {
    const calendar: CalendarTable
    const monthGroup: ButtonGroup
    const yearGroup: ButtonGroup
    var view: View
    var preEnabled: bool
    var nextEnabled: bool
    /** The "month" property of the month button. */
    var monthProperty: int
    /** The year button's text, as a number. */
    var yearText: int

    ghost function Repr(): set<object> {
      {this, calendar, calendar.items, monthGroup, yearGroup}
    }

    /** The header buttons name the shown month and year, and the month page is the twelve months. */
    ghost predicate Valid()
      reads Repr()
    {
      monthGroup != yearGroup &&
      calendar.Valid() && monthGroup.Valid() && yearGroup.Valid() &&
      monthGroup.ids == Page(1) &&
      monthProperty == calendar.month && yearText == calendar.year
    }

    /** The arrows as refreshNextEnable and refreshPreEnable leave them for the shown month. */
    ghost predicate ArrowsReflectBounds()
      reads this, calendar
    {
      nextEnabled == NextEnabled(calendar.year, calendar.month, calendar.maxDate) &&
      preEnabled == PreEnabled(calendar.year, calendar.month, calendar.minDate)
    }

    /** The table's selection, mode, bounds and click state are those of the earlier state. */
    twostate predicate TableKept()
      reads calendar
    {
      calendar.selected == old(calendar.selected) && calendar.mode == old(calendar.mode) &&
      calendar.minDate == old(calendar.minDate) && calendar.maxDate == old(calendar.maxDate) &&
      calendar.clickedDate == old(calendar.clickedDate) &&
      calendar.pendingClicks == old(calendar.pendingClicks) && calendar.isDoubleClicked == old(calendar.isDoubleClicked)
    }

    /**
     * The arrows after a call that may have moved the table: a move ran the
     * refresh slot, which outside the month view recomputes both arrows from
     * the bounds; otherwise the arrows are as they were.
     */
    twostate predicate ArrowsFollowMove()
      reads this, calendar
    {
      if YearMonth(calendar.year, calendar.month) != YearMonth(old(calendar.year), old(calendar.month)) && view != MonthView
      then ArrowsReflectBounds()
      else preEnabled == old(preEnabled) && nextEnabled == old(nextEnabled)
    }

    /**
     * The constructor (calendarwidget.cc:11-100): a table on the given month,
     * a year page around the given year, the date view, and arrows computed
     * from the table's bounds.
     */
    constructor(y: int, m: int, names: seq<string>, now: int)
      requires 1 <= m <= 12 && IsTime(now)
      ensures Valid() && fresh(Repr())
      ensures view == DateView && ArrowsReflectBounds()
      ensures calendar.year == y && calendar.month == m && calendar.mode == SingleSelection
      ensures calendar.selected == [] && calendar.maxDate == Date(y + 99, 12, 31) && calendar.minDate == Date(y - 100, 1, 1)
      ensures calendar.pendingClicks == 0 && !calendar.isDoubleClicked
      ensures yearGroup.ids == Page(y - 6)
    {
      calendar := new CalendarTable(y, m, names, now);
      monthGroup := new ButtonGroup.MonthGroup();
      yearGroup := new ButtonGroup.YearGroup(y);
      monthProperty := m;
      yearText := y;
      view := DateView;
      new;
      RefreshNextEnable();
      RefreshPreEnable();
    }

    /** refresh (calendarwidget.cc:109-117): relabel the header buttons and recompute the arrows. */
    method Refresh(y: int, m: int)
      requires calendar.Valid()
      modifies this`monthProperty, this`yearText, this`preEnabled, this`nextEnabled
      ensures monthProperty == m && yearText == y
      ensures view != MonthView ==> ArrowsReflectBounds()
      ensures view == MonthView ==> preEnabled == old(preEnabled) && nextEnabled == old(nextEnabled)
    {
      monthProperty := m;
      yearText := y;
      RefreshNextEnable();
      RefreshPreEnable();
    }

    /** The two connections of the table's refresh signal, run after a call that refreshed the table. */
    method DispatchRefresh()
      requires calendar.Valid() && monthGroup != yearGroup && monthGroup.Valid() && yearGroup.Valid() && monthGroup.ids == Page(1)
      modifies this`monthProperty, this`yearText, this`preEnabled, this`nextEnabled
      ensures Valid()
      ensures view != MonthView ==> ArrowsReflectBounds()
      ensures view == MonthView ==> preEnabled == old(preEnabled) && nextEnabled == old(nextEnabled)
    {
      Refresh(calendar.year, calendar.month);
      Refresh(calendar.year, calendar.month);
    }

    /** refreshNextEnable (calendarwidget.cc:217-224); the month view keeps its arrows. */
    method RefreshNextEnable()
      requires calendar.Valid()
      modifies this`nextEnabled
      ensures view != MonthView ==> nextEnabled == NextEnabled(calendar.year, calendar.month, calendar.maxDate)
      ensures view == MonthView ==> nextEnabled == old(nextEnabled)
    {
      if view == MonthView {
        return;
      }
      nextEnabled := Before(Date(calendar.year, calendar.month, 1),
                            Date(calendar.maxDate.year, calendar.maxDate.month, 1));
    }

    /**
     * refreshPreEnable (calendarwidget.cc:226-233) with the comparison
     * corrected to PreEnabled; the month view keeps its arrows.
     */
    method RefreshPreEnable()
      requires calendar.Valid()
      modifies this`preEnabled
      ensures view != MonthView ==> preEnabled == PreEnabled(calendar.year, calendar.month, calendar.minDate)
      ensures view == MonthView ==> preEnabled == old(preEnabled)
    {
      if view == MonthView {
        return;
      }
      preEnabled := Before(Date(calendar.minDate.year, calendar.minDate.month, 1),
                           Date(calendar.year, calendar.month, 1));
    }

    /** The table's setYearMonth with the refresh slot run when the month changed (calendarwidget.h:31). */
    method SetYearMonth(y: int, m: int) returns (changed: bool)
      requires Valid()
      modifies Repr()
      ensures Valid() && view == old(view)
      ensures unchanged(monthGroup, yearGroup) && TableKept()
      ensures var t := Target(y, m, calendar.minDate, calendar.maxDate);
        changed <==> t.Some? && t.value != YearMonth(old(calendar.year), old(calendar.month))
      ensures changed ==> YearMonth(calendar.year, calendar.month) == Target(y, m, calendar.minDate, calendar.maxDate).value
      ensures !changed ==> calendar.year == old(calendar.year) && calendar.month == old(calendar.month)
      ensures ArrowsFollowMove()
    {
      changed := calendar.SetYearMonth(y, m);
      if changed {
        DispatchRefresh();
      }
    }

    /**
     * viewChanged (calendarwidget.cc:129-150): each header button toggles its
     * page against the date view. Opening the month page checks the shown
     * month and disables both arrows; opening the year page turns to the page
     * holding the shown year and checks it. Every other case leaves both
     * arrows enabled, whatever the bounds.
     */
    method ViewChanged(sender: HeaderButton, currentYear: int)
      requires Valid()
      modifies this`view, this`preEnabled, this`nextEnabled, monthGroup, yearGroup
      ensures Valid()
      ensures sender == MonthButton && old(view) != MonthView ==>
        view == MonthView && !preEnabled && !nextEnabled && monthGroup.Checks(calendar.month) &&
        monthGroup.ids == old(monthGroup.ids) && unchanged(yearGroup)
      ensures sender == YearButton && old(view) != YearView ==>
        view == YearView && preEnabled && nextEnabled && yearGroup.Checks(calendar.year) &&
        calendar.year in yearGroup.ids && unchanged(monthGroup) &&
        (calendar.year in old(yearGroup.ids) ==> yearGroup.ids == old(yearGroup.ids)) &&
        (calendar.year !in old(yearGroup.ids) ==> yearGroup.ids == Page(PageStart(calendar.year, currentYear - 6)))
      ensures (sender == MonthButton && old(view) == MonthView) || (sender == YearButton && old(view) == YearView) ==>
        view == DateView && preEnabled && nextEnabled && unchanged(monthGroup, yearGroup)
    {
      preEnabled := true;
      nextEnabled := true;
      if sender == MonthButton {
        if view == MonthView {
          view := DateView;
        } else {
          assert monthGroup.ids[monthProperty - 1] == monthProperty;
          monthGroup.SetSelection(monthProperty, currentYear);
          view := MonthView;
          preEnabled := false;
          nextEnabled := false;
        }
      } else {
        if view == YearView {
          view := DateView;
        } else {
          yearGroup.SetSelection(yearText, currentYear);
          view := YearView;
        }
      }
    }

    /**
     * pre (calendarwidget.cc:162-169): in the year view turn back a page of
     * years, otherwise show the previous month. A disabled arrow ignores the
     * click.
     */
    method Pre()
      requires Valid()
      modifies Repr()
      ensures Valid() && view == old(view) && unchanged(monthGroup)
      ensures TableKept() && ArrowsFollowMove()
      ensures !old(preEnabled) ==> unchanged(Repr())
      ensures old(preEnabled) && view == YearView ==>
        yearGroup.ids == Page(old(yearGroup.ids)[0] - 12) && yearGroup.Checks(yearText) && unchanged(calendar)
      ensures old(preEnabled) && view != YearView ==>
        unchanged(yearGroup) &&
        var t := Target(old(calendar.year), old(calendar.month) - 1, old(calendar.minDate), old(calendar.maxDate));
        var moved := t.Some? && t.value != YearMonth(old(calendar.year), old(calendar.month));
        YearMonth(calendar.year, calendar.month) == (if moved then t.value else YearMonth(old(calendar.year), old(calendar.month)))
    {
      if !preEnabled {
        return;
      }
      if view == YearView {
        yearGroup.ToPreYearPage(yearText);
      } else {
        var _ := SetYearMonth(calendar.year, calendar.month - 1);
      }
    }

    /** next (calendarwidget.cc:171-178), the mirror of Pre. */
    method Next()
      requires Valid()
      modifies Repr()
      ensures Valid() && view == old(view) && unchanged(monthGroup)
      ensures TableKept() && ArrowsFollowMove()
      ensures !old(nextEnabled) ==> unchanged(Repr())
      ensures old(nextEnabled) && view == YearView ==>
        yearGroup.ids == Page(old(yearGroup.ids)[0] + 12) && yearGroup.Checks(yearText) && unchanged(calendar)
      ensures old(nextEnabled) && view != YearView ==>
        unchanged(yearGroup) &&
        var t := Target(old(calendar.year), old(calendar.month) + 1, old(calendar.minDate), old(calendar.maxDate));
        var moved := t.Some? && t.value != YearMonth(old(calendar.year), old(calendar.month));
        YearMonth(calendar.year, calendar.month) == (if moved then t.value else YearMonth(old(calendar.year), old(calendar.month)))
    {
      if !nextEnabled {
        return;
      }
      if view == YearView {
        yearGroup.ToNextYearPage(yearText);
      } else {
        var _ := SetYearMonth(calendar.year, calendar.month + 1);
      }
    }

    /**
     * A click on button i of the month page, then monthClicked
     * (calendarwidget.cc:180-186): show that month of the shown year and go
     * back to the date view with both arrows enabled.
     */
    method MonthClicked(i: int)
      requires Valid() && 0 <= i < 12
      modifies Repr()
      ensures Valid() && view == DateView && preEnabled && nextEnabled
      ensures monthGroup.Checks(i + 1) && unchanged(yearGroup) && TableKept()
      ensures var t := Target(old(calendar.year), i + 1, old(calendar.minDate), old(calendar.maxDate));
        var moved := t.Some? && t.value != YearMonth(old(calendar.year), old(calendar.month));
        YearMonth(calendar.year, calendar.month) == (if moved then t.value else YearMonth(old(calendar.year), old(calendar.month)))
    {
      var month := monthGroup.Click(i);
      var _ := SetYearMonth(calendar.year, month);
      view := DateView;
      preEnabled := true;
      nextEnabled := true;
    }

    /**
     * A click on button i of the year page, then yearClicked
     * (calendarwidget.cc:188-194): show the shown month of that year and go
     * back to the date view with both arrows enabled.
     */
    method YearClicked(i: int)
      requires Valid() && 0 <= i < 12
      modifies Repr()
      ensures Valid() && view == DateView && preEnabled && nextEnabled
      ensures yearGroup.Checks(old(yearGroup.ids)[i]) && unchanged(monthGroup) && TableKept()
      ensures var t := Target(old(yearGroup.ids)[i], old(calendar.month), old(calendar.minDate), old(calendar.maxDate));
        var moved := t.Some? && t.value != YearMonth(old(calendar.year), old(calendar.month));
        YearMonth(calendar.year, calendar.month) == (if moved then t.value else YearMonth(old(calendar.year), old(calendar.month)))
    {
      var year := yearGroup.Click(i);
      var _ := SetYearMonth(year, calendar.month);
      view := DateView;
      preEnabled := true;
      nextEnabled := true;
    }

    /** The table's setSelMode (calendarwidget.h:32). */
    method SetSelMode(m: SelectionMode)
      requires Valid()
      modifies calendar`mode, calendar`selected, calendar`events
      ensures Valid() && calendar.mode == m && calendar.selected == []
      ensures calendar.events == old(calendar.events) + [SelectionChanged]
    {
      calendar.SetSelMode(m);
    }

    /** The table's addSelectedDate (calendarwidget.h:26); returns whether selectionAdded was sent. */
    method AddSelectedDate(d: Date) returns (added: bool)
      requires Valid()
      modifies calendar`selected, calendar`events
      ensures Valid()
      ensures var r := Append(calendar.mode, old(calendar.selected), d, calendar.minDate, calendar.maxDate);
        added == r.Some? && calendar.selected == r.GetOr(old(calendar.selected)) &&
        calendar.events == old(calendar.events) + (if added then [SelectionAdded(d), SelectionChanged] else [])
    {
      added := calendar.AppendSelection(d);
    }

    /** The table's clearSelectedDate (calendarwidget.h:29). */
    method ClearSelectedDate()
      requires Valid()
      modifies calendar`selected, calendar`events
      ensures Valid() && calendar.selected == []
      ensures calendar.events == old(calendar.events) + [SelectionChanged]
    {
      calendar.ClearSelectedDate();
    }

    /** The table's deleteSelectedDate (calendarwidget.h:28). */
    method DeleteSelectedDate(d: Date)
      requires Valid()
      modifies calendar`selected, calendar`events
      ensures Valid() && calendar.selected == RemoveAll(old(calendar.selected), d)
      ensures calendar.events == old(calendar.events) + [SelectionChanged]
    {
      calendar.DeleteSelectedDate(d);
    }

    /** The table's setSpecialDate (calendarwidget.h:27). */
    method SetSpecialDate(dates: seq<Date>)
      requires Valid()
      modifies calendar`special
      ensures Valid() && calendar.special == dates
    {
      calendar.SetSpecialDate(dates);
    }

    /** The table's setDateRange (calendarwidget.h:35). */
    method SetDateRange(s: Date, e: Date)
      requires Valid()
      modifies calendar`selected
      ensures Valid() && calendar.selected == [s, e]
    {
      calendar.SetDateRange(s, e);
    }

    /**
     * The table's setMaxDate (calendarwidget.h:33), followed by the refresh
     * slot when it moved and by calendarMaxDateChanged (calendarwidget.cc:119-122).
     */
    method SetMaxDate(d: Date)
      requires Valid() && ValidDate(d)
      modifies Repr()
      ensures Valid() && view == old(view) && unchanged(monthGroup, yearGroup)
      ensures calendar.maxDate == d && calendar.minDate == old(calendar.minDate)
      ensures calendar.selected == old(calendar.selected) && calendar.mode == old(calendar.mode)
      ensures calendar.pendingClicks == old(calendar.pendingClicks) && calendar.isDoubleClicked == old(calendar.isDoubleClicked)
      ensures old(calendar.maxDate) == d ==> (calendar.year == old(calendar.year) && calendar.month == old(calendar.month) &&
        calendar.events == old(calendar.events))
      ensures old(calendar.maxDate) != d && !PastMax(old(calendar.year), old(calendar.month), d) ==>
        calendar.year == old(calendar.year) && calendar.month == old(calendar.month)
      ensures old(calendar.maxDate) != d && view != MonthView ==>
        nextEnabled == NextEnabled(calendar.year, calendar.month, d)
    {
      var unchangedBound := calendar.maxDate == d;
      var y0, m0 := calendar.year, calendar.month;
      var _ := calendar.SetMaxDate(d);
      if unchangedBound {
        return;
      }
      if calendar.year != y0 || calendar.month != m0 {
        DispatchRefresh();
      }
      RefreshNextEnable();
    }

    /**
     * The table's setMinDate (calendarwidget.h:34), followed by the refresh
     * slot when it moved and by calendarMinDateChanged (calendarwidget.cc:124-127).
     */
    method SetMinDate(d: Date)
      requires Valid() && ValidDate(d)
      modifies Repr()
      ensures Valid() && view == old(view) && unchanged(monthGroup, yearGroup)
      ensures calendar.minDate == d && calendar.maxDate == old(calendar.maxDate)
      ensures calendar.selected == old(calendar.selected) && calendar.mode == old(calendar.mode)
      ensures calendar.pendingClicks == old(calendar.pendingClicks) && calendar.isDoubleClicked == old(calendar.isDoubleClicked)
      ensures old(calendar.minDate) == d ==> (calendar.year == old(calendar.year) && calendar.month == old(calendar.month) &&
        calendar.events == old(calendar.events))
      ensures old(calendar.minDate) != d && !BeforeMin(old(calendar.year), old(calendar.month), d) ==>
        calendar.year == old(calendar.year) && calendar.month == old(calendar.month)
      ensures old(calendar.minDate) != d && view != MonthView ==>
        preEnabled == PreEnabled(calendar.year, calendar.month, d)
    {
      var unchangedBound := calendar.minDate == d;
      var y0, m0 := calendar.year, calendar.month;
      var _ := calendar.SetMinDate(d);
      if unchangedBound {
        return;
      }
      if calendar.year != y0 || calendar.month != m0 {
        DispatchRefresh();
      }
      RefreshPreEnable();
    }

    /** A wheel turn over the table, with the refresh slot run when it moved. */
    method Wheel(delta: int, enabled: bool)
      requires Valid()
      modifies Repr()
      ensures Valid() && view == old(view) && unchanged(monthGroup, yearGroup)
      ensures TableKept() && ArrowsFollowMove()
      ensures var t := Target(old(calendar.year), old(calendar.month) + (if delta > 0 then -1 else 1), old(calendar.minDate), old(calendar.maxDate));
        var moved := enabled && t.Some? && t.value != YearMonth(old(calendar.year), old(calendar.month));
        YearMonth(calendar.year, calendar.month) == (if moved then t.value else YearMonth(old(calendar.year), old(calendar.month)))
    {
      var y0, m0 := calendar.year, calendar.month;
      var _ := calendar.Wheel(delta, enabled);
      if calendar.year != y0 || calendar.month != m0 {
        DispatchRefresh();
      }
    }

    /** A click on the table item holding d. */
    method ItemClicked(d: Date)
      requires Valid() && ValidDate(d)
      modifies calendar`clickedDate, calendar`isDoubleClicked, calendar`pendingClicks
      ensures Valid() && !calendar.isDoubleClicked
      ensures old(calendar.isDoubleClicked) ==> (calendar.clickedDate == old(calendar.clickedDate) &&
        calendar.pendingClicks == old(calendar.pendingClicks))
      ensures !old(calendar.isDoubleClicked) ==> (calendar.clickedDate == Some(d) &&
        calendar.pendingClicks == old(calendar.pendingClicks) + 1)
    {
      calendar.ItemClicked(d);
    }

    /** A double click on the table item holding d; returns whether dateDoubleClicked was sent. */
    method ItemDoubleClicked(d: Date) returns (emitted: bool)
      requires Valid()
      modifies calendar`isDoubleClicked, calendar`events
      ensures Valid() && calendar.isDoubleClicked
      ensures emitted == InBounds(d, calendar.minDate, calendar.maxDate)
      ensures calendar.events == old(calendar.events) + (if emitted then [DateDoubleClicked(d)] else [])
    {
      emitted := calendar.ItemDoubleClicked(d);
    }

    /** A shot of the table's click timer, with the refresh slot run when the table moved. */
    method ClickTimerFired() returns (outcome: ClickOutcome)
      requires Valid() && calendar.pendingClicks > 0
      modifies Repr()
      ensures Valid() && view == old(view) && unchanged(monthGroup, yearGroup) && ArrowsFollowMove()
      ensures calendar.pendingClicks == old(calendar.pendingClicks) - 1
      ensures calendar.mode == old(calendar.mode) && calendar.isDoubleClicked == old(calendar.isDoubleClicked)
      ensures calendar.minDate == old(calendar.minDate) && calendar.maxDate == old(calendar.maxDate)
      ensures calendar.clickedDate == old(calendar.clickedDate)
      ensures var r := if old(calendar.isDoubleClicked) || calendar.clickedDate.None? then None
                       else ClickSelection(calendar.mode, old(calendar.selected), calendar.clickedDate.value, calendar.minDate, calendar.maxDate);
        outcome.NoChange? == r.None? && calendar.selected == r.GetOr(old(calendar.selected))
      ensures !outcome.NoChange? ==> (calendar.clickedDate == Some(outcome.date) &&
        (outcome.Removed? <==> calendar.mode != RangeSelection && outcome.date in old(calendar.selected)))
      ensures outcome.Added? ==> InBounds(outcome.date, calendar.minDate, calendar.maxDate)
      ensures old(calendar.isDoubleClicked) || calendar.clickedDate.None? ==>
        calendar.year == old(calendar.year) && calendar.month == old(calendar.month)
      ensures !old(calendar.isDoubleClicked) && calendar.clickedDate.Some? ==>
        var d := calendar.clickedDate.value;
        var t := Target(d.year, d.month, calendar.minDate, calendar.maxDate);
        var moved := !outcome.NoChange? && calendar.mode != RangeSelection && d.month != old(calendar.month) &&
          t.Some? && t.value != YearMonth(old(calendar.year), old(calendar.month));
        YearMonth(calendar.year, calendar.month) == (if moved then t.value else YearMonth(old(calendar.year), old(calendar.month)))
    {
      var y0, m0 := calendar.year, calendar.month;
      outcome := calendar.ClickTimerFired();
      if calendar.year != y0 || calendar.month != m0 {
        DispatchRefresh();
      }
    }

    /** The table's midnight timer, with the refresh slot run after the table refilled. */
    method MidnightTimerFired(now: int)
      requires Valid() && IsTime(now)
      modifies Repr()
      ensures Valid() && view == old(view) && unchanged(monthGroup, yearGroup)
      ensures calendar.year == old(calendar.year) && calendar.month == old(calendar.month)
      ensures TableKept() && calendar.refreshDelay == MidnightDelay(now)
      ensures view != MonthView ==> ArrowsReflectBounds()
      ensures view == MonthView ==> preEnabled == old(preEnabled) && nextEnabled == old(nextEnabled)
    {
      calendar.MidnightTimerFired(now);
      DispatchRefresh();
    }
  }
}

=== FILE: dates.dfy ===
/**
 * Proleptic Gregorian calendar arithmetic: the part of QDate and QTime the
 * calendar widgets rely on (validity, ordering, addDays, dayOfWeek).
 * Years are astronomical (a year 0 exists), see README.
 */
module Dates {

  datatype Option<T> = None | Some(value: T) {
    function GetOr(default: T): T {
      match this
      case Some(v) => v
      case None => default
    }
  }

  datatype Date = Date(year: int, month: int, day: int)

  /** A time of day in whole seconds, 00:00:00 .. 23:59:59. */
  predicate IsTime(t: int) { 0 <= t < 86400 }

  /** A QDateTime: a date and a time of day in seconds. */
  datatype DateTime = DateTime(date: Date, time: int)

  predicate IsLeapYear(y: int) {
    (y % 4 == 0 && y % 100 != 0) || y % 400 == 0
  }

  function DaysInMonth(y: int, m: int): (n: int)
    requires 1 <= m <= 12
    ensures 28 <= n <= 31
    ensures m == 2 <==> n < 30
  {
    if m == 2 then (if IsLeapYear(y) then 29 else 28)
    else if m == 4 || m == 6 || m == 9 || m == 11 then 30
    else 31
  }

  predicate ValidDate(d: Date) {
    1 <= d.month <= 12 && 1 <= d.day <= DaysInMonth(d.year, d.month)
  }

  /** QDate(y, m, d): the date when the triple is valid, otherwise the null date. */
  function MakeDate(y: int, m: int, d: int): (r: Option<Date>)
    ensures r.Some? <==> ValidDate(Date(y, m, d))
    ensures r.Some? ==> r.value == Date(y, m, d)
  {
    if 1 <= m <= 12 && 1 <= d <= DaysInMonth(y, m) then Some(Date(y, m, d)) else None
  }

  /** The strict order of QDate on valid dates: by year, then month, then day. */
  predicate Before(a: Date, b: Date) {
    a.year < b.year || (a.year == b.year && (a.month < b.month || (a.month == b.month && a.day < b.day)))
  }

  predicate NotAfter(a: Date, b: Date) {
    !Before(b, a)
  }

  /** `q > b` for a QDate q that may be null: the null date lies below every valid date. */
  predicate QAfter(q: Option<Date>, b: Date) {
    q.Some? && Before(b, q.value)
  }

  /** `q < b` for a QDate q that may be null. */
  predicate QBefore(q: Option<Date>, b: Date) {
    q.None? || Before(q.value, b)
  }

  /** The first day of the month a date lies in. */
  function MonthStart(d: Date): Date {
    Date(d.year, d.month, 1)
  }

  /** Order on date-times: by date, then by time of day. */
  predicate DateTimeBefore(a: DateTime, b: DateTime) {
    Before(a.date, b.date) || (a.date == b.date && a.time < b.time)
  }

  // ---------------------------------------------------------------------------
  // Day numbers: days since 0001-01-01 (a Monday in the proleptic calendar)

  function DaysBeforeYear(y: int): int {
    365 * (y - 1) + (y - 1) / 4 - (y - 1) / 100 + (y - 1) / 400
  }

  function DaysBeforeMonth(y: int, m: int): int
    requires 1 <= m <= 12
  {
    var common := [0, 31, 59, 90, 120, 151, 181, 212, 243, 273, 304, 334];
    common[m - 1] + (if m > 2 && IsLeapYear(y) then 1 else 0)
  }

  function DayNumber(d: Date): int
    requires 1 <= d.month <= 12
  {
    DaysBeforeYear(d.year) + DaysBeforeMonth(d.year, d.month) + d.day - 1
  }

  /** QDate::dayOfWeek: 1 = Monday ... 7 = Sunday. */
  function DayOfWeek(d: Date): (w: int)
    requires ValidDate(d)
    ensures 1 <= w <= 7
  {
    DayNumber(d) % 7 + 1
  }

  // ---------------------------------------------------------------------------
  // Stepping by one day, and addDays

  function NextDay(d: Date): (r: Date)
    requires ValidDate(d)
    ensures ValidDate(r)
  {
    if d.day < DaysInMonth(d.year, d.month) then Date(d.year, d.month, d.day + 1)
    else if d.month < 12 then Date(d.year, d.month + 1, 1)
    else Date(d.year + 1, 1, 1)
  }

  function PrevDay(d: Date): (r: Date)
    requires ValidDate(d)
    ensures ValidDate(r)
  {
    if d.day > 1 then Date(d.year, d.month, d.day - 1)
    else if d.month > 1 then Date(d.year, d.month - 1, DaysInMonth(d.year, d.month - 1))
    else Date(d.year - 1, 12, 31)
  }

  /** QDate::addDays, stepping one day at a time. */
  function AddDays(d: Date, n: int): (r: Date)
    requires ValidDate(d)
    ensures ValidDate(r)
    decreases if n < 0 then -n else n
  {
    if n == 0 then d
    else if n > 0 then NextDay(AddDays(d, n - 1))
    else PrevDay(AddDays(d, n + 1))
  }

  lemma NextPrevCancel(d: Date)
    requires ValidDate(d)
    ensures NextDay(PrevDay(d)) == d
    ensures PrevDay(NextDay(d)) == d
  {
  }

  lemma NextDayIsLater(d: Date)
    requires ValidDate(d)
    ensures Before(d, NextDay(d))
  {
  }

  /** Stepping one day further is one more application of NextDay, for negative counts too. */
  lemma AddDaysStep(d: Date, n: int)
    requires ValidDate(d)
    ensures AddDays(d, n + 1) == NextDay(AddDays(d, n))
  {
    if n < 0 {
      NextPrevCancel(AddDays(d, n + 1));
    }
  }

  lemma {:induction false} AddDaysAdd(d: Date, a: int, b: nat)
    requires ValidDate(d)
    ensures AddDays(AddDays(d, a), b) == AddDays(d, a + b)
    decreases b
  {
    if b > 0 {
      AddDaysAdd(d, a, b - 1);
      AddDaysStep(d, a + b - 1);
    }
  }

  lemma DivStep(y: int)
    ensures y / 4 - (y - 1) / 4 == (if y % 4 == 0 then 1 else 0)
    ensures y / 100 - (y - 1) / 100 == (if y % 100 == 0 then 1 else 0)
    ensures y / 400 - (y - 1) / 400 == (if y % 400 == 0 then 1 else 0)
  {
  }

  /** A year has 365 days, 366 when it is a leap year. */
  lemma YearLength(y: int)
    ensures DaysBeforeYear(y + 1) == DaysBeforeYear(y) + 365 + (if IsLeapYear(y) then 1 else 0)
  {
    DivStep(y);
  }

  lemma NextDayNumber(d: Date)
    requires ValidDate(d)
    ensures DayNumber(NextDay(d)) == DayNumber(d) + 1
  {
    if d.day == DaysInMonth(d.year, d.month) && d.month == 12 {
      YearLength(d.year);
    }
  }

  lemma PrevDayNumber(d: Date)
    requires ValidDate(d)
    ensures DayNumber(PrevDay(d)) == DayNumber(d) - 1
  {
    NextPrevCancel(d);
    NextDayNumber(PrevDay(d));
  }

  /** addDays moves the day number by exactly n. */
  lemma {:induction false} AddDaysNumber(d: Date, n: int)
    requires ValidDate(d)
    ensures DayNumber(AddDays(d, n)) == DayNumber(d) + n
    decreases if n < 0 then -n else n
  {
    if n > 0 {
      AddDaysNumber(d, n - 1);
      NextDayNumber(AddDays(d, n - 1));
    } else if n < 0 {
      AddDaysNumber(d, n + 1);
      PrevDayNumber(AddDays(d, n + 1));
    }
  }

  lemma ModSeven(a: int, b: int)
    ensures (a + b) % 7 == (a % 7 + b) % 7
  {
    var q := a / 7;
    assert a == 7 * q + a % 7;
    assert a + b == 7 * q + (a % 7 + b);
  }

  /** The weekday advances by n (cyclically) when n days are added. */
  lemma DayOfWeekAddDays(d: Date, n: int)
    requires ValidDate(d)
    ensures DayOfWeek(AddDays(d, n)) - 1 == (DayOfWeek(d) - 1 + n) % 7
  {
    var r := AddDays(d, n);
    AddDaysNumber(d, n);
    WeekdayStep(DayNumber(d), DayNumber(r), n);
  }

  lemma WeekdayStep(a: int, b: int, n: int)
    requires b == a + n
    ensures b % 7 == (a % 7 + n) % 7
  {
    ModSeven(a, n);
  }

  /** Calibration: 2024-01-01 was a Monday. */
  lemma KnownMonday()
    ensures DayOfWeek(Date(2024, 1, 1)) == 1
  {
  }

  /** The month before month m of year y. */
  function PrevMonth(y: int, m: int): (r: (int, int))
    requires 1 <= m <= 12
    ensures 1 <= r.1 <= 12
    ensures r.0 * 12 + r.1 == y * 12 + m - 1
  {
    if m == 1 then (y - 1, 12) else (y, m - 1)
  }

  /** The month after month m of year y. */
  function NextMonth(y: int, m: int): (r: (int, int))
    requires 1 <= m <= 12
    ensures 1 <= r.1 <= 12
    ensures r.0 * 12 + r.1 == y * 12 + m + 1
  {
    if m == 12 then (y + 1, 1) else (y, m + 1)
  }

  /** Counting back from the first of a month walks through the previous month's last days. */
  lemma {:induction false} AddDaysBeforeMonth(y: int, m: int, j: int)
    requires 1 <= m <= 12 && 1 <= j <= 28
    ensures AddDays(Date(y, m, 1), -j) ==
      Date(PrevMonth(y, m).0, PrevMonth(y, m).1, DaysInMonth(PrevMonth(y, m).0, PrevMonth(y, m).1) - j + 1)
  {
    if j > 1 {
      AddDaysBeforeMonth(y, m, j - 1);
    }
  }

  /** Counting forward from the first of a month past its last day walks into the next month. */
  lemma {:induction false} AddDaysIntoNextMonth(y: int, m: int, j: int)
    requires 1 <= m <= 12 && DaysInMonth(y, m) <= j < DaysInMonth(y, m) + 28
    ensures AddDays(Date(y, m, 1), j) == Date(NextMonth(y, m).0, NextMonth(y, m).1, j - DaysInMonth(y, m) + 1)
    decreases j
  {
    if j == DaysInMonth(y, m) {
      AddDaysWithinMonth(y, m, j - 1);
    } else {
      AddDaysIntoNextMonth(y, m, j - 1);
    }
  }

  /** Counting forward from the first of a month walks through the month's days. */
  lemma {:induction false} AddDaysWithinMonth(y: int, m: int, j: nat)
    requires 1 <= m <= 12 && j < DaysInMonth(y, m)
    ensures AddDays(Date(y, m, 1), j) == Date(y, m, j + 1)
  {
    if j > 0 {
      AddDaysWithinMonth(y, m, j - 1);
    }
  }
}

=== FILE: datetime_edit.dfy ===
/**
 * The date edit (datetimeedit.cc): one or two text fields that show a date,
 * a date-time, or a range of either, with a popup holding the matching
 * picker. The edit keeps its value as text (real_text_): one date-time
 * written in the edit's format, or two joined by " ~ ". Each slot rewrites
 * the part it is about and keeps the rest.
 *
 * The pickers the edit owns are not part of this class: what the edit asks
 * of them is appended to a log of forwarded requests, and what they tell it
 * arrives as the arguments of its slots.
 */
module Edit {
  import opened Dates
  import opened TextFormat
  import CalendarSpec

  /** DateEditType: the four kinds of edit. */
  datatype EditKind = DateTimeKind | DateKind | DateTimeRangeKind | DateRangeKind

  predicate IsRange(kind: EditKind) {
    kind == DateTimeRangeKind || kind == DateRangeKind
  }

  /** date_format_ as initDateFormat sets it: with the time for the date-time kinds, without it otherwise. */
  function LayoutOf(kind: EditKind): (l: Layout)
    ensures l == DateAndTime <==> kind == DateTimeKind || kind == DateTimeRangeKind
  {
    if kind == DateTimeKind || kind == DateTimeRangeKind then DateAndTime else DateOnly
  }

  /** The two text fields: start_edit_, and end_edit_ (shown by the range kinds only). */
  datatype Field = StartField | EndField

  /** A request the edit passes on to the picker of its kind. */
  datatype Forward =
    | PickerDateTime(dt: DateTime)
    | RangeStart(dt: DateTime)
    | RangeEnd(dt: DateTime)
    | RangeBoth(start: DateTime, end: DateTime)

  /** The edit's signals. */
  datatype EditEvent = StartDateTimeChanged(dt: DateTime) | EndDateTimeChanged(dt: DateTime)

  predicate IsDateTime(dt: DateTime) {
    ValidDate(dt.date) && IsTime(dt.time)
  }

  // ---------------------------------------------------------------------------
  // The range text

  /** The text of a range: both ends written in the layout, joined by " ~ ". */
  function RangeText(layout: Layout, s: DateTime, e: DateTime): (r: string)
    requires IsDateTime(s) && IsDateTime(e)
    ensures Split(r, RangeSep) == [Format(layout, s), Format(layout, e)]
  {
    SplitRange(Format(layout, s), Format(layout, e));
    Format(layout, s) + RangeSep + Format(layout, e)
  }

  /**
   * start_date_time and end_date_time together: the text split at " ~ ",
   * each half read with the layout's format; None unless the text is two
   * halves that both parse.
   */
  function ReadRange(layout: Layout, text: string): (r: Option<(DateTime, DateTime)>)
    ensures r.Some? ==> IsDateTime(r.value.0) && IsDateTime(r.value.1) && RangeText(layout, r.value.0, r.value.1) == text
  {
    var halves := Split(text, RangeSep);
    if |halves| != 2 then None
    else
      var s := Parse(layout, halves[0]);
      var e := Parse(layout, halves[1]);
      if s.None? || e.None? then None
      else
        assert halves[1..] == [halves[1]];
        Some((s.value, e.value))
  }

  /** A range written with the layout reads back as the layout shows its two ends. */
  lemma ReadRangeText(layout: Layout, s: DateTime, e: DateTime)
    requires IsDateTime(s) && IsDateTime(e)
    ensures ReadRange(layout, RangeText(layout, s, e)) == Some((Shown(layout, s), Shown(layout, e)))
  {
    ParseFormat(layout, s);
    ParseFormat(layout, e);
  }

  /** isValidDateTimeRange (datetimeedit.cc:218-222) on a range text: the start is not after the end. */
  function RangeOrdered(layout: Layout, text: string): bool {
    match ReadRange(layout, text)
    case None => false
    case Some(r) => !DateTimeBefore(r.1, r.0)
  }

  /** isDifferentYearOrMonth (datetimeedit.cc:224-231) on a range text: the two dates differ in year or in month. */
  function RangeSpansMonths(layout: Layout, text: string): bool {
    match ReadRange(layout, text)
    case None => false
    case Some(r) => r.0.date.year != r.1.date.year || r.0.date.month != r.1.date.month
  }

  /** The text of an ordered range reads as valid, and only such a text; the date-only layout compares the dates alone. */
  lemma RangeOrderedText(layout: Layout, s: DateTime, e: DateTime)
    requires IsDateTime(s) && IsDateTime(e)
    ensures RangeOrdered(layout, RangeText(layout, s, e)) <==> !DateTimeBefore(Shown(layout, e), Shown(layout, s))
    ensures layout == DateAndTime ==> (RangeOrdered(layout, RangeText(layout, s, e)) <==> !DateTimeBefore(e, s))
    ensures layout == DateOnly ==> (RangeOrdered(layout, RangeText(layout, s, e)) <==> NotAfter(s.date, e.date))
  {
    ReadRangeText(layout, s, e);
  }

  /** A range text spans months exactly when its two ends lie in different months. */
  lemma RangeSpansMonthsText(layout: Layout, s: DateTime, e: DateTime)
    requires IsDateTime(s) && IsDateTime(e)
    ensures RangeSpansMonths(layout, RangeText(layout, s, e)) <==> MonthStart(s.date) != MonthStart(e.date)
  {
    ReadRangeText(layout, s, e);
  }

  /**
   * The text dateTimeChanged (datetimeedit.cc:287-309) leaves when field
   * shows dt: a single kind writes dt alone; a range kind rewrites the
   * field's half and keeps the other half as it was.
   */
  function EditedText(kind: EditKind, field: Field, dt: DateTime, text: string): (r: string)
    requires IsDateTime(dt)
    requires IsRange(kind) ==> ReadRange(LayoutOf(kind), text).Some?
    ensures !IsRange(kind) ==> Parse(LayoutOf(kind), r) == Some(Shown(LayoutOf(kind), dt))
    ensures IsRange(kind) ==> (
      var old_ := ReadRange(LayoutOf(kind), text).value;
      var v := Shown(LayoutOf(kind), dt);
      ReadRange(LayoutOf(kind), r) == Some(if field == StartField then (v, old_.1) else (old_.0, v)))
    ensures IsRange(kind) && field == StartField ==> Split(r, RangeSep)[1] == Split(text, RangeSep)[1]
    ensures IsRange(kind) && field == EndField ==> Split(r, RangeSep)[0] == Split(text, RangeSep)[0]
  {
    var layout := LayoutOf(kind);
    ParseFormat(layout, dt);
    if !IsRange(kind) then Format(layout, dt)
    else
      var old_ := ReadRange(layout, text).value;
      var halves := Split(text, RangeSep);
      if field == StartField then
        ReadRangeText(layout, dt, old_.1);
        Format(layout, dt) + RangeSep + halves[1]
      else
        ReadRangeText(layout, old_.0, dt);
        halves[0] + RangeSep + Format(layout, dt)
  }

  /** Writing a range field's own value into its half leaves the range text as it was. */
  lemma RewriteKeepsRange(kind: EditKind, field: Field, s: DateTime, e: DateTime)
    requires IsRange(kind) && IsDateTime(s) && IsDateTime(e)
    requires Shown(LayoutOf(kind), s) == s && Shown(LayoutOf(kind), e) == e
    ensures ReadRange(LayoutOf(kind), RangeText(LayoutOf(kind), s, e)) == Some((s, e))
    ensures var text := RangeText(LayoutOf(kind), s, e);
      EditedText(kind, field, if field == StartField then s else e, text) == text
  {
    ReadRangeText(LayoutOf(kind), s, e);
  }

  /** Rewriting a field twice with the same value is rewriting it once. */
  lemma EditedTextIdempotent(kind: EditKind, field: Field, dt: DateTime, text: string)
    requires IsDateTime(dt)
    requires IsRange(kind) ==> ReadRange(LayoutOf(kind), text).Some?
    ensures var once := EditedText(kind, field, dt, text);
      EditedText(kind, field, dt, once) == once
  {
    var once := EditedText(kind, field, dt, text);
    if IsRange(kind) {
      var r := ReadRange(LayoutOf(kind), once).value;
      RewriteKeepsRange(kind, field, r.0, r.1);
    } else {
      ParseFormat(LayoutOf(kind), dt);
    }
  }

  /** What the edit forwards when dateTimeChanged runs for field: the single picker, or the range picker's side. */
  function ForwardOf(kind: EditKind, field: Field, dt: DateTime): (f: Forward)
    ensures !f.RangeBoth? && f.dt == dt
    ensures !IsRange(kind) <==> f.PickerDateTime?
    ensures IsRange(kind) ==> (f.RangeStart? <==> field == StartField)
  {
    if !IsRange(kind) then PickerDateTime(dt)
    else if field == StartField then RangeStart(dt)
    else RangeEnd(dt)
  }

  /**
   * addDays(1).addMSecs(-1) on a whole-second date-time, then written
   * without milliseconds: the second before it.
   */
  function SecondBefore(dt: DateTime): (r: DateTime)
    requires IsDateTime(dt)
    ensures IsDateTime(r) && DateTimeBefore(r, dt)
    ensures dt.time > 0 ==> r == DateTime(dt.date, dt.time - 1)
  {
    if dt.time > 0 then DateTime(dt.date, dt.time - 1)
    else
      NextDayIsLater(PrevDay(dt.date));
      NextPrevCancel(dt.date);
      DateTime(PrevDay(dt.date), 86399)
  }

  /** The start of the next day less one millisecond is the same day at 23:59:59. */
  lemma EndOfDay(d: Date)
    requires ValidDate(d)
    ensures SecondBefore(DateTime(AddDays(d, 1), 0)) == DateTime(d, 86399)
  {
    NextPrevCancel(d);
  }

  /** The popup's single picker starts with today selected when today lies within its bounds. */
  predicate PickerShowsToday(y: int, today: Date) {
    CalendarSpec.InBounds(today, Date(y - 100, 1, 1), Date(y + 99, 12, 31))
  }

  /**
   * The text initDateFormat (datetimeedit.cc:406-475) writes for month
   * (y, m) on the current date today: day today.day of that month at
   * 00:00:00; for the date-time range, that moment to the end of the same
   * day (the start of the next day less one millisecond); for the date
   * range, the first of the month to that day.
   */
  function InitialText(kind: EditKind, y: int, m: int, today: Date): (r: string)
    requires 1 <= m <= 12 && 1 <= today.day <= DaysInMonth(y, m)
    ensures var day := Date(y, m, today.day);
      !IsRange(kind) ==> Parse(LayoutOf(kind), r) == Some(DateTime(day, 0))
    ensures var day := Date(y, m, today.day);
      kind == DateTimeRangeKind ==> ReadRange(DateAndTime, r) == Some((DateTime(day, 0), DateTime(day, 86399)))
    ensures var day := Date(y, m, today.day);
      kind == DateRangeKind ==> ReadRange(DateOnly, r) == Some((DateTime(Date(y, m, 1), 0), DateTime(day, 0)))
  {
    var init := DateTime(Date(y, m, today.day), 0);
    match kind
    case DateTimeKind =>
      ParseFormat(DateAndTime, init);
      Format(DateAndTime, init)
    case DateKind =>
      ParseFormat(DateOnly, init);
      Format(DateOnly, init)
    case DateTimeRangeKind =>
      var end := SecondBefore(DateTime(AddDays(init.date, 1), 0));
      EndOfDay(init.date);
      ReadRangeText(DateAndTime, init, end);
      RangeText(DateAndTime, init, end)
    case DateRangeKind =>
      var first := DateTime(Date(y, m, 1), 0);
      ReadRangeText(DateOnly, first, init);
      RangeText(DateOnly, first, init)
  }

  class DateTimeEdit {
    const kind: EditKind
    /** real_text_ */
    var realText: string
    /** The values of start_edit_ and end_edit_. */
    var startEdit: DateTime
    var endEdit: DateTime
    /** The requests passed on to the pickers, oldest first. */
    var forwarded: seq<Forward>
    var events: seq<EditEvent>

    function Layout(): Layout {
      LayoutOf(kind)
    }

    function EditOf(field: Field): DateTime
      reads this
    {
      if field == StartField then startEdit else endEdit
    }

    /** The text holds one date-time in the edit's format, or two joined by " ~ " for the range kinds. */
    ghost predicate Valid()
      reads this
    {
      IsDateTime(startEdit) && IsDateTime(endEdit) &&
      (if IsRange(kind) then ReadRange(Layout(), realText).Some? else Parse(Layout(), realText).Some?)
    }

    /** QDateTime::fromString(real_text_) for a single kind. */
    function Value(): (r: DateTime)
      requires Valid() && !IsRange(kind)
      reads this
      ensures IsDateTime(r) && Format(Layout(), r) == realText
    {
      Parse(Layout(), realText).value
    }

    /** start_date_time (datetimeedit.cc:208-211): the half before " ~ ", read back. */
    function StartDateTime(): (r: DateTime)
      requires Valid() && IsRange(kind)
      reads this
      ensures IsDateTime(r) && Split(realText, RangeSep)[0] == Format(Layout(), r)
    {
      ReadRange(Layout(), realText).value.0
    }

    /** end_date_time (datetimeedit.cc:213-216): the half after " ~ ", read back. */
    function EndDateTime(): (r: DateTime)
      requires Valid() && IsRange(kind)
      reads this
      ensures IsDateTime(r) && Split(realText, RangeSep)[1] == Format(Layout(), r)
    {
      ReadRange(Layout(), realText).value.1
    }

    /** isValidDateTimeRange (datetimeedit.cc:218-222). */
    function IsValidDateTimeRange(): (r: bool)
      requires Valid() && IsRange(kind)
      reads this
      ensures r <==> !DateTimeBefore(EndDateTime(), StartDateTime())
    {
      RangeOrdered(Layout(), realText)
    }

    /** isDifferentYearOrMonth (datetimeedit.cc:224-231). */
    function IsDifferentYearOrMonth(): (r: bool)
      requires Valid() && IsRange(kind)
      reads this
      ensures r <==> MonthStart(StartDateTime().date) != MonthStart(EndDateTime().date)
    {
      RangeSpansMonths(Layout(), realText)
    }

    /**
     * The constructor's text and field values (initDateFormat,
     * datetimeedit.cc:406-475), for month (y, m) and the current date today.
     * A range kind shows the two halves of its text. A single kind shows
     * the date its picker selected (today) at 00:00:00, which the source
     * reads with selected_date().at(0), so today must lie within the
     * picker's bounds. The end field of a single kind keeps
     * QDateTimeEdit's initial 2000-01-01 00:00:00. The slots are connected
     * afterwards, so nothing is forwarded.
     */
    constructor(kind: EditKind, y: int, m: int, today: Date)
      requires 1 <= m <= 12 && ValidDate(today) && today.day <= DaysInMonth(y, m)
      requires !IsRange(kind) ==> PickerShowsToday(y, today)
      ensures this.kind == kind && Valid() && forwarded == [] && events == []
      ensures !IsRange(kind) ==> Value() == DateTime(Date(y, m, today.day), 0)
      ensures kind == DateTimeRangeKind ==>
        StartDateTime() == DateTime(Date(y, m, today.day), 0) && EndDateTime() == DateTime(Date(y, m, today.day), 86399)
      ensures kind == DateRangeKind ==>
        StartDateTime() == DateTime(Date(y, m, 1), 0) && EndDateTime() == DateTime(Date(y, m, today.day), 0)
      ensures IsRange(kind) ==> startEdit == StartDateTime() && endEdit == EndDateTime()
      ensures !IsRange(kind) ==> startEdit == DateTime(today, 0) && endEdit == DateTime(Date(2000, 1, 1), 0)
    {
      this.kind := kind;
      var text := InitialText(kind, y, m, today);
      realText := text;
      if IsRange(kind) {
        var r := ReadRange(LayoutOf(kind), text).value;
        startEdit, endEdit := r.0, r.1;
      } else {
        startEdit, endEdit := DateTime(today, 0), DateTime(Date(2000, 1, 1), 0);
      }
      forwarded, events := [], [];
    }

    /**
     * dateTimeChanged (datetimeedit.cc:287-309), run when field's value
     * changed to dt: the text is rewritten (only the field's half for a
     * range kind) and dt is passed on to the picker.
     */
    method DateTimeChanged(field: Field, dt: DateTime)
      requires Valid() && IsDateTime(dt) && (field == EndField ==> IsRange(kind))
      modifies this`realText, this`forwarded
      ensures Valid()
      ensures realText == EditedText(kind, field, dt, old(realText))
      ensures forwarded == old(forwarded) + [ForwardOf(kind, field, dt)]
    {
      realText := EditedText(kind, field, dt, realText);
      forwarded := forwarded + [ForwardOf(kind, field, dt)];
    }

    /**
     * QDateTimeEdit::setDateTime on field, by code or by the user: when the
     * value changes, dateTimeChanged is sent and the slot above runs.
     */
    method SetEditDateTime(field: Field, dt: DateTime)
      requires Valid() && IsDateTime(dt) && (field == EndField ==> IsRange(kind))
      modifies this`startEdit, this`endEdit, this`realText, this`forwarded
      ensures Valid() && EditOf(field) == dt
      ensures field == StartField ==> endEdit == old(endEdit)
      ensures field == EndField ==> startEdit == old(startEdit)
      ensures old(EditOf(field)) == dt ==> realText == old(realText) && forwarded == old(forwarded)
      ensures old(EditOf(field)) != dt ==>
        realText == EditedText(kind, field, dt, old(realText)) && forwarded == old(forwarded) + [ForwardOf(kind, field, dt)]
    {
      if EditOf(field) != dt {
        if field == StartField {
          startEdit := dt;
        } else {
          endEdit := dt;
        }
        DateTimeChanged(field, dt);
      }
    }

    /**
     * timeChanged (datetimeedit.cc:332-345), from the date-time picker: the
     * stored value takes time t and keeps its date; the start field shows it.
     */
    method TimeChanged(t: int)
      requires Valid() && kind == DateTimeKind && IsTime(t)
      modifies this`startEdit, this`endEdit, this`realText, this`forwarded
      ensures Valid() && Value() == old(Value()).(time := t) && startEdit == Value()
      ensures forwarded == old(forwarded) + (if old(startEdit) != Value() then [PickerDateTime(Value())] else [])
    {
      var dt := Value().(time := t);
      ParseFormat(Layout(), dt);
      realText := Format(Layout(), dt);
      SetEditDateTime(StartField, dt);
    }

    /**
     * dateChanged (datetimeedit.cc:347-360), from either single picker: the
     * stored value takes date d and keeps its time; the start field shows it.
     */
    method DateChanged(d: Date)
      requires Valid() && !IsRange(kind) && ValidDate(d)
      modifies this`startEdit, this`endEdit, this`realText, this`forwarded
      ensures Valid() && Value() == old(Value()).(date := d) && startEdit == Value()
      ensures forwarded == old(forwarded) + (if old(startEdit) != Value() then [PickerDateTime(Value())] else [])
    {
      var dt := Value().(date := d);
      ParseFormat(Layout(), dt);
      realText := Format(Layout(), dt);
      SetEditDateTime(StartField, dt);
    }

    /**
     * timeRangeChanged (datetimeedit.cc:362-382), with the range picker's
     * times: both ends take the new times and keep their dates; both fields
     * show the halves; the two ends are signalled, start first.
     */
    method TimeRangeChanged(startTime: int, endTime: int)
      requires Valid() && kind == DateTimeRangeKind && IsTime(startTime) && IsTime(endTime)
      modifies this
      ensures Valid()
      ensures StartDateTime() == old(StartDateTime()).(time := startTime)
      ensures EndDateTime() == old(EndDateTime()).(time := endTime)
      ensures events == old(events) + [StartDateTimeChanged(StartDateTime()), EndDateTimeChanged(EndDateTime())]
      ensures old(forwarded) <= forwarded
    {
      var s := StartDateTime().(time := startTime);
      var e := EndDateTime().(time := endTime);
      ShowRange(s, e);
      ReadRangeText(Layout(), s, e);
      events := events + [StartDateTimeChanged(s), EndDateTimeChanged(e)];
    }

    /**
     * dateRangeChanged (datetimeedit.cc:383-404), with the range picker's
     * pair: both ends take the new dates and keep their times; both fields
     * show the halves; the two ends are signalled, start first.
     */
    method DateRangeChanged(first: Date, second: Date)
      requires Valid() && IsRange(kind) && ValidDate(first) && ValidDate(second)
      modifies this
      ensures Valid()
      ensures StartDateTime() == old(StartDateTime()).(date := first)
      ensures EndDateTime() == old(EndDateTime()).(date := second)
      ensures events == old(events) + [StartDateTimeChanged(StartDateTime()), EndDateTimeChanged(EndDateTime())]
      ensures old(forwarded) <= forwarded
    {
      var s := StartDateTime().(date := first);
      var e := EndDateTime().(date := second);
      ShowRange(s, e);
      ReadRangeText(Layout(), s, e);
      events := events + [StartDateTimeChanged(s), EndDateTimeChanged(e)];
    }

    /**
     * The common part of the two range slots: the text becomes the range
     * (s, e), then each field is set to its half read back. A field whose
     * value changes runs dateTimeChanged, which rewrites the same text and
     * passes the value on.
     */
    method ShowRange(s: DateTime, e: DateTime)
      requires Valid() && IsRange(kind) && IsDateTime(s) && IsDateTime(e)
      requires Shown(Layout(), s) == s && Shown(Layout(), e) == e
      modifies this`startEdit, this`endEdit, this`realText, this`forwarded
      ensures Valid() && realText == RangeText(Layout(), s, e)
      ensures startEdit == s && endEdit == e
      ensures forwarded == old(forwarded) + (if old(startEdit) != s then [RangeStart(s)] else []) +
        (if old(endEdit) != e then [RangeEnd(e)] else [])
    {
      realText := RangeText(Layout(), s, e);
      ShowHalf(StartField, s, e);
      ShowHalf(EndField, s, e);
    }

    /** One field of ShowRange: set to its half of a text that already holds the range (s, e). */
    method ShowHalf(field: Field, s: DateTime, e: DateTime)
      requires IsDateTime(startEdit) && IsDateTime(endEdit) && IsRange(kind) && IsDateTime(s) && IsDateTime(e)
      requires Shown(Layout(), s) == s && Shown(Layout(), e) == e
      requires realText == RangeText(Layout(), s, e)
      modifies this`startEdit, this`endEdit, this`realText, this`forwarded
      ensures Valid() && realText == old(realText)
      ensures field == StartField ==> startEdit == s && endEdit == old(endEdit)
      ensures field == EndField ==> endEdit == e && startEdit == old(startEdit)
      ensures var v := if field == StartField then s else e;
        forwarded == old(forwarded) + (if old(EditOf(field)) != v then [ForwardOf(kind, field, v)] else [])
    {
      RewriteKeepsRange(kind, field, s, e);
      SetEditDateTime(field, if field == StartField then s else e);
    }

    /** setDate (datetimeedit.cc:131-137): a single kind passes the date at 00:00:00 to its picker. */
    method SetDate(d: Date)
      modifies this`forwarded
      ensures forwarded == old(forwarded) + (if !IsRange(kind) then [PickerDateTime(DateTime(d, 0))] else [])
    {
      if !IsRange(kind) {
        forwarded := forwarded + [PickerDateTime(DateTime(d, 0))];
      }
    }

    /** setDateTime (datetimeedit.cc:139-145): a single kind passes dt to its picker. */
    method SetDateTime(dt: DateTime)
      modifies this`forwarded
      ensures forwarded == old(forwarded) + (if !IsRange(kind) then [PickerDateTime(dt)] else [])
    {
      if !IsRange(kind) {
        forwarded := forwarded + [PickerDateTime(dt)];
      }
    }

    /** setStartDateTime (datetimeedit.cc:147-153): a range kind passes dt to its picker's start side. */
    method SetStartDateTime(dt: DateTime)
      modifies this`forwarded
      ensures forwarded == old(forwarded) + (if IsRange(kind) then [RangeStart(dt)] else [])
    {
      if IsRange(kind) {
        forwarded := forwarded + [RangeStart(dt)];
      }
    }

    /** setEndDateTime (datetimeedit.cc:155-161): a range kind passes dt to its picker's end side. */
    method SetEndDateTime(dt: DateTime)
      modifies this`forwarded
      ensures forwarded == old(forwarded) + (if IsRange(kind) then [RangeEnd(dt)] else [])
    {
      if IsRange(kind) {
        forwarded := forwarded + [RangeEnd(dt)];
      }
    }

    /** setDateTimeRange (datetimeedit.cc:163-169): a range kind passes both ends to its picker. */
    method SetDateTimeRange(s: DateTime, e: DateTime)
      modifies this`forwarded
      ensures forwarded == old(forwarded) + (if IsRange(kind) then [RangeBoth(s, e)] else [])
    {
      if IsRange(kind) {
        forwarded := forwarded + [RangeBoth(s, e)];
      }
    }

    /** resetDateTime (datetimeedit.cc:171-180): a range kind asks its picker for the whole of today. */
    method ResetDateTime(today: Date)
      modifies this`forwarded
      ensures forwarded == old(forwarded) +
        (if IsRange(kind) then [RangeBoth(DateTime(today, 0), DateTime(today, 86399))] else [])
    {
      SetDateTimeRange(DateTime(today, 0), DateTime(today, 86399));
    }

    /**
     * The Show branch of eventFilter (datetimeedit.cc:238-257): when the
     * popup's picker is shown it is given the value the text holds.
     */
    method PickerShown()
      requires Valid()
      modifies this`forwarded
      ensures IsRange(kind) ==> forwarded == old(forwarded) + [RangeBoth(StartDateTime(), EndDateTime())]
      ensures !IsRange(kind) ==> forwarded == old(forwarded) + [PickerDateTime(Value())]
    {
      if IsRange(kind) {
        forwarded := forwarded + [RangeBoth(StartDateTime(), EndDateTime())];
      } else {
        forwarded := forwarded + [PickerDateTime(Value())];
      }
    }
  }
}

=== FILE: pickers.dfy ===
/**
 * The pickers built on the calendar widget (datetimepicker.cc): a single
 * date-time picker, and a range picker made of a start and an end calendar,
 * each with a time edit.
 *
 * The range picker keeps a pair of dates. A selection added on either
 * calendar runs calendarSelectionAdded, which writes the firing side of the
 * pair, pushes the other side along when the pair would be reversed, and
 * redraws both selections. While it redraws, the handler is disconnected, so
 * the selections it adds do not run it again. A time edit that leaves the
 * range reversed on a single day is flagged and, one second later (a timer,
 * modelled as a queue of pending corrections), reset to 00:00:00 or 23:59:59.
 *
 * What the range picker does to its own state (pair, times, flags, timers)
 * is given by the pure transition functions below; the class's methods are
 * proved to follow them. Signals the pickers send are appended to an event
 * log; each selectionChanged of the calendars reaches dateRangeChanged.
 */
module Pickers {
  import opened Dates
  import opened CalendarSpec
  import opened Calendar
  import opened CalendarView

  datatype Side = Start | End

  function Other(side: Side): (r: Side)
    ensures r != side
  {
    if side == Start then End else Start
  }

  /** The time a flagged edit is reset to: the start of the day on the start side, its last second on the end side. */
  function ResetTime(side: Side): (t: int)
    ensures IsTime(t)
    ensures side == Start ==> t == 0
    ensures side == End ==> t == 86399
  {
    if side == Start then 0 else 86399
  }

  /** A reset the one-second timer of showError will apply. */
  datatype Correction = Correction(side: Side, time: int)

  /** The range picker's signals. */
  datatype RangeEvent = TimeRangeChanged | DateRangeChanged

  /** The single picker's signals. */
  datatype PickerEvent = TimeChanged(time: int) | DateChanged(date: Date)

  /** n dateRangeChanged signals in a row. */
  function DateRangeSignals(n: nat): (r: seq<RangeEvent>)
    ensures |r| == n && forall k :: 0 <= k < n ==> r[k] == DateRangeChanged
  {
    if n == 0 then [] else DateRangeSignals(n - 1) + [DateRangeChanged]
  }

  /**
   * The pair calendarSelectionAdded leaves when side fired with date d
   * (datetimepicker.cc:177-188): the firing side takes d, and if that
   * reverses the pair the other side is overwritten with d as well.
   */
  function ClampPair(side: Side, d: Date, first: Date, second: Date): (r: (Date, Date))
    ensures side == Start ==> r.0 == d
    ensures side == End ==> r.1 == d
    ensures NotAfter(r.0, r.1)
  {
    if side == Start then (d, if Before(second, d) then d else second)
    else (if Before(d, first) then d else first, d)
  }

  /** The side that did not fire keeps its date unless it would lie on the wrong side of d; then it becomes d. */
  lemma ClampPairOther(side: Side, d: Date, first: Date, second: Date)
    ensures var r := ClampPair(side, d, first, second);
      side == Start ==> (r.1 == second <==> NotAfter(d, second)) && (r.1 != second ==> r.1 == d)
    ensures var r := ClampPair(side, d, first, second);
      side == End ==> (r.0 == first <==> NotAfter(first, d)) && (r.0 != first ==> r.0 == d)
  {
  }

  // ---------------------------------------------------------------------------
  // The range picker's own state and its transitions

  /**
   * The pair (date_range_pair_), the two time edits in seconds of the day,
   * the edits drawn with the red error border, and the corrections whose
   * one-second timers are running, oldest first.
   */
  datatype RangeState = RangeState(first: Date, second: Date, startTime: int, endTime: int,
                                   flagged: set<Side>, pending: seq<Correction>)
  {
    function TimeOf(side: Side): int {
      if side == Start then startTime else endTime
    }

    function WithTime(side: Side, t: int): RangeState {
      if side == Start then this.(startTime := t) else this.(endTime := t)
    }

    /** A range on a single day whose start time is after its end time. */
    predicate Reversed() {
      first == second && startTime > endTime
    }

    /** Valid ordered pair, times of day, and every queued reset is its side's reset time. */
    predicate Sound() {
      ValidDate(first) && ValidDate(second) && NotAfter(first, second) &&
      IsTime(startTime) && IsTime(endTime) &&
      forall k :: 0 <= k < |pending| ==> pending[k].time == ResetTime(pending[k].side)
    }
  }

  /**
   * The range check of timeChanged (datetimepicker.cc:244-247), also made by
   * calendarSelectionAdded (190-194): a reversed range flags side's edit and
   * queues its reset through showError (252-267); otherwise nothing changes.
   */
  function Checked(side: Side, st: RangeState): (r: RangeState)
    ensures r.first == st.first && r.second == st.second && r.startTime == st.startTime && r.endTime == st.endTime
    ensures r.pending == st.pending + (if st.Reversed() then [Correction(side, ResetTime(side))] else [])
    ensures r.flagged == st.flagged + (if st.Reversed() then {side} else {})
    ensures st.Sound() ==> r.Sound()
  {
    if st.Reversed() then st.(flagged := st.flagged + {side}, pending := st.pending + [Correction(side, ResetTime(side))])
    else st
  }

  /** What calendarSelectionAdded (datetimepicker.cc:173-194) does to the state when side fired with d. */
  function Selected(side: Side, d: Date, st: RangeState): (r: RangeState)
    ensures (r.first, r.second) == ClampPair(side, d, st.first, st.second)
    ensures r.startTime == st.startTime && r.endTime == st.endTime
    ensures ValidDate(d) && st.Sound() ==> r.Sound()
  {
    var pair := ClampPair(side, d, st.first, st.second);
    Checked(side, st.(first := pair.0, second := pair.1))
  }

  /** The handler queues a correction exactly when its new pair is a single day and the start time is after the end time. */
  lemma SelectedQueuesIffReversed(side: Side, d: Date, st: RangeState)
    ensures var r := Selected(side, d, st);
      (|r.pending| > |st.pending|) <==> (r.first == r.second && st.startTime > st.endTime)
    ensures var r := Selected(side, d, st);
      |r.pending| > |st.pending| ==> r.pending == st.pending + [Correction(side, ResetTime(side))] && side in r.flagged
  {
  }

  /** QTimeEdit::setTime(t) on side's edit: timeChanged (datetimepicker.cc:242-250) runs only when the time changes. */
  function TimeSet(side: Side, t: int, st: RangeState): (r: RangeState)
    ensures r.TimeOf(side) == t && r.TimeOf(Other(side)) == st.TimeOf(Other(side))
    ensures r.first == st.first && r.second == st.second
    ensures st.Sound() && IsTime(t) ==> r.Sound()
  {
    if st.TimeOf(side) == t then st else Checked(side, st.WithTime(side, t))
  }

  /**
   * The oldest one-second timer of showError fires (datetimepicker.cc:263-266):
   * its edit is set to the reset time, then its border is cleared.
   */
  function Corrected(st: RangeState): (r: RangeState)
    requires st.pending != []
    ensures r.first == st.first && r.second == st.second
    ensures st.Sound() ==> r.Sound() && r.TimeOf(st.pending[0].side) == ResetTime(st.pending[0].side)
    ensures st.Sound() ==> r.TimeOf(Other(st.pending[0].side)) == st.TimeOf(Other(st.pending[0].side))
    ensures st.Sound() ==> r.startTime <= r.endTime && r.pending == st.pending[1..]
    ensures st.Sound() ==> r.flagged == st.flagged - {st.pending[0].side}
  {
    var c := st.pending[0];
    var s1 := TimeSet(c.side, c.time, st.(pending := st.pending[1..]));
    s1.(flagged := s1.flagged - {c.side})
  }

  /**
   * dateDoubleClicked (datetimepicker.cc:223-240) on the state: both sides
   * become d, and a reversed time range is reset to the whole day, start
   * edit first.
   */
  function DoubleClicked(d: Date, st: RangeState): (r: RangeState)
    ensures r.first == d && r.second == d
    ensures st.startTime <= st.endTime ==> r == st.(first := d, second := d)
    ensures st.Sound() && ValidDate(d) ==> r.Sound() && r.startTime <= r.endTime
    ensures st.Sound() ==> r.pending == st.pending && r.flagged == st.flagged
  {
    var s1 := st.(first := d, second := d);
    if s1.startTime > s1.endTime then TimeSet(End, 86399, TimeSet(Start, 0, s1)) else s1
  }

  /**
   * setDateTimeRange (datetimepicker.cc:139-149) as written, on the state:
   * unless start is after end, the start date is added (running the handler
   * when it lies within the start calendar's bounds, startIn), then the end
   * date likewise (endIn), then the start edit is set, then the end edit.
   */
  function RequestAsWritten(startIn: bool, endIn: bool, s: DateTime, e: DateTime, st: RangeState): (r: RangeState)
    ensures DateTimeBefore(e, s) ==> r == st
    ensures !DateTimeBefore(e, s) ==> r.startTime == s.time && r.endTime == e.time
  {
    if DateTimeBefore(e, s) then st
    else TimeSet(End, e.time, TimeSet(Start, s.time, AddsAsWritten(startIn, endIn, s.date, e.date, st)))
  }

  /** The two adds of setDateTimeRange as written: each runs the handler when its date lies within its calendar's bounds. */
  function AddsAsWritten(startIn: bool, endIn: bool, a: Date, b: Date, st: RangeState): (r: RangeState)
    ensures r.startTime == st.startTime && r.endTime == st.endTime
    ensures startIn && endIn ==> r.second == b && (r.first == a || (r.first == b && Before(b, a)))
    ensures ValidDate(a) && ValidDate(b) && st.Sound() ==> r.Sound()
  {
    var s1 := if startIn then Selected(Start, a, st) else st;
    if endIn then Selected(End, b, s1) else s1
  }

  /**
   * The checks setDateTimeRange sets off run on intermediate states: with a
   * single-day pair and an end time of 01:00, asking for 10:00 to 12:00 on
   * that day flags the start edit as soon as it is set to 10:00, and one
   * second later it is reset to 00:00 although the request was ordered.
   */
  lemma RequestAsWrittenQueuesSpuriousReset()
    ensures var d := Date(2024, 5, 10);
      var s := DateTime(d, 36000);
      var e := DateTime(d, 43200);
      var r := RequestAsWritten(true, true, s, e, RangeState(d, d, 0, 3600, {}, []));
      !DateTimeBefore(e, s) && r.pending == [Correction(Start, 0)] &&
      Corrected(r).startTime == 0 && Corrected(r).startTime != s.time
  {
  }

  /**
   * setDateTimeRange with the intended effect: the pair moves as the two
   * adds would move it, both edits take the requested times, and the range
   * is checked once, on the final state.
   */
  function Request(startIn: bool, endIn: bool, s: DateTime, e: DateTime, st: RangeState): (r: RangeState)
    ensures DateTimeBefore(e, s) ==> r == st
    ensures !DateTimeBefore(e, s) ==> r.startTime == s.time && r.endTime == e.time
    ensures ValidDate(s.date) && ValidDate(e.date) && IsTime(s.time) && IsTime(e.time) && st.Sound() ==> r.Sound()
  {
    if DateTimeBefore(e, s) then st
    else
      var p1 := if startIn then ClampPair(Start, s.date, st.first, st.second) else (st.first, st.second);
      var p2 := if endIn then ClampPair(End, e.date, p1.0, p1.1) else p1;
      Checked(End, st.(first := p2.0, second := p2.1, startTime := s.time, endTime := e.time))
  }

  /**
   * An ordered request whose dates both lie within their calendars' bounds
   * is honoured exactly: the pair and the times become the requested ones,
   * and no edit is flagged and no reset queued.
   */
  lemma RequestHonoured(s: DateTime, e: DateTime, st: RangeState)
    requires !DateTimeBefore(e, s)
    ensures Request(true, true, s, e, st) == st.(first := s.date, second := e.date, startTime := s.time, endTime := e.time)
  {
  }

  /** As written and corrected, a request leaves the same pair and times; only the queued resets differ. */
  lemma RequestAgreesOnRange(startIn: bool, endIn: bool, s: DateTime, e: DateTime, st: RangeState)
    ensures var a := RequestAsWritten(startIn, endIn, s, e, st);
      var b := Request(startIn, endIn, s, e, st);
      a.first == b.first && a.second == b.second && a.startTime == b.startTime && a.endTime == b.endTime
  {
  }

  // ---------------------------------------------------------------------------
  // Calendars as the range picker sees them

  /** A calendar redrawn for date d: its selection is exactly d when d lies within its bounds, and empty otherwise. */
  ghost predicate Shows(w: CalendarWidget, d: Date)
    reads w.calendar
  {
    w.calendar.selected == (if InBounds(d, w.calendar.minDate, w.calendar.maxDate) then [d] else [])
  }

  /** A calendar moved by setYearMonth(d.year, d.month): to the target month when there is one, otherwise it stays. */
  twostate predicate Follows(w: CalendarWidget, d: Date)
    reads w.calendar
  {
    1 <= w.calendar.minDate.month <= 12 && 1 <= w.calendar.maxDate.month <= 12 &&
    var t := Target(d.year, d.month, w.calendar.minDate, w.calendar.maxDate);
    YearMonth(w.calendar.year, w.calendar.month) ==
      (if t.Some? then t.value else YearMonth(old(w.calendar.year), old(w.calendar.month)))
  }

  /** A calendar on the month setYearMonth(d.year, d.month) moves to, whenever that call is not refused. */
  ghost predicate OnMonthOf(w: CalendarWidget, d: Date)
    reads w.calendar
  {
    1 <= w.calendar.minDate.month <= 12 && 1 <= w.calendar.maxDate.month <= 12 &&
    var t := Target(d.year, d.month, w.calendar.minDate, w.calendar.maxDate);
    t.Some? ==> YearMonth(w.calendar.year, w.calendar.month) == t.value
  }

  /** A calendar whose view, shown month, bounds and mode did not change. */
  twostate predicate Kept(w: CalendarWidget)
    reads w, w.calendar
  {
    w.view == old(w.view) &&
    w.calendar.year == old(w.calendar.year) && w.calendar.month == old(w.calendar.month) &&
    w.calendar.minDate == old(w.calendar.minDate) && w.calendar.maxDate == old(w.calendar.maxDate) &&
    w.calendar.mode == old(w.calendar.mode)
  }

  /** A calendar whose view, bounds and mode did not change; its shown month may have. */
  twostate predicate KeptBounds(w: CalendarWidget)
    reads w, w.calendar
  {
    w.view == old(w.view) &&
    w.calendar.minDate == old(w.calendar.minDate) && w.calendar.maxDate == old(w.calendar.maxDate) &&
    w.calendar.mode == old(w.calendar.mode)
  }

  /** A calendar as its constructor leaves it for today's month: date view, bounds a century around today's year. */
  ghost predicate BuiltOn(w: CalendarWidget, today: Date)
    reads w, w.calendar
  {
    w.view == DateView && w.calendar.year == today.year && w.calendar.month == today.month &&
    w.calendar.minDate == Date(today.year - 100, 1, 1) && w.calendar.maxDate == Date(today.year + 99, 12, 31)
  }

  /** A calendar widget as the range picker creates it, on today's month (datetimepicker.cc:67-68). */
  method BuildCalendar(today: Date, names: seq<string>, now: int) returns (w: CalendarWidget)
    requires ValidDate(today) && IsTime(now)
    ensures fresh(w.Repr()) && w.Valid() && BuiltOn(w, today)
  {
    w := new CalendarWidget(today.year, today.month, names, now);
  }

  /** A calendar built on today's month and then moved to (y, m). */
  ghost predicate OpenedOn(w: CalendarWidget, y: int, m: int, today: Date)
    reads w, w.calendar
  {
    w.view == DateView &&
    w.calendar.minDate == Date(today.year - 100, 1, 1) && w.calendar.maxDate == Date(today.year + 99, 12, 31) &&
    var t := Target(y, m, w.calendar.minDate, w.calendar.maxDate);
    YearMonth(w.calendar.year, w.calendar.month) == (if t.Some? then t.value else YearMonth(today.year, today.month))
  }

  class DateTimeRangePicker {
    const startCalendar: CalendarWidget
    const endCalendar: CalendarWidget
    var startTime: int
    var endTime: int
    var first: Date
    var second: Date
    var flagged: set<Side>
    var pending: seq<Correction>
    /** Whether both calendars' selectionAdded reach calendarSelectionAdded. */
    var connected: bool
    var events: seq<RangeEvent>

    function CalendarOf(side: Side): CalendarWidget {
      if side == Start then startCalendar else endCalendar
    }

    function State(): RangeState
      reads this
    {
      RangeState(first, second, startTime, endTime, flagged, pending)
    }

    /** Whether a date lies within the bounds of side's calendar. */
    function Within(side: Side, d: Date): bool
      reads CalendarOf(side).calendar
    {
      InBounds(d, CalendarOf(side).calendar.minDate, CalendarOf(side).calendar.maxDate)
    }

    ghost function Repr(): set<object> {
      {this} + startCalendar.Repr() + endCalendar.Repr()
    }

    /** How many sides of the pair are shown on their calendars: 0, 1 or 2. */
    ghost function ShownCount(): nat
      reads this, startCalendar.calendar, endCalendar.calendar
    {
      (if Within(Start, first) then 1 else 0) + (if Within(End, second) then 1 else 0)
    }

    /** The two calendars are valid widgets with nothing in common with each other or with the picker. */
    ghost predicate Wired()
      reads Repr()
    {
      startCalendar.Repr() !! endCalendar.Repr() &&
      this !in startCalendar.Repr() && this !in endCalendar.Repr() &&
      startCalendar.Valid() && endCalendar.Valid()
    }

    /** What holds between any two steps, even inside a handler. */
    ghost predicate Inv()
      reads Repr()
    {
      Wired() &&
      startCalendar.calendar.mode == RangeSelection && endCalendar.calendar.mode == RangeSelection &&
      State().Sound()
    }

    /** What holds whenever no handler is running: the handler is connected and both calendars show the pair. */
    ghost predicate Valid()
      reads Repr()
    {
      Inv() && connected && Shows(startCalendar, first) && Shows(endCalendar, second)
    }

    /**
     * The constructor (datetimepicker.cc:62-125): two calendars on today's
     * month in range mode, each moved to (y, m); times 00:00:00 and
     * 23:59:59; both sides of the pair on day today.day of month (y, m).
     */
    constructor(y: int, m: int, today: Date, names: seq<string>, now: int)
      requires 1 <= m <= 12 && ValidDate(today) && today.day <= DaysInMonth(y, m) && IsTime(now)
      ensures Valid() && fresh(Repr())
      ensures State() == RangeState(Date(y, m, today.day), Date(y, m, today.day), 0, 86399, {}, [])
      ensures events == []
      ensures OpenedOn(startCalendar, y, m, today) && OpenedOn(endCalendar, y, m, today)
    {
      var a := BuildCalendar(today, names, now);
      var b := BuildCalendar(today, names, now);
      startCalendar, endCalendar := a, b;
      startTime, endTime := 0, 86399;
      first := Date(y, m, today.day);
      second := Date(y, m, today.day);
      flagged, pending, connected, events := {}, [], false, [];
      new;
      Open(y, m, today);
    }

    /**
     * The DateRangePicker constructor (datetimepicker.cc:310-324): the range
     * picker above, then the pair becomes the first of month (y, m) and
     * day today.day of it, and the selections are redrawn.
     */
    constructor DateRange(y: int, m: int, today: Date, names: seq<string>, now: int)
      requires 1 <= m <= 12 && ValidDate(today) && today.day <= DaysInMonth(y, m) && IsTime(now)
      ensures Valid() && fresh(Repr())
      ensures State() == RangeState(Date(y, m, 1), Date(y, m, today.day), 0, 86399, {}, [])
      ensures events == DateRangeSignals(2 + ShownCount())
    {
      var a := BuildCalendar(today, names, now);
      var b := BuildCalendar(today, names, now);
      startCalendar, endCalendar := a, b;
      startTime, endTime := 0, 86399;
      first := Date(y, m, today.day);
      second := Date(y, m, today.day);
      flagged, pending, connected, events := {}, [], false, [];
      new;
      OpenAsDateRange(y, m, today);
    }

    /** What the DateRangePicker constructor does after its base (datetimepicker.cc:313-323). */
    method OpenAsDateRange(y: int, m: int, today: Date)
      requires Wired() && !connected
      requires 1 <= m <= 12 && ValidDate(today) && today.day <= DaysInMonth(y, m)
      requires State() == RangeState(Date(y, m, today.day), Date(y, m, today.day), 0, 86399, {}, [])
      requires BuiltOn(startCalendar, today) && BuiltOn(endCalendar, today)
      modifies Repr()
      ensures Valid()
      ensures State() == RangeState(Date(y, m, 1), Date(y, m, today.day), 0, 86399, {}, [])
      ensures events == DateRangeSignals(2 + ShownCount())
    {
      Open(y, m, today);
      ReplacePair(Date(y, m, 1), Date(y, m, today.day));
    }

    /**
     * The rest of the constructor once the calendars exist on today's month
     * (datetimepicker.cc:70-79, 102-111): set both calendars up, draw the
     * pair, connect the handler. The signals sent before the connections
     * are made reach no slot, so the log starts empty.
     */
    method Open(y: int, m: int, today: Date)
      requires Wired() && !connected && State().Sound()
      requires BuiltOn(startCalendar, today) && BuiltOn(endCalendar, today)
      modifies Repr()
      ensures Valid() && State() == old(State()) && events == []
      ensures OpenedOn(startCalendar, y, m, today) && OpenedOn(endCalendar, y, m, today)
    {
      SetUpCalendars(y, m, today);
      RefreshCalendarSelection();
      connected := true; // connectSelectionAdded
      events := [];
    }

    /** The set-up of both calendars (datetimepicker.cc:70-72, 77-79). */
    method SetUpCalendars(y: int, m: int, today: Date)
      requires Wired() && BuiltOn(startCalendar, today) && BuiltOn(endCalendar, today)
      modifies startCalendar.Repr(), endCalendar.Repr()
      ensures Wired() && startCalendar.calendar.mode == RangeSelection && endCalendar.calendar.mode == RangeSelection
      ensures OpenedOn(startCalendar, y, m, today) && OpenedOn(endCalendar, y, m, today)
    {
      SetUpCalendar(Start, y, m);
      SetUpCalendar(End, y, m);
    }

    /**
     * The set-up of one calendar (datetimepicker.cc:70-72, 77-79): range
     * mode, one bound set to its own value (which changes nothing), and the
     * month (y, m).
     */
    method SetUpCalendar(side: Side, y: int, m: int)
      requires Wired()
      modifies CalendarOf(side).Repr()
      ensures Wired() && CalendarOf(side).calendar.mode == RangeSelection
      ensures Follows(CalendarOf(side), Date(y, m, 1)) && CalendarOf(side).view == old(CalendarOf(side).view)
      ensures CalendarOf(side).calendar.minDate == old(CalendarOf(side).calendar.minDate)
      ensures CalendarOf(side).calendar.maxDate == old(CalendarOf(side).calendar.maxDate)
    {
      var w := CalendarOf(side);
      w.SetSelMode(RangeSelection);
      if side == Start {
        w.SetMaxDate(w.calendar.maxDate);
      } else {
        w.SetMinDate(w.calendar.minDate);
      }
      var _ := w.SetYearMonth(y, m);
    }

    /**
     * The pair replacement of the DateRangePicker constructor
     * (datetimepicker.cc:313-323): with the handler disconnected, the pair
     * becomes (a, b) and both calendars are redrawn.
     */
    method ReplacePair(a: Date, b: Date)
      requires Valid() && ValidDate(a) && ValidDate(b) && NotAfter(a, b)
      modifies Repr()
      ensures Valid() && State() == old(State()).(first := a, second := b)
      ensures Kept(startCalendar) && Kept(endCalendar)
      ensures events == old(events) + DateRangeSignals(2 + ShownCount())
    {
      connected := false; // disconnectSelectionAdded
      first, second := a, b;
      RefreshCalendarSelection();
      connected := true; // connectSelectionAdded
    }

    /**
     * Delivery of a calendar's selectionAdded(d): the handler runs only while
     * it is connected. connectSelectionAdded (datetimepicker.cc:297-301)
     * connects each calendar once, and the handler begins by disconnecting
     * both (303-308), so the adds it makes while redrawing do not re-enter it.
     */
    method OnSelectionAdded(side: Side, d: Date)
      requires Inv() && ValidDate(d)
      modifies Repr()
      ensures Inv() && connected == old(connected)
      ensures !old(connected) ==> unchanged(Repr())
      ensures old(connected) ==> (State() == Selected(side, d, old(State())) &&
        Follows(startCalendar, first) && Follows(endCalendar, second) &&
        Shows(startCalendar, first) && Shows(endCalendar, second) &&
        KeptBounds(startCalendar) && KeptBounds(endCalendar) &&
        events == old(events) + DateRangeSignals(2 + ShownCount()))
      decreases if connected then 5 else 0
    {
      if connected {
        CalendarSelectionAdded(side, d);
      }
    }

    /** calendarSelectionAdded (datetimepicker.cc:173-202), for a selection added on side's calendar. */
    method CalendarSelectionAdded(side: Side, d: Date)
      requires Inv() && connected && ValidDate(d)
      modifies Repr()
      ensures Inv() && connected
      ensures State() == Selected(side, d, old(State()))
      ensures Follows(startCalendar, first) && Follows(endCalendar, second)
      ensures Shows(startCalendar, first) && Shows(endCalendar, second)
      ensures KeptBounds(startCalendar) && KeptBounds(endCalendar)
      ensures events == old(events) + DateRangeSignals(2 + ShownCount())
      decreases 4
    {
      connected := false; // disconnectSelectionAdded
      UpdatePair(side, d);
      MoveCalendars(first, second);
      RefreshCalendarSelection();
      connected := true; // connectSelectionAdded
    }

    /** The pair update and time check of calendarSelectionAdded (datetimepicker.cc:177-194). */
    method UpdatePair(side: Side, d: Date)
      requires Inv() && ValidDate(d)
      modifies this`first, this`second, this`flagged, this`pending
      ensures Inv() && State() == Selected(side, d, old(State()))
    {
      if side == Start {
        first := d;
      } else {
        second := d;
      }
      if Before(second, first) {
        if side == Start {
          second := first;
        } else {
          first := second;
        }
      }
      if first == second && startTime > endTime {
        ShowError(side, ResetTime(side));
      }
    }

    /** setYearMonth on the start calendar to a's month, then on the end calendar to b's month. */
    method MoveCalendars(a: Date, b: Date)
      requires Inv()
      modifies startCalendar.Repr(), endCalendar.Repr()
      ensures Inv()
      ensures Follows(startCalendar, a) && KeptBounds(startCalendar)
      ensures Follows(endCalendar, b) && KeptBounds(endCalendar)
      ensures startCalendar.calendar.selected == old(startCalendar.calendar.selected)
      ensures endCalendar.calendar.selected == old(endCalendar.calendar.selected)
    {
      MoveCalendar(Start, a);
      MoveCalendar(End, b);
    }

    /** setYearMonth(d.year(), d.month()) on side's calendar; the other calendar is untouched. */
    method MoveCalendar(side: Side, d: Date)
      requires Inv()
      modifies CalendarOf(side).Repr()
      ensures Inv()
      ensures Follows(CalendarOf(side), d) && KeptBounds(CalendarOf(side))
      ensures CalendarOf(side).calendar.selected == old(CalendarOf(side).calendar.selected)
    {
      var _ := CalendarOf(side).SetYearMonth(d.year, d.month);
    }

    /**
     * refreshCalendarSelection (datetimepicker.cc:282-295): clear both
     * selections and add each side of the pair on its calendar when it lies
     * within that calendar's bounds. Each clear and each add reaches
     * dateRangeChanged; the adds' selectionAdded reach nothing, because the
     * handler is disconnected.
     */
    method RefreshCalendarSelection()
      requires Inv() && !connected
      modifies Repr()
      ensures Inv() && !connected && State() == old(State())
      ensures Shows(startCalendar, first) && Shows(endCalendar, second)
      ensures Kept(startCalendar) && Kept(endCalendar)
      ensures events == old(events) + DateRangeSignals(2 + ShownCount())
      decreases 3
    {
      ClearSelections();
      ShowSide(Start, first);
      ShowSide(End, second);
    }

    /** The two clears of refreshCalendarSelection (datetimepicker.cc:284-285). */
    method ClearSelections()
      requires Inv() && !connected
      modifies startCalendar.calendar`selected, startCalendar.calendar`events
      modifies endCalendar.calendar`selected, endCalendar.calendar`events, this`events
      ensures Inv() && startCalendar.calendar.selected == [] && endCalendar.calendar.selected == []
      ensures Kept(startCalendar) && Kept(endCalendar)
      ensures events == old(events) + [DateRangeChanged, DateRangeChanged]
    {
      ClearSelection(Start);
      ClearSelection(End);
    }

    /** clearSelectedDate on side's calendar, whose selectionChanged reaches dateRangeChanged. */
    method ClearSelection(side: Side)
      requires Inv()
      modifies CalendarOf(side).calendar`selected, CalendarOf(side).calendar`events, this`events
      ensures Inv() && CalendarOf(side).calendar.selected == []
      ensures events == old(events) + [DateRangeChanged]
    {
      CalendarOf(side).ClearSelectedDate();
      events := events + [DateRangeChanged];
    }

    /**
     * The add step of refreshCalendarSelection (datetimepicker.cc:287-291)
     * for side's calendar, whose selection is empty: d is added when it lies
     * within the calendar's bounds, and the disconnected handler does not run.
     */
    method ShowSide(side: Side, d: Date)
      requires Inv() && !connected && ValidDate(d) && CalendarOf(side).calendar.selected == []
      modifies Repr()
      ensures Inv() && !connected && Shows(CalendarOf(side), d) && State() == old(State())
      ensures Kept(startCalendar) && Kept(endCalendar)
      ensures unchanged(CalendarOf(Other(side)).calendar)
      ensures events == old(events) + (if Within(side, d) then [DateRangeChanged] else [])
      decreases 2
    {
      var w := CalendarOf(side);
      if NotAfter(w.calendar.minDate, d) && NotAfter(d, w.calendar.maxDate) {
        AddShown(side, d);
        events := events + [DateRangeChanged];
      }
    }

    /** The add of ShowSide: selectionAdded is emitted while the handler is disconnected. */
    method AddShown(side: Side, d: Date)
      requires Inv() && !connected && ValidDate(d) && CalendarOf(side).calendar.selected == [] && Within(side, d)
      modifies Repr()
      ensures Inv() && !connected && CalendarOf(side).calendar.selected == [d] && State() == old(State())
      ensures Kept(startCalendar) && Kept(endCalendar)
      ensures unchanged(CalendarOf(Other(side)).calendar)
      ensures events == old(events)
      decreases 1
    {
      var _ := CalendarOf(side).AddSelectedDate(d);
      OnSelectionAdded(side, d);
    }

    /**
     * showError (datetimepicker.cc:252-267): draw the edit's red border and
     * start a one-second timer that will set the edit to t.
     */
    method ShowError(side: Side, t: int)
      modifies this`flagged, this`pending
      ensures flagged == old(flagged) + {side}
      ensures pending == old(pending) + [Correction(side, t)]
    {
      flagged := flagged + {side};
      pending := pending + [Correction(side, t)];
    }

    /**
     * timeChanged (datetimepicker.cc:242-250), run for the edit on side:
     * the range check, then timeRangeChanged in every case.
     */
    method TimeChanged(side: Side)
      requires Inv()
      modifies this`flagged, this`pending, this`events
      ensures Inv() && State() == Checked(side, old(State()))
      ensures events == old(events) + [TimeRangeChanged]
    {
      if first == second && startTime > endTime {
        ShowError(side, ResetTime(side));
      }
      events := events + [TimeRangeChanged];
    }

    /** QTimeEdit::setTime on side's edit: timeChanged is sent, and the slot run, only when the time changes. */
    method SetTime(side: Side, t: int)
      requires Inv() && IsTime(t)
      modifies this`startTime, this`endTime, this`flagged, this`pending, this`events
      ensures Inv() && State() == TimeSet(side, t, old(State()))
      ensures events == old(events) + (if old(State().TimeOf(side)) != t then [TimeRangeChanged] else [])
    {
      if State().TimeOf(side) != t {
        if side == Start {
          startTime := t;
        } else {
          endTime := t;
        }
        TimeChanged(side);
      }
    }

    /** The oldest one-second timer of showError fires; afterwards the start time is not after the end time. */
    method CorrectionTimerFired()
      requires Valid() && pending != []
      modifies this`startTime, this`endTime, this`flagged, this`pending, this`events
      ensures Valid() && State() == Corrected(old(State()))
      ensures var c := old(pending[0]);
        events == old(events) + (if old(State().TimeOf(c.side)) != c.time then [TimeRangeChanged] else [])
    {
      var c := pending[0];
      pending := pending[1..];
      SetTime(c.side, c.time);
      flagged := flagged - {c.side};
    }

    /**
     * dateDoubleClicked (datetimepicker.cc:223-240): both sides of the pair
     * become d, both calendars move to d's month, a reversed time range is
     * reset to the whole day, and both selections are redrawn.
     */
    method DateDoubleClicked(d: Date)
      requires Valid() && ValidDate(d)
      modifies Repr()
      ensures Valid() && State() == DoubleClicked(d, old(State()))
      ensures Follows(startCalendar, d) && Follows(endCalendar, d)
      ensures KeptBounds(startCalendar) && KeptBounds(endCalendar)
      ensures events == old(events) + (if old(startTime) > old(endTime) then [TimeRangeChanged, TimeRangeChanged] else []) +
        DateRangeSignals(2 + ShownCount())
    {
      connected := false; // disconnectSelectionAdded
      SelectDay(d);
      RefreshCalendarSelection();
      connected := true; // connectSelectionAdded
    }

    /** The pair, month and time updates of dateDoubleClicked (datetimepicker.cc:227-235). */
    method SelectDay(d: Date)
      requires Inv() && ValidDate(d)
      modifies Repr()
      ensures Inv() && connected == old(connected) && State() == DoubleClicked(d, old(State()))
      ensures Follows(startCalendar, d) && Follows(endCalendar, d)
      ensures KeptBounds(startCalendar) && KeptBounds(endCalendar)
      ensures events == old(events) + (if old(startTime) > old(endTime) then [TimeRangeChanged, TimeRangeChanged] else [])
    {
      first, second := d, d;
      MoveCalendars(d, d);
      if startTime > endTime {
        ResetTimes();
      }
    }

    /** The whole-day reset of dateDoubleClicked (datetimepicker.cc:232-235), on a single-day pair. */
    method ResetTimes()
      requires Inv() && first == second && startTime > endTime
      modifies this`startTime, this`endTime, this`flagged, this`pending, this`events
      ensures Inv() && State() == TimeSet(End, 86399, TimeSet(Start, 0, old(State())))
      ensures events == old(events) + [TimeRangeChanged, TimeRangeChanged]
    {
      SetTime(Start, 0);
      SetTime(End, 86399);
    }

    /**
     * addSelectedDate(d) on side's calendar, with the picker's connections:
     * a date within the calendar's bounds is added (in range mode nothing
     * else refuses it); its selectionAdded runs the handler and its
     * selectionChanged reaches dateRangeChanged.
     */
    method AddSelectedDate(side: Side, d: Date) returns (added: bool)
      requires Valid() && ValidDate(d)
      modifies Repr()
      ensures Valid() && added == old(Within(side, d))
      ensures added ==> State() == Selected(side, d, old(State())) && events == old(events) + DateRangeSignals(3 + ShownCount())
      ensures !added ==> State() == old(State()) && events == old(events)
      ensures KeptBounds(startCalendar) && KeptBounds(endCalendar)
      ensures added ==> Follows(startCalendar, first) && Follows(endCalendar, second)
      ensures !added ==> Kept(startCalendar) && Kept(endCalendar)
    {
      added := AddOnCalendar(side, d);
      if added {
        DeliverAdded(side, d);
      }
    }

    /**
     * The slots reached once addSelectedDate(d) has added d on side's
     * calendar: selectionAdded runs the handler, selectionChanged reaches
     * dateRangeChanged.
     */
    method DeliverAdded(side: Side, d: Date)
      requires Inv() && connected && ValidDate(d)
      modifies Repr()
      ensures Valid() && State() == Selected(side, d, old(State()))
      ensures Follows(startCalendar, first) && Follows(endCalendar, second)
      ensures KeptBounds(startCalendar) && KeptBounds(endCalendar)
      ensures events == old(events) + DateRangeSignals(3 + ShownCount())
    {
      CalendarSelectionAdded(side, d);
      events := events + [DateRangeChanged];
    }

    /** The calendar's own part of addSelectedDate(d) on side's calendar, before any slot runs. */
    method AddOnCalendar(side: Side, d: Date) returns (added: bool)
      requires Inv()
      modifies CalendarOf(side).calendar`selected, CalendarOf(side).calendar`events
      ensures Inv() && added == Within(side, d)
      ensures CalendarOf(side).calendar.selected == if added then [d] else old(CalendarOf(side).calendar.selected)
    {
      added := CalendarOf(side).AddSelectedDate(d);
    }

    /** A click on side's table item holding d (the 120 ms click timer starts). */
    method ItemClicked(side: Side, d: Date)
      requires Valid() && ValidDate(d)
      modifies CalendarOf(side).calendar`clickedDate, CalendarOf(side).calendar`isDoubleClicked, CalendarOf(side).calendar`pendingClicks
      ensures Valid()
      ensures !old(CalendarOf(side).calendar.isDoubleClicked) ==> (CalendarOf(side).calendar.clickedDate == Some(d) &&
        CalendarOf(side).calendar.pendingClicks == old(CalendarOf(side).calendar.pendingClicks) + 1)
    {
      CalendarOf(side).ItemClicked(d);
    }

    /**
     * The click timer of side's table fires. In range mode a click on a date
     * within the bounds always adds it, which runs the handler; any other
     * click changes nothing.
     */
    method ClickTimerFired(side: Side)
      requires Valid() && CalendarOf(side).calendar.pendingClicks > 0
      modifies Repr()
      ensures Valid() && KeptBounds(startCalendar) && KeptBounds(endCalendar)
      ensures var w := CalendarOf(side).calendar;
        var c := old(w.clickedDate);
        var fired := !old(w.isDoubleClicked) && c.Some? && old(InBounds(c.value, w.minDate, w.maxDate));
        (fired ==> State() == Selected(side, c.value, old(State())) &&
                   Follows(startCalendar, first) && Follows(endCalendar, second) &&
                   events == old(events) + DateRangeSignals(3 + ShownCount())) &&
        (!fired ==> State() == old(State()) && Kept(startCalendar) && Kept(endCalendar) && events == old(events))
    {
      var outcome := CalendarOf(side).ClickTimerFired();
      if outcome.Added? {
        DeliverAdded(side, outcome.date);
      }
    }

    /** A double click on side's table item holding d: within the bounds it reaches dateDoubleClicked. */
    method ItemDoubleClicked(side: Side, d: Date) returns (emitted: bool)
      requires Valid() && ValidDate(d)
      modifies Repr()
      ensures Valid()
      ensures emitted == old(Within(side, d))
      ensures KeptBounds(startCalendar) && KeptBounds(endCalendar)
      ensures emitted ==> State() == DoubleClicked(d, old(State())) && Follows(startCalendar, d) && Follows(endCalendar, d)
      ensures !emitted ==> State() == old(State()) && Kept(startCalendar) && Kept(endCalendar) && events == old(events)
    {
      emitted := CalendarOf(side).ItemDoubleClicked(d);
      if emitted {
        DateDoubleClicked(d);
      }
    }

    /** setStartDateTime (datetimepicker.cc:127-131): the date is added on the start calendar, then the start edit is set. */
    method SetStartDateTime(dt: DateTime)
      requires Valid() && ValidDate(dt.date) && IsTime(dt.time)
      modifies Repr()
      ensures Valid()
      ensures State() == TimeSet(Start, dt.time,
        if old(Within(Start, dt.date)) then Selected(Start, dt.date, old(State())) else old(State()))
      ensures KeptBounds(startCalendar) && KeptBounds(endCalendar)
      ensures old(Within(Start, dt.date)) ==> Follows(startCalendar, first) && Follows(endCalendar, second)
      ensures !old(Within(Start, dt.date)) ==> Kept(startCalendar) && Kept(endCalendar)
      ensures events == old(events) + (if old(Within(Start, dt.date)) then DateRangeSignals(3 + ShownCount()) else []) +
        (if old(startTime) != dt.time then [TimeRangeChanged] else [])
    {
      var _ := AddSelectedDate(Start, dt.date);
      SetTime(Start, dt.time);
    }

    /** setEndDateTime (datetimepicker.cc:133-137): the date is added on the end calendar, then the end edit is set. */
    method SetEndDateTime(dt: DateTime)
      requires Valid() && ValidDate(dt.date) && IsTime(dt.time)
      modifies Repr()
      ensures Valid()
      ensures State() == TimeSet(End, dt.time,
        if old(Within(End, dt.date)) then Selected(End, dt.date, old(State())) else old(State()))
      ensures KeptBounds(startCalendar) && KeptBounds(endCalendar)
      ensures old(Within(End, dt.date)) ==> Follows(startCalendar, first) && Follows(endCalendar, second)
      ensures !old(Within(End, dt.date)) ==> Kept(startCalendar) && Kept(endCalendar)
      ensures events == old(events) + (if old(Within(End, dt.date)) then DateRangeSignals(3 + ShownCount()) else []) +
        (if old(endTime) != dt.time then [TimeRangeChanged] else [])
    {
      var _ := AddSelectedDate(End, dt.date);
      SetTime(End, dt.time);
    }

    /** setDateTimeRange (datetimepicker.cc:139-149) as written. */
    method SetDateTimeRangeAsWritten(s: DateTime, e: DateTime)
      requires Valid() && ValidDate(s.date) && ValidDate(e.date) && IsTime(s.time) && IsTime(e.time)
      modifies Repr()
      ensures Valid()
      ensures State() == RequestAsWritten(old(Within(Start, s.date)), old(Within(End, e.date)), s, e, old(State()))
      ensures KeptBounds(startCalendar) && KeptBounds(endCalendar)
      ensures !DateTimeBefore(e, s) && old(Within(Start, s.date) || Within(End, e.date)) ==>
        OnMonthOf(startCalendar, first) && OnMonthOf(endCalendar, second)
      ensures DateTimeBefore(e, s) || !old(Within(Start, s.date) || Within(End, e.date)) ==>
        Kept(startCalendar) && Kept(endCalendar)
      ensures old(events) <= events
    {
      if DateTimeBefore(e, s) {
        return;
      }
      AddDates(s.date, e.date);
      SetTimes(s.time, e.time);
    }

    /** start_time_edit_->setTime(a), then end_time_edit_->setTime(b), each running timeChanged when it changes the time. */
    method SetTimes(a: int, b: int)
      requires Valid() && IsTime(a) && IsTime(b)
      modifies this`startTime, this`endTime, this`flagged, this`pending, this`events
      ensures Valid() && State() == TimeSet(End, b, TimeSet(Start, a, old(State())))
      ensures events == old(events) + (if old(startTime) != a then [TimeRangeChanged] else []) +
        (if old(endTime) != b then [TimeRangeChanged] else [])
    {
      SetTime(Start, a);
      SetTime(End, b);
    }

    /** addSelectedDate(a) on the start calendar, then addSelectedDate(b) on the end calendar. */
    method AddDates(a: Date, b: Date)
      requires Valid() && ValidDate(a) && ValidDate(b)
      modifies Repr()
      ensures Valid()
      ensures State() == AddsAsWritten(old(Within(Start, a)), old(Within(End, b)), a, b, old(State()))
      ensures KeptBounds(startCalendar) && KeptBounds(endCalendar)
      ensures old(Within(Start, a) || Within(End, b)) ==> OnMonthOf(startCalendar, first) && OnMonthOf(endCalendar, second)
      ensures !old(Within(Start, a) || Within(End, b)) ==> Kept(startCalendar) && Kept(endCalendar)
      ensures old(events) <= events
    {
      var _ := AddSelectedDate(Start, a);
      var _ := AddSelectedDate(End, b);
    }

    /**
     * setDateTimeRange with the range checked once, on the final state: the
     * pair is written as the two adds would write it, with the handler
     * disconnected; both edits are set; the calendars follow the pair and
     * are redrawn; then timeChanged runs once.
     */
    method SetDateTimeRange(s: DateTime, e: DateTime)
      requires Valid() && ValidDate(s.date) && ValidDate(e.date) && IsTime(s.time) && IsTime(e.time)
      modifies Repr()
      ensures Valid()
      ensures State() == Request(old(Within(Start, s.date)), old(Within(End, e.date)), s, e, old(State()))
      ensures KeptBounds(startCalendar) && KeptBounds(endCalendar)
      ensures !DateTimeBefore(e, s) && old(Within(Start, s.date) || Within(End, e.date)) ==>
        Follows(startCalendar, first) && Follows(endCalendar, second)
      ensures DateTimeBefore(e, s) || !old(Within(Start, s.date) || Within(End, e.date)) ==>
        Kept(startCalendar) && Kept(endCalendar)
      ensures events == old(events) +
        (if DateTimeBefore(e, s) then [] else DateRangeSignals(2 + ShownCount()) + [TimeRangeChanged])
    {
      if DateTimeBefore(e, s) {
        return;
      }
      var startIn, endIn := Within(Start, s.date), Within(End, e.date);
      connected := false; // disconnectSelectionAdded
      WriteRequest(startIn, endIn, s, e);
      RedrawAndCheck(startIn || endIn);
    }

    /** The tail of a request: the calendars are redrawn, then the range is checked once. */
    method RedrawAndCheck(move: bool)
      requires Inv() && !connected
      modifies Repr()
      ensures Valid() && State() == Checked(End, old(State()))
      ensures KeptBounds(startCalendar) && KeptBounds(endCalendar)
      ensures move ==> Follows(startCalendar, first) && Follows(endCalendar, second)
      ensures !move ==> Kept(startCalendar) && Kept(endCalendar)
      ensures events == old(events) + DateRangeSignals(2 + ShownCount()) + [TimeRangeChanged]
    {
      Redraw(move);
      TimeChanged(End);
    }

    /** The calendars follow the pair when it moved and are redrawn; then the handler is reconnected. */
    method Redraw(move: bool)
      requires Inv() && !connected
      modifies Repr()
      ensures Valid() && State() == old(State())
      ensures KeptBounds(startCalendar) && KeptBounds(endCalendar)
      ensures move ==> Follows(startCalendar, first) && Follows(endCalendar, second)
      ensures !move ==> Kept(startCalendar) && Kept(endCalendar)
      ensures events == old(events) + DateRangeSignals(2 + ShownCount())
    {
      if move {
        MoveCalendars(first, second);
      }
      RefreshCalendarSelection();
      connected := true; // connectSelectionAdded
    }

    /** The pair and times a request writes, before its single range check. */
    method WriteRequest(startIn: bool, endIn: bool, s: DateTime, e: DateTime)
      requires Inv() && ValidDate(s.date) && ValidDate(e.date) && IsTime(s.time) && IsTime(e.time)
      requires !DateTimeBefore(e, s)
      modifies this`first, this`second, this`startTime, this`endTime
      ensures Inv() && Checked(End, State()) == Request(startIn, endIn, s, e, old(State()))
    {
      if startIn {
        first := s.date;
        if Before(second, first) {
          second := first;
        }
      }
      if endIn {
        second := e.date;
        if Before(second, first) {
          first := second;
        }
      }
      startTime, endTime := s.time, e.time;
    }
  }

  /**
   * DateTimePicker (datetimepicker.cc:8-54): a calendar in single selection
   * mode and a time edit. DatePicker (56-60) is the same picker with the
   * time edit hidden.
   */
  class DateTimePicker {
    const calendar: CalendarWidget
    var time: int
    var events: seq<PickerEvent>

    ghost function Repr(): set<object> {
      {this} + calendar.Repr()
    }

    /** A single selection holds at most one date. */
    ghost predicate Valid()
      reads Repr()
    {
      this !in calendar.Repr() && calendar.Valid() &&
      calendar.calendar.mode == SingleSelection && |calendar.calendar.selected| <= 1 && IsTime(time)
    }

    /**
     * The constructor (datetimepicker.cc:8-32): a calendar on (y, m) with
     * today selected when it lies within its bounds, and the time 00:00:00.
     * The selection is made before the picker connects to it, so no slot runs.
     */
    constructor(y: int, m: int, today: Date, names: seq<string>, now: int)
      requires 1 <= m <= 12 && IsTime(now)
      ensures Valid() && fresh(Repr())
      ensures time == 0 && events == []
      ensures calendar.calendar.year == y && calendar.calendar.month == m
      ensures calendar.calendar.selected ==
        (if InBounds(today, calendar.calendar.minDate, calendar.calendar.maxDate) then [today] else [])
    {
      calendar := new CalendarWidget(y, m, names, now);
      time := 0;
      events := [];
      new;
      var _ := calendar.AddSelectedDate(today);
    }

    /** dateTime (datetimepicker.cc:40-43): the selected date with the edit's time; the source needs a selection. */
    function CurrentDateTime(): (r: DateTime)
      requires calendar.calendar.selected != []
      reads this, calendar.calendar
      ensures r.date in calendar.calendar.selected && r.time == time
    {
      DateTime(calendar.calendar.selected[0], time)
    }

    /**
     * setDateTime (datetimepicker.cc:34-38): the date is selected, then the
     * edit takes the time. A newly selected date runs calendarSelectionChanged
     * (calendartable.cc:494-521 sends selectionChanged), which sends
     * dateChanged and moves the calendar to the date's month; otherwise the
     * month is left alone. A changed time then sends timeChanged (SetTime).
     * A date within the bounds is read back by dateTime.
     */
    method SetDateTime(dt: DateTime)
      requires Valid() && IsTime(dt.time)
      modifies Repr()
      ensures Valid() && time == dt.time
      ensures calendar.calendar.minDate == old(calendar.calendar.minDate) && calendar.calendar.maxDate == old(calendar.calendar.maxDate)
      ensures old(InBounds(dt.date, calendar.calendar.minDate, calendar.calendar.maxDate)) ==>
        calendar.calendar.selected == [dt.date] && CurrentDateTime() == dt
      ensures !old(InBounds(dt.date, calendar.calendar.minDate, calendar.calendar.maxDate)) ==>
        calendar.calendar.selected == old(calendar.calendar.selected)
      ensures var added := old(InBounds(dt.date, calendar.calendar.minDate, calendar.calendar.maxDate)) &&
          dt.date !in old(calendar.calendar.selected);
        var t := Target(dt.date.year, dt.date.month, calendar.calendar.minDate, calendar.calendar.maxDate);
        events == old(events) + (if added then [DateChanged(dt.date)] else []) +
          (if old(time) != dt.time then [TimeChanged(dt.time)] else []) &&
        YearMonth(calendar.calendar.year, calendar.calendar.month) ==
          (if added && t.Some? then t.value else YearMonth(old(calendar.calendar.year), old(calendar.calendar.month)))
      ensures old(InBounds(dt.date, calendar.calendar.minDate, calendar.calendar.maxDate) &&
          dt.date !in calendar.calendar.selected) && ValidDate(dt.date) ==>
        calendar.calendar.year == dt.date.year && calendar.calendar.month == dt.date.month
    {
      var added := calendar.AddSelectedDate(dt.date);
      if added {
        CalendarSelectionChanged();
        if ValidDate(dt.date) {
          TargetOfDateWithinBounds(dt.date, calendar.calendar.minDate, calendar.calendar.maxDate);
        }
      }
      SetTime(dt.time);
    }

    /**
     * time_edit_->setTime(t): QTimeEdit sends timeChanged, and with it
     * userTimeChanged (connected at datetimepicker.cc:24), only when the time
     * changes.
     */
    method SetTime(t: int)
      requires Valid() && IsTime(t)
      modifies this`time, this`events
      ensures Valid() && time == t
      ensures events == old(events) + (if old(time) != t then [TimeChanged(t)] else [])
    {
      if time != t {
        UserTimeChanged(t);
      }
    }

    /**
     * calendarSelectionChanged (datetimepicker.cc:45-54): with a date
     * selected, the calendar moves to its month and dateChanged is sent.
     */
    method CalendarSelectionChanged()
      requires Valid()
      modifies Repr()
      ensures Valid() && time == old(time)
      ensures calendar.calendar.selected == old(calendar.calendar.selected)
      ensures calendar.calendar.minDate == old(calendar.calendar.minDate) && calendar.calendar.maxDate == old(calendar.calendar.maxDate)
      ensures old(calendar.calendar.selected) == [] ==> events == old(events)
      ensures old(calendar.calendar.selected) != [] ==> (
        var d := old(calendar.calendar.selected[0]);
        events == old(events) + [DateChanged(d)] &&
        var t := Target(d.year, d.month, calendar.calendar.minDate, calendar.calendar.maxDate);
        YearMonth(calendar.calendar.year, calendar.calendar.month) ==
          (if t.Some? then t.value else YearMonth(old(calendar.calendar.year), old(calendar.calendar.month))))
    {
      if calendar.calendar.selected == [] {
        return;
      }
      var d := calendar.calendar.selected[0];
      var _ := calendar.SetYearMonth(d.year, d.month);
      events := events + [DateChanged(d)];
    }

    /** The edit's time changes (by the user, or by SetTime): userTimeChanged reaches the picker's timeChanged signal. */
    method UserTimeChanged(t: int)
      requires Valid() && IsTime(t)
      modifies this`time, this`events
      ensures Valid() && time == t && events == old(events) + [TimeChanged(t)]
    {
      time := t;
      events := events + [TimeChanged(t)];
    }

    /** A click on the table item holding d (the 120 ms click timer starts). */
    method ItemClicked(d: Date)
      requires Valid() && ValidDate(d)
      modifies calendar.calendar`clickedDate, calendar.calendar`isDoubleClicked, calendar.calendar`pendingClicks
      ensures Valid()
      ensures !old(calendar.calendar.isDoubleClicked) ==> (calendar.calendar.clickedDate == Some(d) &&
        calendar.calendar.pendingClicks == old(calendar.calendar.pendingClicks) + 1)
    {
      calendar.ItemClicked(d);
    }

    /**
     * The click timer fires. In single mode a click selects an unselected
     * date within the bounds, and never clears the selection; a new
     * selection runs calendarSelectionChanged.
     */
    method ClickTimerFired()
      requires Valid() && calendar.calendar.pendingClicks > 0
      modifies Repr()
      ensures Valid() && time == old(time)
      ensures calendar.calendar.minDate == old(calendar.calendar.minDate) && calendar.calendar.maxDate == old(calendar.calendar.maxDate)
      ensures var c := old(calendar.calendar.clickedDate);
        var fired := !old(calendar.calendar.isDoubleClicked) && c.Some? && c.value !in old(calendar.calendar.selected) &&
          old(InBounds(c.value, calendar.calendar.minDate, calendar.calendar.maxDate));
        (fired ==>
           calendar.calendar.selected == [c.value] && events == old(events) + [DateChanged(c.value)] &&
           calendar.calendar.year == c.value.year && calendar.calendar.month == c.value.month) &&
        (!fired ==>
           calendar.calendar.selected == old(calendar.calendar.selected) && events == old(events) &&
           calendar.calendar.year == old(calendar.calendar.year) && calendar.calendar.month == old(calendar.calendar.month))
    {
      var outcome := calendar.ClickTimerFired();
      if outcome.Added? {
        CalendarSelectionChanged();
        TargetOfDateWithinBounds(outcome.date, calendar.calendar.minDate, calendar.calendar.maxDate);
      }
    }
  }
}

=== FILE: text_format.dfy ===
/**
 * The text forms the date edit stores: QDateTime::toString and
 * QDateTime::fromString with the formats "yyyy-MM-dd hh:mm:ss" and
 * "yyyy-MM-dd", and QString::split on the " ~ " that joins the two ends of
 * a range.
 */
module TextFormat {
  import opened Dates

  /** The two display formats the edit uses: "yyyy-MM-dd hh:mm:ss" and "yyyy-MM-dd". */
  datatype Layout = DateAndTime | DateOnly

  // ---------------------------------------------------------------------------
  // Decimal digits

  predicate IsDigit(c: char) { '0' <= c <= '9' }

  predicate AllDigits(s: string) {
    forall i :: 0 <= i < |s| ==> IsDigit(s[i])
  }

  function DigitChar(n: int): (c: char)
    requires 0 <= n < 10
    ensures IsDigit(c) && c as int - '0' as int == n
  {
    ('0' as int + n) as char
  }

  /** The decimal digits of n, without leading zeros. */
  function NatDigits(n: nat): (r: string)
    ensures |r| >= 1 && AllDigits(r)
  {
    if n < 10 then [DigitChar(n)] else NatDigits(n / 10) + [DigitChar(n % 10)]
  }

  function Zeros(k: nat): (r: string)
    ensures |r| == k && AllDigits(r)
  {
    if k == 0 then [] else Zeros(k - 1) + ['0']
  }

  /** n in decimal, padded with zeros on the left to at least w digits (the yyyy, MM, dd, hh, mm, ss fields). */
  function Pad(n: nat, w: nat): (r: string)
    ensures |r| >= w && AllDigits(r)
  {
    var ds := NatDigits(n);
    if |ds| < w then Zeros(w - |ds|) + ds else ds
  }

  /** The value of a string of decimal digits, most significant first. */
  function DigitsValue(s: string): nat {
    if s == [] then 0
    else DigitsValue(s[..|s| - 1]) * 10 + (if IsDigit(s[|s| - 1]) then s[|s| - 1] as int - '0' as int else 0)
  }

  lemma {:induction false} DigitsValueNat(n: nat)
    ensures DigitsValue(NatDigits(n)) == n
  {
    if n >= 10 {
      var ds := NatDigits(n / 10) + [DigitChar(n % 10)];
      assert ds[..|ds| - 1] == NatDigits(n / 10);
      DigitsValueNat(n / 10);
    }
  }

  lemma {:induction false} DigitsValueZeros(k: nat, s: string)
    ensures DigitsValue(Zeros(k) + s) == DigitsValue(s)
    decreases |s|, k
  {
    if s == [] {
      assert Zeros(k) + s == Zeros(k);
      if k > 0 {
        assert Zeros(k)[..k - 1] == Zeros(k - 1);
        DigitsValueZeros(k - 1, []);
        assert Zeros(k - 1) + [] == Zeros(k - 1);
      }
    } else {
      var t := Zeros(k) + s;
      assert t[..|t| - 1] == Zeros(k) + s[..|s| - 1];
      DigitsValueZeros(k, s[..|s| - 1]);
    }
  }

  /** A padded field reads back as the number it was written from. */
  lemma PadValue(n: nat, w: nat)
    ensures DigitsValue(Pad(n, w)) == n
  {
    DigitsValueNat(n);
    if |NatDigits(n)| < w {
      DigitsValueZeros(w - |NatDigits(n)|, NatDigits(n));
    }
  }

  /** Two-digit fields stay two digits wide. */
  lemma {:induction false} NatDigitsLength(n: nat)
    ensures n < 10 ==> |NatDigits(n)| == 1
    ensures 10 <= n < 100 ==> |NatDigits(n)| == 2
  {
  }

  // ---------------------------------------------------------------------------
  // toString

  /** yyyy: the year in at least four digits, a minus sign in front of a negative year. */
  function YearText(y: int): (r: string)
    ensures |r| >= 4 && '~' !in r && ' ' !in r
  {
    if y < 0 then "-" + Pad(-y, 4) else Pad(y, 4)
  }

  function DateText(d: Date): (r: string)
    requires ValidDate(d)
    ensures |r| >= 10 && '~' !in r && ' ' !in r
  {
    NatDigitsLength(d.month);
    NatDigitsLength(d.day);
    YearText(d.year) + "-" + Pad(d.month, 2) + "-" + Pad(d.day, 2)
  }

  function TimeText(t: int): (r: string)
    requires IsTime(t)
    ensures |r| == 8 && '~' !in r && ' ' !in r
  {
    NatDigitsLength(t / 3600);
    NatDigitsLength(t / 60 % 60);
    NatDigitsLength(t % 60);
    Pad(t / 3600, 2) + ":" + Pad(t / 60 % 60, 2) + ":" + Pad(t % 60, 2)
  }

  /** QDateTime::toString with the layout's format; the date-only format drops the time. */
  function Format(layout: Layout, dt: DateTime): (r: string)
    requires ValidDate(dt.date) && IsTime(dt.time)
    ensures '~' !in r
  {
    if layout == DateOnly then DateText(dt.date) else DateText(dt.date) + " " + TimeText(dt.time)
  }

  /** What a text written with the layout keeps of a date-time: everything, or the date at 00:00:00. */
  function Shown(layout: Layout, dt: DateTime): (r: DateTime)
    ensures r.date == dt.date
    ensures layout == DateAndTime ==> r == dt
    ensures layout == DateOnly ==> r.time == 0
  {
    if layout == DateOnly then DateTime(dt.date, 0) else dt
  }

  // ---------------------------------------------------------------------------
  // fromString

  function SignedValue(s: string): int {
    if s != [] && s[0] == '-' then -(DigitsValue(s[1..]) as int) else DigitsValue(s)
  }

  /** The fields of a "yyyy-MM-dd" text, read by position from the right. */
  function ReadDate(s: string): Date
    requires |s| >= 6
  {
    Date(SignedValue(s[..|s| - 6]), DigitsValue(s[|s| - 5..|s| - 3]), DigitsValue(s[|s| - 2..]))
  }

  /** The seconds of an "hh:mm:ss" text. */
  function ReadTime(s: string): int
    requires |s| == 8
  {
    DigitsValue(s[..2]) * 3600 + DigitsValue(s[3..5]) * 60 + DigitsValue(s[6..])
  }

  /** The date-time whose fields a text in the layout's format holds, read by position; None when it is too short. */
  function ReadFields(layout: Layout, s: string): Option<DateTime> {
    if layout == DateOnly then
      if |s| < 6 then None else Some(DateTime(ReadDate(s), 0))
    else
      if |s| < 15 then None else Some(DateTime(ReadDate(s[..|s| - 9]), ReadTime(s[|s| - 8..])))
  }

  /**
   * QDateTime::fromString with the layout's format: the fields are read
   * back, and the text is accepted when it is a valid date-time written in
   * that format; otherwise the result is the invalid date-time (None).
   */
  function Parse(layout: Layout, s: string): (r: Option<DateTime>)
    ensures r.Some? ==> ValidDate(r.value.date) && IsTime(r.value.time) && Format(layout, r.value) == s
    ensures r.Some? ==> Shown(layout, r.value) == r.value
  {
    var c := ReadFields(layout, s);
    if c.Some? && ValidDate(c.value.date) && IsTime(c.value.time) && Format(layout, c.value) == s then c else None
  }

  lemma ReadYear(y: int)
    ensures SignedValue(YearText(y)) == y
  {
    if y < 0 {
      assert YearText(y)[1..] == Pad(-y, 4);
      PadValue(-y, 4);
    } else {
      PadValue(y, 4);
    }
  }

  lemma Pad2(n: nat)
    requires n < 100
    ensures |Pad(n, 2)| == 2
  {
    NatDigitsLength(n);
  }

  lemma DateSlices(y: string, mm: string, dd: string)
    requires |mm| == 2 && |dd| == 2
    ensures var s := y + "-" + mm + "-" + dd;
      |s| == |y| + 6 && s[..|s| - 6] == y && s[|s| - 5..|s| - 3] == mm && s[|s| - 2..] == dd
  {
  }

  lemma TimeSlices(hh: string, mm: string, ss: string)
    requires |hh| == 2 && |mm| == 2 && |ss| == 2
    ensures var s := hh + ":" + mm + ":" + ss;
      |s| == 8 && s[..2] == hh && s[3..5] == mm && s[6..] == ss
  {
  }

  lemma ReadDateText(d: Date)
    requires ValidDate(d)
    ensures ReadDate(DateText(d)) == d
  {
    Pad2(d.month);
    Pad2(d.day);
    DateSlices(YearText(d.year), Pad(d.month, 2), Pad(d.day, 2));
    ReadYear(d.year);
    PadValue(d.month, 2);
    PadValue(d.day, 2);
  }

  lemma ReadTimeText(t: int)
    requires IsTime(t)
    ensures ReadTime(TimeText(t)) == t
  {
    Pad2(t / 3600);
    Pad2(t / 60 % 60);
    Pad2(t % 60);
    TimeSlices(Pad(t / 3600, 2), Pad(t / 60 % 60, 2), Pad(t % 60, 2));
    PadValue(t / 3600, 2);
    PadValue(t / 60 % 60, 2);
    PadValue(t % 60, 2);
  }

  /** Reading back what was written gives the date-time as the layout shows it. */
  lemma ParseFormat(layout: Layout, dt: DateTime)
    requires ValidDate(dt.date) && IsTime(dt.time)
    ensures Parse(layout, Format(layout, dt)) == Some(Shown(layout, dt))
  {
    if layout == DateAndTime {
      ParseDateAndTime(dt);
    } else {
      ParseDateOnly(dt);
    }
  }

  lemma ParseDateOnly(dt: DateTime)
    requires ValidDate(dt.date) && IsTime(dt.time)
    ensures Parse(DateOnly, Format(DateOnly, dt)) == Some(DateTime(dt.date, 0))
  {
    ReadDateText(dt.date);
    assert Format(DateOnly, DateTime(dt.date, 0)) == Format(DateOnly, dt);
  }

  lemma ParseDateAndTime(dt: DateTime)
    requires ValidDate(dt.date) && IsTime(dt.time)
    ensures Parse(DateAndTime, Format(DateAndTime, dt)) == Some(dt)
  {
    ReadFieldsDateAndTime(dt);
  }

  lemma ReadFieldsDateAndTime(dt: DateTime)
    requires ValidDate(dt.date) && IsTime(dt.time)
    ensures ReadFields(DateAndTime, Format(DateAndTime, dt)) == Some(dt)
  {
    ReadFieldsJoined(DateText(dt.date), TimeText(dt.time));
    ReadDateText(dt.date);
    ReadTimeText(dt.time);
  }

  lemma ReadFieldsJoined(ds: string, ts: string)
    requires |ds| >= 6 && |ts| == 8
    ensures ReadFields(DateAndTime, ds + " " + ts) == Some(DateTime(ReadDate(ds), ReadTime(ts)))
  {
    DateTimeSlices(ds, ts);
  }

  lemma DateTimeSlices(ds: string, ts: string)
    requires |ts| == 8
    ensures var s := ds + " " + ts;
      |s| == |ds| + 9 && s[..|s| - 9] == ds && s[|s| - 8..] == ts
  {
  }

  /** Two date-times are written alike exactly when the layout shows them alike. */
  lemma FormatInjective(layout: Layout, a: DateTime, b: DateTime)
    requires ValidDate(a.date) && IsTime(a.time) && ValidDate(b.date) && IsTime(b.time)
    ensures Format(layout, a) == Format(layout, b) <==> Shown(layout, a) == Shown(layout, b)
  {
    ParseFormat(layout, a);
    ParseFormat(layout, b);
  }

  // ---------------------------------------------------------------------------
  // QString::split and its inverse

  /** The separator between the two ends of a range. */
  const RangeSep: string := " ~ "

  /** The first occurrence of sep in s at or after position k. */
  function FindFrom(s: string, sep: string, k: nat): (r: Option<nat>)
    requires |sep| > 0
    ensures r.Some? ==> k <= r.value && r.value + |sep| <= |s| && s[r.value..r.value + |sep|] == sep
    decreases |s| - k
  {
    if k + |sep| > |s| then None
    else if s[k..k + |sep|] == sep then Some(k)
    else FindFrom(s, sep, k + 1)
  }

  function Join(parts: seq<string>, sep: string): string {
    if |parts| == 0 then ""
    else if |parts| == 1 then parts[0]
    else parts[0] + sep + Join(parts[1..], sep)
  }

  /** QString::split(sep): the pieces between the occurrences of sep, left to right; joining them back gives s. */
  function Split(s: string, sep: string): (r: seq<string>)
    requires |sep| > 0
    ensures |r| >= 1 && Join(r, sep) == s
    decreases |s|
  {
    match FindFrom(s, sep, 0)
    case None => [s]
    case Some(i) =>
      var rest := Split(s[i + |sep|..], sep);
      assert s == s[..i] + sep + s[i + |sep|..];
      [s[..i]] + rest
  }

  /** No occurrence of " ~ " starts at or after k when the text holds no '~' from k + 1 on. */
  lemma {:induction false} FindNone(s: string, k: nat)
    requires forall i :: k < i < |s| ==> s[i] != '~'
    ensures FindFrom(s, RangeSep, k) == None
    decreases |s| - k
  {
    if k + 3 <= |s| {
      assert s[k..k + 3][1] == s[k + 1];
      FindNone(s, k + 1);
    }
  }

  /** The first " ~ " of a ~ " ~ " ~ b lies right after a when a holds no '~'. */
  lemma {:induction false} FindAfter(a: string, b: string, k: nat)
    requires '~' !in a && k <= |a|
    ensures FindFrom(a + RangeSep + b, RangeSep, k) == Some(|a|)
    decreases |a| - k
  {
    var s := a + RangeSep + b;
    if k < |a| {
      assert s[k..k + 3][1] == s[k + 1];
      assert s[k + 1] != '~' by {
        if k + 1 < |a| {
          assert s[k + 1] == a[k + 1];
        }
      }
      FindAfter(a, b, k + 1);
    } else {
      assert s[k..k + 3] == RangeSep;
    }
  }

  /** Splitting two ends joined by " ~ " gives the two ends back, when neither holds a '~'. */
  lemma SplitRange(a: string, b: string)
    requires '~' !in a && '~' !in b
    ensures Split(a + RangeSep + b, RangeSep) == [a, b]
  {
    var s := a + RangeSep + b;
    FindAfter(a, b, 0);
    assert s[..|a|] == a;
    assert s[|a| + 3..] == b;
    FindNone(b, 0);
  }
}
